=== FILE: README.md ===
# Car dealership API: a Dafny model of its services, schemas and guards

This project models the core of a car-dealership REST API written in
TypeScript over Mongoose, Zod, bcrypt and JSON Web Tokens. It covers
these parts:

- **Catalogue.** Cars are filed under categories. The catalogue supports
  create, lookup, partial update, delete, the per-category listing and the
  filtered, sorted, paginated listing.
- **Categories.** Create, lookup, update, delete and the name-ordered listing.
- **Purchases.** A customer buys an AVAILABLE car at its listed price. That
  records a purchase and turns the car SOLD. There are also the purchase
  lookups and listings.
- **Accounts.** Customer and manager registration, the customer, manager
  and administrator logins, the role-dispatched profile and password change.
  The administrative account listings return password-free projections.
- **Request schemas.** The password, phone, address, age and
  confirm-password rules, and the create and update body rules for cars,
  categories and purchases. Each update schema is the create schema with
  every field optional. The query schemas are included too.
- **Stored schemas.** The rules every written record obeys: required paths,
  bounds, VIN shape, e-mail normalisation, role defaults. The unique indexes
  on VIN, category name, account e-mail and licence number are modelled as
  well.
- **Request guards.** `authenticate` reads the bearer header and verifies
  the token. `authorize` applies a role allow-list. The purchase handler has
  its own customer-only gate and maps errors to responses.

The database is a `Store`: one map from identifier to immutable record per
collection. A service returns a `Step`, the new store together with a
`Result` (a value or the error it throws). Most contracts state "an error
leaves the store unchanged". A write runs in a fixed order:

1. the schema setters (trim, lowercase);
2. the validators (`Invalid`);
3. the password hook;
4. the unique indexes (`DuplicateKey`, code 11000).

`Consistent(s, env)` says that every record passes its schema and every
unique index holds. Every write operation is proved to preserve it.

The services take some inputs as parameters:

- Identifiers for new records.
- "Now" and the year the car schema was loaded in.
- The payment-method enumeration.
- bcrypt, as a `Hasher`. `Sound(h)` states what is assumed of it: a fixed
  hash length, and exactly the original plaintext compares equal.
- Token signing and verification, as a `Jwt` with `JwtSound`.
- The `JWT_SECRET` variable, as two values: `atLoad`, read once when the
  token utility module loads, which fixes the signing key, and
  `atRequest`, read by the middleware on every request. They differ
  whenever the variable is set after the application has been imported.
- Zod's e-mail, URL and ObjectId checks, as `Formats`.

The request-body middleware validates a body but passes the raw body on.
So the services see the body as sent, and every body field is an `Option`.
A key that the request schema does not list still reaches the stored schema
when that schema has a path for it. The bodies therefore also carry the
paths a client can set this way and that the model tracks: `lastLogin` on
both registration bodies, `isActive` on the manager one, and `addedBy` on
the car body. A supplied value replaces the path's default.

## Model

| member | source | states |
|---|---|---|
| Passwords.PreSave | src/utils/password.utils.ts:19-28 | an unmodified password is written back unchanged; a modified one is replaced by its hash, and a hashing failure aborts the save; with a sound hasher the hash has the fixed length and matches exactly the plaintext |
| Passwords.ResaveIsIdempotent | src/utils/password.utils.ts:19-20 | after any successful save, however many saves that leave the password untouched follow, the stored value stays what that save wrote |
| Format.FormatManager | src/utils/format.utils.ts:5-19 | the manager projection carries the identifier and every stored field but the password, unchanged |
| Format.FormatCustomer | src/utils/format.utils.ts:21-37 | the customer projection carries the identifier and every stored field but the password, including date of birth, licence number and address, unchanged |
| Format.FormatAdmin | src/utils/format.utils.ts:39-49 | the admin projection carries the identifier, address, role and the three timestamps of the record |
| Format.ViewsHidePassword | src/utils/format.utils.ts:5-49 | no projection has a password or `__v` key; the admin projection names its identifier `id`, the others `_id` |
| Format.ProjectionsIgnorePassword | src/utils/format.utils.ts:5-49 | changing the stored password never changes any projection |
| Format.ProjectionsDetermineRecord | src/utils/format.utils.ts:5-37 | two records have the same projection exactly when they differ at most in the password |
| FieldRules.PasswordAcceptedIff | src/schemas/validation/utils/validation.utils.ts:7-13 | the password regular expression with its four look-aheads accepts exactly the strings of length at least 8 over the allowed alphabet that contain a lower-case letter, an upper-case letter, a digit and one of @$!%*?& |
| FieldRules.PhoneLengths | src/schemas/validation/utils/validation.utils.ts:15-21 | a phone number is accepted exactly when it matches `(+234 or 0)[789][01]` and eight digits, so only lengths 11 and 14 pass |
| FieldRules.SamplePasswordAccepted | src/tests/auth.test.ts:30 | "Password1@" passes the password rule |
| FieldRules.SamplePhoneAccepted | src/tests/auth.test.ts:31 | "08123456789" passes the phone rule |
| RequestSchemas.AgeCountsYearsOnly | src/schemas/validation/auth.validation.ts:9-14 | the age rule compares calendar years only: month and day never matter, a birth year at most current year minus 18 passes, and a missing date fails |
| RequestSchemas.ManagerBodyNamesManager | src/schemas/validation/auth.validation.ts:18-21 | an accepted manager registration names the role MANAGER and carries a complex password and an 11- or 14-character phone |
| RequestSchemas.LoginIgnoresComplexity | src/schemas/validation/auth.validation.ts:23-26 | login accepts any non-empty password, even one the complexity rule rejects, and refuses the empty one |
| RequestSchemas.ChangePasswordIssues | src/schemas/validation/auth.validation.ts:29-38 | a mismatch is reported at path confirmPassword; there are no issues exactly when the current password is non-empty, the new one is complex and the confirmation equals it |
| RequestSchemas.UpdateCarIsOptionalCreate | src/schemas/validation/car.validation.ts:5-12 | an update body passes exactly when laying it over an accepted create body gives an accepted create body; every create body and the empty body pass update |
| RequestSchemas.UpdateCategoryIsOptionalCreate | src/schemas/validation/category.validation.ts:5-15 | the same relation between the category create and update schemas |
| RequestSchemas.UpdatePurchaseIsLooser | src/schemas/validation/purchase.validation.ts:6-19 | every accepted purchase create body passes update; update accepts any non-empty payment method, while create refuses one outside the enumeration |
| RequestSchemas.ZeroPriceRefused | src/schemas/validation/base/base.validation.ts:38 | a purchase price of 0 is refused by both purchase body schemas, although the stored schema allows it |
| RequestSchemas.QuerySchemasRestrictPaging | src/schemas/validation/car.validation.ts:15-28 | no query schema accepts sorting on createdAt, and each accepted page and limit is at least 1 |
| StoredSchemas.VinAlphabet | src/schemas/car.schema.ts:61-72 | a stored VIN is 17 characters, each a digit or an upper-case letter other than I, O and Q |
| StoredSchemas.InsertCar | src/schemas/car.schema.ts:18-84 | a new car is written exactly when it passes the car schema, its identifier is fresh and no other car has its VIN; a written car keeps the store consistent |
| StoredSchemas.ReplaceCar | src/schemas/car.schema.ts:61-72 | a replacement is written exactly when it passes the schema and no other car has its VIN |
| StoredSchemas.InsertCategory | src/schemas/category.schema.ts:6-16 | a category is written exactly when both paths are non-empty, the identifier is fresh and no other category has the name; a name clash is DuplicateKey("name") |
| StoredSchemas.ReplaceCategory | src/schemas/category.schema.ts:6-11 | a category replacement is written exactly when it is valid and the name is not held by another category |
| StoredSchemas.InsertPurchase | src/schemas/purchase.schema.ts:7-31 | a purchase is written exactly when both references are present, the price is not negative, the payment method is in the enumeration and the identifier is fresh |
| StoredSchemas.PutCustomer | src/schemas/customer.schema.ts:18-72 | a customer is written exactly when neither its e-mail address nor its licence number is held by another customer |
| StoredSchemas.PutManager | src/schemas/manager.schema.ts:18-25 | a manager is written exactly when no other manager has the e-mail address |
| StoredSchemas.PutAdmin | src/schemas/admin.schema.ts:8-15 | an administrator is written exactly when no other administrator has the e-mail address |
| StoredSchemas.CustomerRewriteKeepsConsistent | src/schemas/customer.schema.ts:18-72 | rewriting a stored customer with a valid record that keeps its e-mail address and licence number keeps a consistent store consistent |
| StoredSchemas.ManagerRewriteKeepsConsistent | src/schemas/manager.schema.ts:18-30 | rewriting a stored manager with a valid record that keeps its e-mail address keeps a consistent store consistent |
| StoredSchemas.AdminRewriteKeepsConsistent | src/schemas/admin.schema.ts:8-20 | rewriting a stored administrator with a valid record that keeps its e-mail address keeps a consistent store consistent |
| Listing.Find | src/services/user.service.ts:10 | a collection read lists every matching document exactly once and nothing else |
| Listing.ListingSize | src/services/car.service.ts:66 | the number of listed documents equals the number of matching documents, which is what the count returns |
| Listing.ListsExactlyPermutation | src/services/category.service.ts:14 | reordering a listing, as a sort does, keeps it a listing of exactly the same documents |
| Sorting.SortBy | src/services/category.service.ts:14 | sorting returns a permutation of its input, ordered under a total preorder |
| Sorting.Window | src/services/car.service.ts:61-64 | skip and limit return the run of the sorted results that starts after `skip` items and has at most `limit` of them, with limit 0 meaning no limit |
| Sorting.CeilDiv | src/services/car.service.ts:74 | the page count is the least number of pages of `limit` items that holds every result |
| Sorting.PagesCoverResults | src/services/car.service.ts:61-75 | the first `pages` pages together are exactly the whole sorted result |
| CarService.BodyAdderOverridden | src/services/car.service.ts:17-23 | an `addedBy` in the create body makes no difference: the created car's adder is always the caller |
| CarService.BuildCar | src/services/car.service.ts:17-23 | the car built from a body has the trimmed body fields, status AVAILABLE unless given, empty arrays unless given, and the caller as adder; it fails validation when a required path is missing or the status is unknown |
| CarService.CreateCar | src/services/car.service.ts:10-25 | a missing category fails with "Category not found" and adds nothing; a created car is recorded as added by the caller, and creation succeeds exactly when the category exists and the car passes the schema and the VIN index |
| CarService.OnlyStaffAddCars | src/schemas/car.schema.ts:79-83 | a car submitted in the name of anyone but a manager or an administrator is refused and nothing is written |
| CarService.GetCarById | src/services/car.service.ts:79-85 | the lookup returns the stored car, or fails with "Car not found" exactly when the identifier is absent |
| CarService.DeleteCar | src/services/car.service.ts:99-105 | a delete removes only that identifier and returns the removed car; an absent identifier fails with "Car not found" |
| CarService.CreateThenReadThenDelete | src/services/car.service.ts:10-105 | a created car is read back unchanged, and deleting it restores the previous store |
| CarService.PatchKeepsCarValid | src/services/car.service.ts:87-92 | applying a patch that passes the update validators to a valid car gives a valid car |
| CarService.EmptyPatchTouchesOnlyTimestamp | src/services/car.service.ts:90 | an empty patch changes nothing but the update time |
| CarService.PatchLeavesOthers | src/services/car.service.ts:90 | each of the twelve body paths a patch does not supply keeps its value, the creation time never changes and the update time becomes now; the adder changes only when the patch supplies `addedBy`, and then becomes that value |
| CarService.PatchReassignsAdder | src/services/car.service.ts:87-97 | on a consistent store, a patch holding only a staff `addedBy` succeeds on any stored car and changes only its adder and update time |
| CarService.PatchIdempotent | src/services/car.service.ts:90 | applying the same patch twice is applying it once |
| CarService.PatchKeepsStoreConsistent | src/services/car.service.ts:88-92 | a valid patch that does not take another car's VIN keeps the store consistent |
| CarService.UpdateCar | src/services/car.service.ts:87-97 | an invalid patch fails before the lookup, and a supplied `addedBy` is checked like a stored one; an absent car fails with "Car not found"; success writes only that car, merged with the supplied fields, `addedBy` included |
| CarService.GetCarsByCategory | src/services/car.service.ts:107-109 | the result lists exactly the cars filed under the category, each once, unpaginated |
| CarService.SearchIgnoresModelName | src/services/car.service.ts:42-48 | the search matches make or VIN ignoring case; the clause on `model` names no stored field, so the model name never affects the result |
| CarService.CarOrderIsTotal | src/services/car.service.ts:58-59 | the sort on any field, in either direction, is a total preorder, so the listing can be sorted |
| CarService.SortedListingFacts | src/services/car.service.ts:61-66 | a sorted permutation of the matching cars is a sorted listing, and its length is the count of matching cars |
| CarService.PagesOf | src/services/car.service.ts:74 | for a positive limit the page count is the ceiling of total over limit; a zero limit gives no number (null); a negative limit gives the negative quotient rounded towards zero |
| CarService.GetCars | src/services/car.service.ts:27-77 | a negative skip fails; otherwise total counts every matching car, page and limit echo the query, and the cars are the window of the sorted matches that skips (page-1)·limit and takes at most limit |
| CarService.DefaultQueryPaging | src/services/car.service.ts:28-38 | with no query keys the page is 1, the limit 10, the sort createdAt descending, and every car matches |
| CategoryService.BuildCategory | src/services/category.service.ts:8-9 | a category is built from the trimmed name and description, and fails validation when either is missing |
| CategoryService.CreateCategory | src/services/category.service.ts:8-11 | creation adds exactly one category; it succeeds exactly when both trimmed fields are non-empty and the trimmed name is free; a taken name is DuplicateKey("name") |
| CategoryService.GetCategoryById | src/services/category.service.ts:17-23 | the lookup returns the stored category, or fails with "Category not found" exactly when absent |
| CategoryService.TrimmedNamesCollide | src/schemas/category.schema.ts:9-10 | names that differ only in surrounding blanks collide on the unique name index |
| CategoryService.CategoryPatchLaws | src/services/category.service.ts:25-30 | a valid patch keeps a category valid and its creation time; an empty patch touches only the update time; a patch is idempotent |
| CategoryService.UpdateCategory | src/services/category.service.ts:25-35 | an invalid patch fails first; an absent category fails with "Category not found"; success merges only the supplied fields |
| CategoryService.DeleteCategory | src/services/category.service.ts:37-43 | a delete removes only that category and leaves every car untouched; an absent one fails with "Category not found" |
| CategoryService.DeleteCategoryOrphansCars | src/services/category.service.ts:37-43 | after the delete, cars still name the category, and creating a car under it fails with "Category not found" |
| CategoryService.ByNameIsTotal | src/services/category.service.ts:14 | ordering by name is a total preorder |
| CategoryService.GetCategories | src/services/category.service.ts:13-15 | every category is listed once, in ascending name order |
| PurchaseService.CreatePurchase | src/services/purchase.service.ts:6-36 | the guards run in order: car exists, then AVAILABLE, then price equal, each failing with its own message and changing nothing. Success adds one purchase with the given car, buyer, price and method, and turns only that car SOLD. On a consistent store it succeeds exactly when the car exists and is AVAILABLE, the price matches, the purchase passes its schema and the identifier is fresh |
| PurchaseService.CreatePurchaseKeepsSettled | src/services/purchase.service.ts:17-33 | every purchased car in the catalogue stays SOLD; a successful purchase names a car no earlier purchase names, so at most one purchase per car is kept |
| PurchaseService.SecondPurchaseFails | src/tests/purchase.test.ts:152-171 | once a car is bought, a second attempt by anyone fails with "Car is not available for purchase" and changes nothing |
| PurchaseService.StatusResetAllowsResale | src/schemas/purchase.schema.ts:39 | a car update may set the status back to AVAILABLE, after which the car can be bought again, leaving two purchases for one car |
| PurchaseService.GetPurchaseById | src/services/purchase.service.ts:38-48 | the lookup returns the stored purchase, or fails with "Purchase not found" exactly when absent |
| PurchaseService.GetCustomerPurchases | src/services/purchase.service.ts:50-54 | exactly the customer's purchases, each once, newest first |
| PurchaseService.GetAllPurchases | src/services/purchase.service.ts:56-61 | every purchase once, newest first |
| AuthService.SaveNewCustomer | src/services/auth.service.ts:49-52 | the new customer is written with its password replaced by the hash, exactly when hashing succeeds, the identifier is fresh and neither unique key is taken |
| AuthService.RegisterCustomer | src/services/auth.service.ts:40-61 | a registered address fails with "Email already registered"; success stores the trimmed, normalised record with role CUSTOMER and the hashed password, and returns its password-free projection with a token for it |
| AuthService.RegistrationKeepsSentLoginTime | src/services/auth.service.ts:49-52 | a `lastLogin` sent in the registration body is stored as sent; without one the stored login time is the registration time |
| AuthService.SaveNewManager | src/services/auth.service.ts:26-29 | the new manager is written with the hashed password exactly when hashing succeeds, the identifier is fresh and the address is free; a taken address is DuplicateKey("email") |
| AuthService.RegisterManager | src/services/auth.service.ts:18-38 | the stored manager has role MANAGER whatever the body says; it is active unless the body sends `isActive` false, and its login time is the body's or now; success returns the password-free projection and a token |
| AuthService.InactiveManagerRegisters | src/services/auth.service.ts:26-29 | `isActive` is not validated: a body with `isActive` false registers exactly when the same body without it does, and stores an inactive manager |
| AuthService.DuplicateManagerHitsIndex | src/services/auth.service.ts:19-25 | the pre-check never fires, so a taken manager address fails on the unique index, and the role in the body never matters |
| AuthService.TouchKeepsCustomerValid | src/services/auth.service.ts:76-77 | recording a login changes nothing the customer validators look at |
| AuthService.CustomerLogin | src/services/auth.service.ts:63-86 | an unknown address and a wrong password fail alike with "Invalid credentials" and change nothing; on a consistent store login succeeds exactly when some customer has the address and password, and then only that customer's login and update times change; a consistent store stays consistent |
| AuthService.ManagerLogin | src/services/auth.service.ts:88-109 | the same for managers, including consistency; `isActive` plays no part |
| AuthService.AdminLogin | src/services/auth.service.ts:127-148 | the same for administrators, except that nothing is written, and the response holds only identifier, address and role |
| AuthService.RegisterThenLogin | src/tests/auth.test.ts:95-110 | after registering, the same address and password open the new account, and no other password or account answers to them |
| AuthService.GetProfile | src/services/auth.service.ts:111-125 | MANAGER reads the manager collection and every other role reads the customer collection, failing with "Manager not found" or "Customer not found" |
| AuthService.AdminProfileReadsCustomers | src/services/auth.service.ts:118-124 | an administrator's profile is the customer profile under the same identifier, so an administrator who is not a customer gets "Customer not found" |
| AuthService.ChangePassword | src/services/auth.service.ts:150-187 | an unknown role, an absent account and a wrong current password fail in that order and change nothing; then the save validates every loaded path with the new password, so an account the schema refuses fails with `Invalid` even when the new password equals the stored value; that equal value then succeeds without writing; any other success stores the hash of the new password in that account alone; with a sound hasher a consistent store stays consistent |
| AuthService.SetPasswordKeepsConsistent | src/services/auth.service.ts:181-182 | writing a password of at least six characters into any account keeps a consistent store consistent |
| AuthService.ChangePasswordRevokesOld | src/services/auth.service.ts:181-182 | after a change, the new password and no other opens the account, so the old one no longer does |
| AuthService.FailedChangeKeepsPasswords | src/services/auth.service.ts:172-179 | a failed change leaves every stored password as it was |
| UserService.GetAllCustomers | src/services/user.service.ts:9-12 | one projection per stored customer, each once, each equal to that customer's projection |
| UserService.GetCustomerById | src/services/user.service.ts:14-20 | the projection of the stored customer, or "Customer not found" exactly when absent |
| UserService.GetAllManagers | src/services/user.service.ts:22-25 | one projection per stored manager, each once |
| UserService.GetManagerById | src/services/user.service.ts:27-33 | the projection of the stored manager, or "Manager not found" exactly when absent |
| UserService.LookupsAgreeWithProfile | src/services/user.service.ts:14-33 | the administrative lookups agree with the profile route, and a password change is invisible to them |
| AccessControl.SigningKey | src/utils/jwt.ts:5-6 | tokens are signed with the secret as read when the module loads, or the built-in one when it was unset or empty then |
| AccessControl.BearerToken | src/middleware/auth.middleware.ts:24 | the token is what follows "Bearer " up to the next blank or the end |
| AccessControl.BearerTokenRoundTrip | src/middleware/auth.middleware.ts:24 | a blank-free token placed after "Bearer " is read back unchanged |
| AccessControl.Authenticate | src/middleware/auth.middleware.ts:12-35 | the corrected middleware of "## Findings", verifying under the signing key: a missing header, or one not starting with "Bearer ", gives 401 "No token provided"; a token that fails verification gives 401 "Invalid token"; otherwise the request continues with the decoded identity |
| AccessControl.AuthenticateAsWritten | src/middleware/auth.middleware.ts:12-35 | the middleware as written verifies with the variable as read at the request, with no fallback; a token is admitted exactly when it verifies under that key, and never when there is none; it agrees with the corrected middleware only when that key is the signing key |
| AccessControl.UnsetSecretRejectsIssuedTokens | src/middleware/auth.middleware.ts:25 | with the secret unset at the request, the middleware as written refuses every token the service issues, whatever the signing key |
| AccessControl.IssuedTokenAsWrittenIff | src/middleware/auth.middleware.ts:25 | the middleware as written admits an issued token exactly when the variable read at the request holds the signing key fixed at load; otherwise 401 "Invalid token" |
| AccessControl.SecretSetAfterLoadRejectsIssuedTokens | src/tests/setup.ts:2-7 | with no secret at load and "test-jwt-secret" set afterwards, as the test setup does, every issued token gets 401 "Invalid token" |
| AccessControl.IssuedTokensAuthenticate | src/utils/jwt.ts:20 | verified under the signing key, every issued token admits exactly the identity it was issued for |
| AccessControl.MalformedHeaderSkipsVerification | src/middleware/auth.middleware.ts:18-22 | a malformed header is refused without verification, whatever the verifier and the secret |
| AccessControl.TrailingSegmentsIgnored | src/middleware/auth.middleware.ts:24 | anything after a further blank in the header is ignored |
| AccessControl.Authorize | src/middleware/auth.middleware.ts:37-57 | no identity gives 401; a role off the list gives 403; a role on the list continues with the identity unchanged |
| AccessControl.NoRoleHierarchy | src/middleware/auth.middleware.ts:48-53 | roles are compared for equality only, so no role stands in for another on the routes' allow-lists |
| AccessControl.Guard | src/routes/car.routes.ts:19-29 | a protected route built on the corrected middleware of "## Findings" admits exactly the identities that verify under the signing key and whose role is on its list |
| AccessControl.IssuedTokenPassesGuard | src/utils/jwt.ts:9-21 | on the corrected route, an issued token passes exactly when the account's role is on the route's list |
| AccessControl.GuardAsWritten | src/routes/car.routes.ts:19-29 | a protected route as written admits exactly the identities that verify under the variable read at the request and whose role is on its list; it equals the corrected route when that key is the signing key |
| AccessControl.IssuedTokenPassesGuardAsWritten | src/middleware/auth.middleware.ts:25 | on the route as written, an issued token passes exactly when the variable read at the request holds the signing key and the account's role is on the list |
| PurchaseController.CreatePurchase | src/controllers/purchase.controller.ts:8-44 | no identity or a non-customer gets 403 "Only customers can make purchases" and the service does not run; the buyer is the caller; success is 201 with the purchase; code 11000 is 400 "Car has already been purchased"; any other error is 400 with message "Failed to create purchase" and the error's message as the error text, which for a validation failure is only its "<Model> validation failed" prefix; a consistent store stays consistent |
| PurchaseController.StaffCannotBuy | src/controllers/purchase.controller.ts:13-18 | managers and administrators are turned away whatever the body, and the store is untouched |
| PurchaseController.AlreadyPurchasedMessages | src/controllers/purchase.controller.ts:35-42 | buying a sold car reports the service message "Car is not available for purchase"; the "already purchased" answer comes only from an identifier clash on a car still for sale |
| PurchaseController.BuyerIsCaller | src/controllers/purchase.controller.ts:20-21 | a recorded purchase names the caller as buyer, the body's car at its listed price, and that car is now SOLD |
| PurchaseController.GetPurchaseById | src/controllers/purchase.controller.ts:46-63 | the stored purchase with 200, or 404 "Failed to retrieve purchase" exactly when it is absent |

## Left out

- Mongoose `populate` joins on purchase reads are not modelled: a purchase is returned with bare references.
- Concurrency: the read-check-write window in `createPurchase` is modelled sequentially; no atomicity is claimed.
- bcrypt is the `Hasher` parameter. Its salt, its 72-byte input limit and its timing are not modelled.
- jsonwebtoken is the `Jwt` parameter. Token expiry depends on the clock and is not modelled.
- AccessControl.JwtSound assumes that verification without a key fails for every token, as in jsonwebtoken 9 and later. The source fixes no version. In jsonwebtoken 8 and earlier, a missing secret still admits an unsigned `alg: none` token. With `JWT_SECRET` unset, the middleware as written would then accept a forged token claiming any identity and role. AuthenticateAsWritten's third ensures and UnsetSecretRejectsIssuedTokens rest on this assumption.
- AccessControl.KeysSeparate assumes that a token signed under one key never verifies under another. For HMAC signatures this holds except with negligible probability. IssuedTokenAsWrittenIff, SecretSetAfterLoadRejectsIssuedTokens and IssuedTokenPassesGuardAsWritten rest on it.
- Results.Error.Message: the message of a validation error is only its "<Model> validation failed" prefix. Mongoose appends each failing path and its validator's message, for example ": paymentMethod: Payment method is required". A duplicate-key message is likewise reduced to the field. So PurchaseController.CreatePurchase's error text equals the source's only for errors a service throws itself.
- Zod's `.email()` and `.url()` and `ObjectId.isValid` are the `Formats` parameter. A stored ObjectId path is modelled as a non-empty identifier, so a malformed id is not turned into a cast error.
- `Number(...)` parsing of query strings is not modelled. Page, limit and prices arrive as integers or are absent. Prices, years and mileage are integers, not floating-point numbers.
- The enumeration files are not part of this model. CarStatus is AVAILABLE or SOLD. The payment methods are a parameter set.
- The `$regex` search is modelled as case-insensitive substring search. Regular-expression metacharacters in a search term are not interpreted.
- CarService.GetCars: sorting on a field that is absent, or on status, features, images, `addedBy.role` or `__v`, treats every key as absent, so all entries compare equal and any order counts as sorted. The enumeration files that give status and role their stored strings are not part of this model, so their relative order is unknown. The store's ordering of arrays and of mixed types beyond numbers and strings is not modelled either.
- The skip error for a negative page is modelled as an error without the driver's exact message.
- `toObject()` in the registration responses also carries `__v`, which the projection used here omits.
- Timestamp, `_id` and `__v` keys in a request body are not modelled: new records are stamped with the given "now" and saved under the given identifier, and a patch never sets `createdAt`. The model tracks only the body keys named above.
- A body value of the wrong type for its stored path is not modelled. Examples are an `isActive` of "no" or a `lastLogin` that is not a date. The bodies hold booleans, integer dates and role values, so Mongoose's casting and its cast errors are left out.
- Text is modelled as sequences of code points with ASCII-only rules. `Trim` removes only ASCII blanks, where JavaScript's `trim` also removes Unicode spaces such as U+00A0. Lowercasing maps only A-Z, where JavaScript's lowercasing also maps letters such as É. The `\S` and `\s` classes are ASCII too. So two category names or e-mail addresses that differ only by such characters collide in the source but not in the model.
- Zod's `min` and `length` count UTF-16 code units, while the model counts code points. A string holding one character outside the Basic Multilingual Plane, such as an emoji, passes `min(2)` in the source but fails in the model.
- The age rule takes the birth year from the parsed date, and JavaScript reads a date-only string as UTC midnight but `getFullYear` in the server's local time zone. West of UTC, a birth date of 1 January therefore counts as the previous year. The model takes the calendar year as written.
- The readings of `registerManager`'s `where` filter and of the search clause on `model` assume Mongoose 7 or later, or `strictQuery: false`: an unknown path is kept in the filter and matches nothing. Under `strictQuery: true`, the Mongoose 6 default, the path is removed. Then every manager registration after the first fails with "Email already registered", and any non-empty search matches every car. The source fixes no Mongoose version.
- Account registration bodies give their text fields as plain strings. A missing field is the empty string, which the schema refuses alike.
- Express routing, the request-body middleware's error formatting, the other controllers, the seeder and the test setup are not modelled. The route allow-lists appear as constants.
- The query schemas are modelled as predicates but are not attached to any route, as in the source. `getCars` reads the raw query.
- Two test expectations are not backed by the code and are not turned into properties: the `/api/purchases/my-purchases/:id` route, which no route file defines, and filtering cars by `make`, a query key `getCars` ignores.
- AuthService.CustomerLogin: the "succeeds exactly when the credentials match" direction is stated for stores whose unique indexes and validators hold. On other stores, which of several matches the lookup picks is unspecified. The same holds for ManagerLogin and AdminLogin.
- CarService.GetCars: entries with equal sort keys come back in an unspecified order. The contract therefore says only that some sorted arrangement of the matches is windowed.

## Findings

| source | as written | input that shows it | evidently intended | confidence | as-written member | corrected member |
|---|---|---|---|---|---|---|
| src/middleware/auth.middleware.ts:25 | tokens are verified with `process.env.JWT_SECRET!`, with no fallback, while src/utils/jwt.ts:6 signs them with the built-in secret when the variable is unset | JWT_SECRET unset: register a customer, then send `Bearer <issued token>` to any protected route; the answer is 401 "Invalid token". The same happens when the variable is set only after the application is imported, as src/tests/setup.ts:2-7 does with no `.env` file: tokens are signed with the built-in secret and verified with "test-jwt-secret" | verify with the same key tokens are signed with, so every issued token authenticates | likely; not executed | AccessControl.AuthenticateAsWritten (shown by AccessControl.UnsetSecretRejectsIssuedTokens, AccessControl.IssuedTokenAsWrittenIff and AccessControl.SecretSetAfterLoadRejectsIssuedTokens) | AccessControl.Authenticate (proved by AccessControl.IssuedTokensAuthenticate) |

The other places where the code departs from what its surroundings suggest
are modelled as written and stated as lemmas, not as findings:

- `registerManager` looks managers up by a `where` key that no manager
  document has, so its "Email already registered" branch is unreachable.
  The unique index refuses a taken address instead (`DuplicateManagerHitsIndex`).
  This reading, and the next one, assume Mongoose's `strictQuery: false`
  (see "## Left out").
- The search clause on `model` names a field that cars do not have, so it
  never matches (`SearchIgnoresModelName`).
- An administrator's profile is looked up among customers (`AdminProfileReadsCustomers`).
- The controller's "Car has already been purchased" answer is reachable only
  through an identifier clash, not by buying a sold car (`AlreadyPurchasedMessages`).

Account look-ups by e-mail address apply the same trim and lowercase
setters to the query value as the stored path does.

=== FILE: access_control.dfy ===
/** The two request guards: `authenticate`, which turns an Authorization
    header into the identity of a verified bearer token, and `authorize`,
    which admits an identity whose role is on a route's allow-list.

    Token signing and verification are a `Jwt` parameter. The `JWT_SECRET`
    environment variable is read twice, and the two reads are separate
    parameters, `None` when unset: `atLoad`, its value when the token
    utility module is first loaded, which fixes the signing key, and
    `atRequest`, its value when the middleware handles a request.
 */
module AccessControl {
  import opened Results
  import opened Text
  import opened Domain

  /** `sign(key, claims)` and `verify(key, token)`. Verification with no key
      is assumed to fail for every token: jsonwebtoken 9 and later refuses
      a missing secret, while earlier versions still accept an unsigned
      `alg: none` token then. */
  datatype Jwt = Jwt(sign: (string, Claims) -> string, verify: (Option<string>, string) -> Option<Claims>)

  /** A token verifies, under the key it was signed with, to the claims it
      was signed over; tokens contain no blank; nothing verifies without a key. */
  ghost predicate JwtSound(j: Jwt) {
    && (forall k, c :: j.verify(Some(k), j.sign(k, c)) == Some(c))
    && (forall k, c :: ' ' !in j.sign(k, c))
    && (forall t :: j.verify(None, t) == None)
  }

  /** A token signed under one key does not verify under another: the
      HMAC signature is taken to be unforgeable. */
  ghost predicate KeysSeparate(j: Jwt) {
    forall k1, k2, c :: k1 != k2 ==> j.verify(Some(k2), j.sign(k1, c)).None?
  }

  /** The built-in secret token signing falls back on. */
  const DefaultSecret: string := "your-super-secret-jwt-key"

  /** The key tokens are signed with, fixed when the module loads: the
      secret read then, or the built-in one when it was unset or empty. */
  function SigningKey(atLoad: Option<string>): (k: string)
    ensures k != ""
    ensures atLoad.Some? && atLoad.value != "" ==> k == atLoad.value
  {
    if atLoad.Some? && atLoad.value != "" then atLoad.value else DefaultSecret
  }

  /** `generateToken`: the identifier, e-mail address and role of the account. */
  function IssueToken(j: Jwt, atLoad: Option<string>, c: Claims): string {
    j.sign(SigningKey(atLoad), c)
  }

  /** The outcome of a guard: continue with an identity, or answer with a status. */
  datatype Gate = Admit(user: Claims) | Reject(status: int, message: string)

  const BearerPrefix: string := "Bearer "

  lemma BearerSplit(header: string)
    requires StartsWith(header, BearerPrefix)
    ensures |Split(header, ' ')| >= 2
    ensures Split(header, ' ')[1] == Split(header[|BearerPrefix|..], ' ')[0]
  {
    var rest := header[|BearerPrefix|..];
    assert header == "Bearer" + rest[..0] + ([' '] + rest) by {
      assert header == header[..|BearerPrefix|] + rest;
    }
    IndexOfPrefix("Bearer", [' '] + rest, ' ');
    assert "Bearer" + rest[..0] + ([' '] + rest) == "Bearer" + ([' '] + rest);
    assert header[IndexOf(header, ' ') + 1..] == rest;
  }

  /** `authHeader.split(" ")[1]`: what follows "Bearer " up to the next
      blank, or to the end. */
  function BearerToken(header: string): (t: string)
    requires StartsWith(header, BearerPrefix)
    ensures ' ' !in t
    ensures StartsWith(header[|BearerPrefix|..], t)
    ensures |BearerPrefix| + |t| == |header| || header[|BearerPrefix| + |t|] == ' '
  {
    BearerSplit(header);
    var rest := header[|BearerPrefix|..];
    assert Split(rest, ' ')[0] == rest[..IndexOf(rest, ' ')];
    Split(header, ' ')[1]
  }

  /** A blank-free token behind the prefix is read back unchanged. */
  lemma BearerTokenRoundTrip(t: string)
    requires ' ' !in t
    ensures StartsWith(BearerPrefix + t, BearerPrefix)
    ensures BearerToken(BearerPrefix + t) == t
  {
    var header := BearerPrefix + t;
    assert header[..|BearerPrefix|] == BearerPrefix;
    assert header[|BearerPrefix|..] == t;
    var r := BearerToken(header);
    assert t[..|r|] == r;
  }

  /** `authenticate`, with the verification key corrected to the signing
      key, as the token utility's own `verifyToken` uses it. */
  function Authenticate(j: Jwt, atLoad: Option<string>, header: Option<string>): (g: Gate)
    ensures header.None? || !StartsWith(header.value, BearerPrefix) ==> g == Reject(401, "No token provided")
    ensures g.Admit? <==>
      && header.Some? && StartsWith(header.value, BearerPrefix)
      && j.verify(Some(SigningKey(atLoad)), BearerToken(header.value)).Some?
    ensures g.Admit? ==> Some(g.user) == j.verify(Some(SigningKey(atLoad)), BearerToken(header.value))
    ensures g.Reject? ==> g.status == 401 && (g.message == "No token provided" || g.message == "Invalid token")
  {
    Verify(j, Some(SigningKey(atLoad)), header)
  }

  /** The header check and verification under a given key. */
  function Verify(j: Jwt, key: Option<string>, header: Option<string>): Gate {
    if header.None? || !StartsWith(header.value, BearerPrefix) then Reject(401, "No token provided")
    else match j.verify(key, BearerToken(header.value))
      case None => Reject(401, "Invalid token")
      case Some(c) => Admit(c)
  }

  /** The key `authenticate` verifies with as written: the variable as it
      reads at the request, with no fallback; an empty value is no key. */
  function VerifyingKeyAsWritten(atRequest: Option<string>): Option<string> {
    if atRequest.Some? && atRequest.value != "" then atRequest else None
  }

  /** `authenticate` exactly as written. It agrees with the corrected guard
      only when the key it reads at the request is the signing key. */
  function AuthenticateAsWritten(j: Jwt, atRequest: Option<string>, header: Option<string>): (g: Gate)
    ensures header.None? || !StartsWith(header.value, BearerPrefix) ==> g == Reject(401, "No token provided")
    ensures g.Admit? <==>
      && header.Some? && StartsWith(header.value, BearerPrefix)
      && j.verify(VerifyingKeyAsWritten(atRequest), BearerToken(header.value)).Some?
    ensures JwtSound(j) && g.Admit? ==> VerifyingKeyAsWritten(atRequest).Some?
    ensures forall atLoad :: VerifyingKeyAsWritten(atRequest) == Some(SigningKey(atLoad)) ==> g == Authenticate(j, atLoad, header)
  {
    Verify(j, VerifyingKeyAsWritten(atRequest), header)
  }

  /** With the secret unset at the request, the middleware refuses every
      token the service issues, so no issued token reaches a protected route. */
  lemma UnsetSecretRejectsIssuedTokens(j: Jwt, atLoad: Option<string>, atRequest: Option<string>, c: Claims)
    requires JwtSound(j)
    requires atRequest.None? || atRequest.value == ""
    ensures AuthenticateAsWritten(j, atRequest, Some(BearerPrefix + IssueToken(j, atLoad, c))) == Reject(401, "Invalid token")
  {
    BearerTokenRoundTrip(IssueToken(j, atLoad, c));
  }

  /** The middleware as written admits an issued token exactly when the
      variable, read at the request, holds the key the token was signed
      with; otherwise the answer is 401 "Invalid token". */
  lemma IssuedTokenAsWrittenIff(j: Jwt, atLoad: Option<string>, atRequest: Option<string>, c: Claims)
    requires JwtSound(j) && KeysSeparate(j)
    ensures AuthenticateAsWritten(j, atRequest, Some(BearerPrefix + IssueToken(j, atLoad, c)))
         == if VerifyingKeyAsWritten(atRequest) == Some(SigningKey(atLoad)) then Admit(c) else Reject(401, "Invalid token")
  {
    var t := IssueToken(j, atLoad, c);
    BearerTokenRoundTrip(t);
    if VerifyingKeyAsWritten(atRequest).Some? {
      assert j.verify(VerifyingKeyAsWritten(atRequest), t) == j.verify(Some(VerifyingKeyAsWritten(atRequest).value), j.sign(SigningKey(atLoad), c));
    }
  }

  /** The variable set only after the application has loaded, with no
      `.env` file: tokens are signed with the built-in secret and checked
      against the later value, so every issued token is refused. */
  lemma SecretSetAfterLoadRejectsIssuedTokens(j: Jwt, c: Claims)
    requires JwtSound(j) && KeysSeparate(j)
    ensures AuthenticateAsWritten(j, Some("test-jwt-secret"), Some(BearerPrefix + IssueToken(j, None, c))) == Reject(401, "Invalid token")
  {
    IssuedTokenAsWrittenIff(j, None, Some("test-jwt-secret"), c);
  }

  /** With verification under the signing key, every issued token admits
      exactly the identity it was issued for, whatever the configuration. */
  lemma IssuedTokensAuthenticate(j: Jwt, atLoad: Option<string>, c: Claims)
    requires JwtSound(j)
    ensures Authenticate(j, atLoad, Some(BearerPrefix + IssueToken(j, atLoad, c))) == Admit(c)
  {
    BearerTokenRoundTrip(IssueToken(j, atLoad, c));
  }

  /** A missing or malformed header is refused before any verification:
      the answer depends neither on the verifier nor on the secret. */
  lemma MalformedHeaderSkipsVerification(j1: Jwt, j2: Jwt, k1: Option<string>, k2: Option<string>, header: Option<string>)
    requires header.None? || !StartsWith(header.value, BearerPrefix)
    ensures Authenticate(j1, k1, header) == Authenticate(j2, k2, header) == Reject(401, "No token provided")
    ensures AuthenticateAsWritten(j1, k1, header) == Reject(401, "No token provided")
  {
  }

  /** Only the second blank-separated segment is verified: anything after a
      further blank is ignored. */
  lemma TrailingSegmentsIgnored(j: Jwt, atLoad: Option<string>, t: string, tail: string)
    requires ' ' !in t
    ensures StartsWith(BearerPrefix + t, BearerPrefix) && StartsWith(BearerPrefix + t + " " + tail, BearerPrefix)
    ensures Authenticate(j, atLoad, Some(BearerPrefix + t + " " + tail)) == Authenticate(j, atLoad, Some(BearerPrefix + t))
  {
    BearerTokenRoundTrip(t);
    var header := BearerPrefix + t + " " + tail;
    assert header[..|BearerPrefix|] == BearerPrefix;
    var rest := header[|BearerPrefix|..];
    assert rest == t + ([' '] + tail);
    IndexOfPrefix(t, [' '] + tail, ' ');
    BearerSplit(header);
    assert Split(rest, ' ')[0] == t;
  }

  // ---- role gate -------------------------------------------------------------

  /** `authorize(roles)`. */
  function Authorize(user: Option<Claims>, roles: seq<Role>): (g: Gate)
    ensures user.None? ==> g == Reject(401, "User not authenticated")
    ensures user.Some? ==> (g.Admit? <==> user.value.role in roles)
    ensures user.Some? && g.Admit? ==> g.user == user.value
    ensures user.Some? && user.value.role !in roles ==> g == Reject(403, "User is not authorized to access this resource")
  {
    if user.None? then Reject(401, "User not authenticated")
    else if user.value.role !in roles then Reject(403, "User is not authorized to access this resource")
    else Admit(user.value)
  }

  /** The allow-lists the routes attach. */
  const CatalogueWriters: seq<Role> := [MANAGER, ADMIN]
  const PurchaseReaders: seq<Role> := [ADMIN, MANAGER]
  const OwnPurchaseReaders: seq<Role> := [CUSTOMER]
  const CustomerReaders: seq<Role> := [ADMIN, MANAGER]
  const ManagerReaders: seq<Role> := [ADMIN]
  const ManagerRegistrars: seq<Role> := [ADMIN]

  /** Roles are compared for equality only: no role stands in for another,
      so administrators cannot read their own purchases, managers cannot
      see or create managers, and customers cannot touch the catalogue. */
  lemma NoRoleHierarchy(u: Claims, r: Role)
    ensures Authorize(Some(u), [r]).Admit? <==> u.role == r
    ensures u.role == ADMIN ==> Authorize(Some(u), OwnPurchaseReaders) == Reject(403, "User is not authorized to access this resource")
    ensures u.role == MANAGER ==> Authorize(Some(u), ManagerReaders).Reject? && Authorize(Some(u), ManagerRegistrars).Reject?
    ensures u.role == CUSTOMER ==> Authorize(Some(u), CatalogueWriters).Reject? && Authorize(Some(u), PurchaseReaders).Reject?
                                   && Authorize(Some(u), CustomerReaders).Reject?
    ensures u.role.UnknownRole? ==> forall roles: seq<Role> :: roles <= [ADMIN, MANAGER, CUSTOMER] ==> Authorize(Some(u), roles).Reject?
  {
  }

  /** A protected route with the corrected `authenticate` of the findings:
      authenticate under the signing key, then authorize. */
  function Guard(j: Jwt, atLoad: Option<string>, header: Option<string>, roles: seq<Role>): (g: Gate)
    ensures g.Admit? <==>
      && header.Some? && StartsWith(header.value, BearerPrefix)
      && j.verify(Some(SigningKey(atLoad)), BearerToken(header.value)).Some?
      && j.verify(Some(SigningKey(atLoad)), BearerToken(header.value)).value.role in roles
    ensures g.Admit? ==> Some(g.user) == j.verify(Some(SigningKey(atLoad)), BearerToken(header.value))
  {
    match Authenticate(j, atLoad, header)
    case Reject(status, message) => Reject(status, message)
    case Admit(user) => Authorize(Some(user), roles)
  }

  /** On the corrected route, a token issued to an account passes exactly
      when the account's role is on the route's list. */
  lemma IssuedTokenPassesGuard(j: Jwt, atLoad: Option<string>, c: Claims, roles: seq<Role>)
    requires JwtSound(j)
    ensures Guard(j, atLoad, Some(BearerPrefix + IssueToken(j, atLoad, c)), roles).Admit? <==> c.role in roles
  {
    IssuedTokensAuthenticate(j, atLoad, c);
  }

  /** A protected route as written: `authenticate` with the variable read
      at the request, then authorize. */
  function GuardAsWritten(j: Jwt, atRequest: Option<string>, header: Option<string>, roles: seq<Role>): (g: Gate)
    ensures g.Admit? <==>
      && header.Some? && StartsWith(header.value, BearerPrefix)
      && j.verify(VerifyingKeyAsWritten(atRequest), BearerToken(header.value)).Some?
      && j.verify(VerifyingKeyAsWritten(atRequest), BearerToken(header.value)).value.role in roles
    ensures forall atLoad :: VerifyingKeyAsWritten(atRequest) == Some(SigningKey(atLoad)) ==> g == Guard(j, atLoad, header, roles)
  {
    match AuthenticateAsWritten(j, atRequest, header)
    case Reject(status, message) => Reject(status, message)
    case Admit(user) => Authorize(Some(user), roles)
  }

  /** On the route as written, an issued token passes exactly when the
      variable read at the request holds the signing key and the account's
      role is on the route's list. */
  lemma IssuedTokenPassesGuardAsWritten(j: Jwt, atLoad: Option<string>, atRequest: Option<string>, c: Claims, roles: seq<Role>)
    requires JwtSound(j) && KeysSeparate(j)
    ensures GuardAsWritten(j, atRequest, Some(BearerPrefix + IssueToken(j, atLoad, c)), roles).Admit?
        <==> VerifyingKeyAsWritten(atRequest) == Some(SigningKey(atLoad)) && c.role in roles
  {
    IssuedTokenAsWrittenIff(j, atLoad, atRequest, c);
  }
}

=== FILE: auth_service.dfy ===
/** The account service: customer and manager registration, the three
    logins, the profile lookup and the password change.

    Hashing is a `Hasher`; token signing is a function from the identity a
    token carries to the token text. "Now" is a parameter.
 */
module AuthService {
  import opened Results
  import opened Text
  import opened Domain
  import opened Passwords
  import opened StoredSchemas
  import opened Format
  import opened RequestSchemas

  /** A login or registration response: the password-free user and a token. */
  datatype Session<+V> = Session(user: V, token: string)

  const InvalidCredentials: string := "Invalid credentials"

  /** The stored `password` decides exactly the plaintext `plain`. */
  ghost predicate Unlocks(h: Hasher, stored: string, plain: string) {
    forall c :: ComparePassword(h, c, stored) <==> c == plain
  }

  function TrimAddress(a: Address): Address {
    Address(Trim(a.street), Trim(a.city), Trim(a.state), Trim(a.zipCode), Trim(a.country))
  }

  // ---- customer registration ------------------------------------------------

  /** A path default: the supplied value, or the default when the key is absent. */
  function OrDefault<T>(supplied: Option<T>, default: T): T {
    if supplied.Some? then supplied.value else default
  }

  /** The customer document `create` builds, before validation and hashing:
      setters applied, the role forced to CUSTOMER, timestamps set, and the
      login time defaulting to now unless the body sets it. */
  function NewCustomer(b: CustomerRegisterBody, dateOfBirth: CalendarDate, now: int): Customer {
    Customer(Trim(b.firstName), Trim(b.lastName), NormaliseEmail(b.email), b.password, Trim(b.phone),
             TrimAddress(b.address), dateOfBirth, Trim(b.licenseNumber), CUSTOMER, OrDefault(b.lastLogin, now), now, now)
  }

  /** The look-up that precedes registration; the query normalises the
      e-mail address the same way the stored path does. */
  predicate CustomerEmailTaken(s: Store, email: string) {
    exists id :: id in s.customers && s.customers[id].email == NormaliseEmail(email)
  }

  /** The save of a new customer document: the password hook, then the
      primary key, then the two unique indexes. */
  function SaveNewCustomer(s: Store, h: Hasher, id: Id, c: Customer): (r: Result<(Store, Customer)>)
    ensures r.Err? ==> HashPassword(h, c.password).None? || id in s.customers || LicenseHeldByOther(s.customers, c.licenseNumber, id)
                       || CustomerEmailHeldByOther(s.customers, c.email, id)
    ensures r.Ok? <==>
      && HashPassword(h, c.password).Some? && id !in s.customers
      && !CustomerEmailHeldByOther(s.customers, c.email, id) && !LicenseHeldByOther(s.customers, c.licenseNumber, id)
    ensures r.Ok? ==>
      && HashPassword(h, c.password).Some?
      && r.value.1 == c.(password := HashPassword(h, c.password).value)
      && r.value.0 == s.(customers := s.customers[id := r.value.1])
    ensures Sound(h) && r.Ok? ==> Unlocks(h, r.value.1.password, c.password)
    ensures Sound(h) && r.Ok? && ValidCustomer(c) ==> forall env :: Consistent(s, env) ==> Consistent(r.value.0, env)
  {
    match PreSave(h, c.password, true)
    case Err(e) => Err(e)
    case Ok(hashed) =>
      var stored := c.(password := hashed);
      if id in s.customers then Err(DuplicateKey("_id"))
      else match PutCustomer(s, id, stored)
        case Err(e) => Err(e)
        case Ok(s') => Ok((s', stored))
  }

  /** `registerCustomer`. */
  function RegisterCustomer(s: Store, h: Hasher, sign: Claims -> string, id: Id, b: CustomerRegisterBody, now: int)
    : (st: Step<Session<CustomerView>>)
    ensures CustomerEmailTaken(s, b.email) ==> st == Step(s, Err(Fail("Email already registered")))
    ensures st.result.Err? ==> st.store == s
    ensures st.result.Ok? <==>
      && !CustomerEmailTaken(s, b.email)
      && b.dateOfBirth.Some?
      && ValidCustomer(NewCustomer(b, b.dateOfBirth.value, now))
      && HashPassword(h, b.password).Some?
      && id !in s.customers
      && !LicenseHeldByOther(s.customers, Trim(b.licenseNumber), id)
    ensures st.result.Ok? ==>
      && b.dateOfBirth.Some? && HashPassword(h, b.password).Some?
      && var stored := NewCustomer(b, b.dateOfBirth.value, now).(password := HashPassword(h, b.password).value);
      && st.store == s.(customers := s.customers[id := stored])
      && stored.role == CUSTOMER && stored.email == NormaliseEmail(b.email)
      && st.result.value == Session(FormatCustomer(id, stored), sign(Claims(id, stored.email, CUSTOMER)))
    ensures Sound(h) && st.result.Ok? ==> Unlocks(h, st.store.customers[id].password, b.password)
    ensures Sound(h) ==> forall env :: Consistent(s, env) ==> Consistent(st.store, env)
  {
    if CustomerEmailTaken(s, b.email) then Step(s, Err(Fail("Email already registered")))
    else if b.dateOfBirth.None? then Step(s, Err(Invalid("Customer")))
    else
      var c := NewCustomer(b, b.dateOfBirth.value, now);
      if !ValidCustomer(c) then Step(s, Err(Invalid("Customer")))
      else
        assert !CustomerEmailHeldByOther(s.customers, c.email, id);
        match SaveNewCustomer(s, h, id, c)
        case Err(e) => Step(s, Err(e))
        case Ok((s', stored)) => Step(s', Ok(Session(FormatCustomer(id, stored), sign(Claims(id, stored.email, CUSTOMER)))))
  }

  /** A `lastLogin` sent with the registration body is stored as sent; the
      schema default, the registration time, applies only when it is absent. */
  lemma RegistrationKeepsSentLoginTime(s: Store, h: Hasher, sign: Claims -> string, id: Id, b: CustomerRegisterBody, now: int)
    ensures var st := RegisterCustomer(s, h, sign, id, b, now);
      st.result.Ok? ==> id in st.store.customers && st.store.customers[id].lastLogin == (if b.lastLogin.Some? then b.lastLogin.value else now)
  {
  }

  // ---- manager registration -------------------------------------------------

  /** The manager document `create` builds: the role is forced to MANAGER
      whatever the body says; the account starts active and logged in now
      unless the body sets those paths itself. */
  function NewManager(b: ManagerRegisterBody, now: int): Manager {
    Manager(Trim(b.firstName), Trim(b.lastName), NormaliseEmail(b.email), b.password, Trim(b.phone),
            MANAGER, OrDefault(b.isActive, true), OrDefault(b.lastLogin, now), now, now)
  }

  /** The save of a new manager document: the password hook, then the
      primary key, then the e-mail index. */
  function SaveNewManager(s: Store, h: Hasher, id: Id, m: Manager): (r: Result<(Store, Manager)>)
    ensures r.Ok? <==>
      HashPassword(h, m.password).Some? && id !in s.managers && !ManagerEmailHeldByOther(s.managers, m.email, id)
    ensures HashPassword(h, m.password).Some? && id !in s.managers && ManagerEmailHeldByOther(s.managers, m.email, id) ==>
      r == Err(DuplicateKey("email"))
    ensures r.Ok? ==>
      && HashPassword(h, m.password).Some?
      && r.value.1 == m.(password := HashPassword(h, m.password).value)
      && r.value.0 == s.(managers := s.managers[id := r.value.1])
    ensures Sound(h) && r.Ok? ==> Unlocks(h, r.value.1.password, m.password)
    ensures Sound(h) && r.Ok? && ValidManager(m) ==> forall env :: Consistent(s, env) ==> Consistent(r.value.0, env)
  {
    match PreSave(h, m.password, true)
    case Err(e) => Err(e)
    case Ok(hashed) =>
      var stored := m.(password := hashed);
      if id in s.managers then Err(DuplicateKey("_id"))
      else match PutManager(s, id, stored)
        case Err(e) => Err(e)
        case Ok(s') => Ok((s', stored))
  }

  /** `registerManager`. Its look-up filters on a `where` key that no
      manager document has, so it never finds anyone: a taken address is
      refused by the unique e-mail index instead. */
  function RegisterManager(s: Store, h: Hasher, sign: Claims -> string, id: Id, b: ManagerRegisterBody, now: int)
    : (st: Step<Session<ManagerView>>)
    ensures st.result.Err? ==> st.store == s
    ensures st.result.Ok? <==>
      && ValidManager(NewManager(b, now))
      && HashPassword(h, b.password).Some?
      && id !in s.managers
      && !ManagerEmailHeldByOther(s.managers, NormaliseEmail(b.email), id)
    ensures st.result.Ok? ==>
      && HashPassword(h, b.password).Some?
      && var stored := NewManager(b, now).(password := HashPassword(h, b.password).value);
      && st.store == s.(managers := s.managers[id := stored])
      && stored.role == MANAGER
      && (stored.isActive <==> b.isActive != Some(false))
      && (b.lastLogin.Some? ==> stored.lastLogin == b.lastLogin.value)
      && (b.lastLogin.None? ==> stored.lastLogin == now)
      && st.result.value == Session(FormatManager(id, stored), sign(Claims(id, stored.email, MANAGER)))
    ensures Sound(h) && st.result.Ok? ==> Unlocks(h, st.store.managers[id].password, b.password)
    ensures Sound(h) ==> forall env :: Consistent(s, env) ==> Consistent(st.store, env)
  {
    var m := NewManager(b, now);
    if !ValidManager(m) then Step(s, Err(Invalid("Manager")))
    else match SaveNewManager(s, h, id, m)
      case Err(e) => Step(s, Err(e))
      case Ok((s', stored)) => Step(s', Ok(Session(FormatManager(id, stored), sign(Claims(id, stored.email, MANAGER)))))
  }

  /** Neither `isActive` nor the login time is validated, so a body may
      register an inactive manager exactly when it may register an active
      one, and the stored flag is the one sent. */
  lemma InactiveManagerRegisters(s: Store, h: Hasher, sign: Claims -> string, id: Id, b: ManagerRegisterBody, now: int)
    ensures RegisterManager(s, h, sign, id, b.(isActive := Some(false)), now).result.Ok?
        <==> RegisterManager(s, h, sign, id, b.(isActive := None), now).result.Ok?
    ensures RegisterManager(s, h, sign, id, b.(isActive := Some(false)), now).result.Ok? ==>
      !RegisterManager(s, h, sign, id, b.(isActive := Some(false)), now).store.managers[id].isActive
  {
    assert ValidManager(NewManager(b.(isActive := Some(false)), now)) == ValidManager(NewManager(b.(isActive := None), now));
  }

  /** A second manager with a taken address fails on the index, not with the
      "Email already registered" message customers get; and the role named
      in the body never matters. */
  lemma DuplicateManagerHitsIndex(s: Store, h: Hasher, sign: Claims -> string, id: Id, b: ManagerRegisterBody,
                                  other: Id, now: int, r: Role)
    requires other in s.managers && s.managers[other].email == NormaliseEmail(b.email)
    requires ValidManager(NewManager(b, now)) && HashPassword(h, b.password).Some? && id !in s.managers
    ensures RegisterManager(s, h, sign, id, b, now) == Step(s, Err(DuplicateKey("email")))
    ensures RegisterManager(s, h, sign, id, b.(role := r), now) == RegisterManager(s, h, sign, id, b, now)
  {
    assert ManagerEmailHeldByOther(s.managers, NormaliseEmail(b.email), id);
  }

  // ---- logins ---------------------------------------------------------------

  /** `email` and `password` open the customer account `id`. */
  predicate CustomerCredentials(s: Store, h: Hasher, email: string, password: string, id: Id) {
    id in s.customers && s.customers[id].email == NormaliseEmail(email) && ComparePassword(h, password, s.customers[id].password)
  }

  predicate ManagerCredentials(s: Store, h: Hasher, email: string, password: string, id: Id) {
    id in s.managers && s.managers[id].email == NormaliseEmail(email) && ComparePassword(h, password, s.managers[id].password)
  }

  predicate AdminCredentials(s: Store, h: Hasher, email: string, password: string, id: Id) {
    id in s.admins && s.admins[id].email == NormaliseEmail(email) && ComparePassword(h, password, s.admins[id].password)
  }

  /** What the unique indexes and validators guarantee of each account collection. */
  ghost predicate CustomersSound(s: Store) {
    UniqueCustomerKeys(s.customers) && forall id :: id in s.customers ==> ValidCustomer(s.customers[id])
  }

  ghost predicate ManagersSound(s: Store) {
    UniqueManagerEmails(s.managers) && forall id :: id in s.managers ==> ValidManager(s.managers[id])
  }

  ghost predicate AdminsSound(s: Store) {
    UniqueAdminEmails(s.admins)
  }

  ghost predicate AccountsSound(s: Store) {
    CustomersSound(s) && ManagersSound(s) && AdminsSound(s)
  }

  /** Recording a login changes nothing the validators look at. */
  lemma TouchKeepsCustomerValid(c: Customer, now: int)
    ensures ValidCustomer(c.(lastLogin := now, updatedAt := now)) == ValidCustomer(c)
  {
  }

  /** The store and response after customer `id` logs in at `now`: only
      that customer's login and update times change, and the response holds
      its projection and a token for it. */
  predicate CustomerLoginRecorded(s: Store, sign: Claims -> string, now: int, id: Id, st: Step<Session<CustomerView>>)
    requires id in s.customers
  {
    var c := s.customers[id].(lastLogin := now, updatedAt := now);
    && st.store == s.(customers := s.customers[id := c])
    && st.result == Ok(Session(FormatCustomer(id, c), sign(Claims(id, c.email, c.role))))
  }

  /** The same for manager `id`. */
  predicate ManagerLoginRecorded(s: Store, sign: Claims -> string, now: int, id: Id, st: Step<Session<ManagerView>>)
    requires id in s.managers
  {
    var m := s.managers[id].(lastLogin := now, updatedAt := now);
    && st.store == s.(managers := s.managers[id := m])
    && st.result == Ok(Session(FormatManager(id, m), sign(Claims(id, m.email, m.role))))
  }

  /** `customerLogin`: an unknown address and a wrong password fail alike;
      success records the login time, which the save validates and writes. */
  method CustomerLogin(s: Store, h: Hasher, sign: Claims -> string, b: LoginBody, now: int)
    returns (st: Step<Session<CustomerView>>)
    ensures (forall id :: !CustomerCredentials(s, h, b.email, b.password, id)) ==>
      st == Step(s, Err(Fail(InvalidCredentials)))
    ensures CustomersSound(s) ==> (st.result.Ok? <==> exists id :: CustomerCredentials(s, h, b.email, b.password, id))
    ensures st.result.Err? ==> st.store == s
    ensures st.result.Ok? ==> exists id :: CustomerCredentials(s, h, b.email, b.password, id) && CustomerLoginRecorded(s, sign, now, id, st)
    ensures forall env :: Consistent(s, env) ==> Consistent(st.store, env)
  {
    var key := NormaliseEmail(b.email);
    if !exists id :: id in s.customers && s.customers[id].email == key {
      return Step(s, Err(Fail(InvalidCredentials)));
    }
    var id :| id in s.customers && s.customers[id].email == key;
    var c := s.customers[id];
    if !ComparePassword(h, b.password, c.password) {
      if CustomersSound(s) {
        forall j | CustomerCredentials(s, h, b.email, b.password, j) ensures j == id { }
      }
      return Step(s, Err(Fail(InvalidCredentials)));
    }
    var c' := c.(lastLogin := now, updatedAt := now);
    TouchKeepsCustomerValid(c, now);
    if !ValidCustomer(c') {
      assert CustomerCredentials(s, h, b.email, b.password, id);
      return Step(s, Err(Invalid("Customer")));
    }
    forall env | Consistent(s, env) ensures Consistent(s.(customers := s.customers[id := c']), env) {
      CustomerRewriteKeepsConsistent(s, env, id, c');
    }
    st := Step(s.(customers := s.customers[id := c']), Ok(Session(FormatCustomer(id, c'), sign(Claims(id, c'.email, c'.role)))));
    assert CustomerCredentials(s, h, b.email, b.password, id) && CustomerLoginRecorded(s, sign, now, id, st);
  }

  /** `managerLogin`; `isActive` is never consulted. */
  method ManagerLogin(s: Store, h: Hasher, sign: Claims -> string, b: LoginBody, now: int)
    returns (st: Step<Session<ManagerView>>)
    ensures (forall id :: !ManagerCredentials(s, h, b.email, b.password, id)) ==>
      st == Step(s, Err(Fail(InvalidCredentials)))
    ensures ManagersSound(s) ==> (st.result.Ok? <==> exists id :: ManagerCredentials(s, h, b.email, b.password, id))
    ensures st.result.Err? ==> st.store == s
    ensures st.result.Ok? ==> exists id :: ManagerCredentials(s, h, b.email, b.password, id) && ManagerLoginRecorded(s, sign, now, id, st)
    ensures forall env :: Consistent(s, env) ==> Consistent(st.store, env)
  {
    var key := NormaliseEmail(b.email);
    if !exists id :: id in s.managers && s.managers[id].email == key {
      return Step(s, Err(Fail(InvalidCredentials)));
    }
    var id :| id in s.managers && s.managers[id].email == key;
    var m := s.managers[id];
    if !ComparePassword(h, b.password, m.password) {
      if ManagersSound(s) {
        forall j | ManagerCredentials(s, h, b.email, b.password, j) ensures j == id { }
      }
      return Step(s, Err(Fail(InvalidCredentials)));
    }
    var m' := m.(lastLogin := now, updatedAt := now);
    if !ValidManager(m') {
      assert ManagerCredentials(s, h, b.email, b.password, id);
      return Step(s, Err(Invalid("Manager")));
    }
    forall env | Consistent(s, env) ensures Consistent(s.(managers := s.managers[id := m']), env) {
      ManagerRewriteKeepsConsistent(s, env, id, m');
    }
    st := Step(s.(managers := s.managers[id := m']), Ok(Session(FormatManager(id, m'), sign(Claims(id, m'.email, m'.role)))));
    assert ManagerCredentials(s, h, b.email, b.password, id) && ManagerLoginRecorded(s, sign, now, id, st);
  }

  /** The admin login response: identifier, address and role only. */
  datatype AdminSummary = AdminSummary(id: Id, email: string, role: Role)

  /** `adminLogin`: nothing is written, not even the login time. */
  method AdminLogin(s: Store, h: Hasher, sign: Claims -> string, b: LoginBody) returns (st: Step<Session<AdminSummary>>)
    ensures st.store == s
    ensures (forall id :: !AdminCredentials(s, h, b.email, b.password, id)) ==> st.result == Err(Fail(InvalidCredentials))
    ensures AdminsSound(s) ==> (st.result.Ok? <==> exists id :: AdminCredentials(s, h, b.email, b.password, id))
    ensures st.result.Err? ==> st.result == Err(Fail(InvalidCredentials))
    ensures st.result.Ok? ==> exists id :: (AdminCredentials(s, h, b.email, b.password, id) &&
      st.result.value == Session(AdminSummary(id, s.admins[id].email, s.admins[id].role),
                                 sign(Claims(id, s.admins[id].email, s.admins[id].role))))
  {
    var key := NormaliseEmail(b.email);
    if !exists id :: id in s.admins && s.admins[id].email == key {
      return Step(s, Err(Fail(InvalidCredentials)));
    }
    var id :| id in s.admins && s.admins[id].email == key;
    var a := s.admins[id];
    if !ComparePassword(h, b.password, a.password) {
      if AdminsSound(s) {
        forall j | AdminCredentials(s, h, b.email, b.password, j) ensures j == id { }
      }
      return Step(s, Err(Fail(InvalidCredentials)));
    }
    st := Step(s, Ok(Session(AdminSummary(id, a.email, a.role), sign(Claims(id, a.email, a.role)))));
    assert AdminCredentials(s, h, b.email, b.password, id);
  }

  /** Registering and then logging in with the same address and password
      works, and with a sound hasher no other password opens the new account. */
  lemma RegisterThenLogin(s: Store, env: Env, h: Hasher, sign: Claims -> string, id: Id, b: CustomerRegisterBody, now: int)
    requires Sound(h) && Consistent(s, env)
    requires RegisterCustomer(s, h, sign, id, b, now).result.Ok?
    ensures var s1 := RegisterCustomer(s, h, sign, id, b, now).store;
      && AccountsSound(s1)
      && CustomerCredentials(s1, h, b.email, b.password, id)
      && forall other, q :: CustomerCredentials(s1, h, b.email, q, other) ==> other == id && q == b.password
  {
    var s1 := RegisterCustomer(s, h, sign, id, b, now).store;
    assert Consistent(s1, env);
    assert CustomersSound(s1) && ManagersSound(s1) && AdminsSound(s1);
    var stored := s1.customers[id];
    assert stored.email == NormaliseEmail(b.email);
    assert Unlocks(h, stored.password, b.password);
    assert CustomerCredentials(s1, h, b.email, b.password, id);
    forall other, q | CustomerCredentials(s1, h, b.email, q, other) ensures other == id && q == b.password {
      assert s1.customers[other].email == stored.email;
      assert other == id;
      assert ComparePassword(h, q, stored.password);
    }
  }

  // ---- profile --------------------------------------------------------------

  datatype Profile = ManagerProfile(manager: ManagerView) | CustomerProfile(customer: CustomerView)

  /** `getProfile`: managers are read from the manager collection, every
      other role from the customer collection. */
  function GetProfile(s: Store, userId: Id, role: Role): (r: Result<Profile>)
    ensures role == MANAGER ==>
      && (r.Ok? <==> userId in s.managers)
      && (r.Ok? ==> r.value == ManagerProfile(FormatManager(userId, s.managers[userId])))
      && (r.Err? ==> r.error == Fail("Manager not found"))
    ensures role != MANAGER ==>
      && (r.Ok? <==> userId in s.customers)
      && (r.Ok? ==> r.value == CustomerProfile(FormatCustomer(userId, s.customers[userId])))
      && (r.Err? ==> r.error == Fail("Customer not found"))
  {
    if role == MANAGER then
      if userId in s.managers then Ok(ManagerProfile(FormatManager(userId, s.managers[userId])))
      else Err(Fail("Manager not found"))
    else
      if userId in s.customers then Ok(CustomerProfile(FormatCustomer(userId, s.customers[userId])))
      else Err(Fail("Customer not found"))
  }

  /** An administrator's profile is looked up among customers, so an
      administrator who is not also a customer gets "Customer not found". */
  lemma AdminProfileReadsCustomers(s: Store, id: Id)
    ensures GetProfile(s, id, ADMIN) == GetProfile(s, id, CUSTOMER)
    ensures id in s.admins && id !in s.customers ==> GetProfile(s, id, ADMIN) == Err(Fail("Customer not found"))
  {
  }

  // ---- password change ------------------------------------------------------

  /** The stored password of the account `id` in the collection for `role`. */
  function StoredPassword(s: Store, role: Role, id: Id): Option<string> {
    match role
    case ADMIN => if id in s.admins then Some(s.admins[id].password) else None
    case MANAGER => if id in s.managers then Some(s.managers[id].password) else None
    case CUSTOMER => if id in s.customers then Some(s.customers[id].password) else None
    case UnknownRole(_) => None
  }

  /** The account with its password replaced, as the save's validators see it. */
  predicate ValidWithPassword(s: Store, role: Role, id: Id, p: string)
    requires StoredPassword(s, role, id).Some?
  {
    match role
    case ADMIN => ValidAdmin(s.admins[id].(password := p))
    case MANAGER => ValidManager(s.managers[id].(password := p))
    case CUSTOMER => ValidCustomer(s.customers[id].(password := p))
  }

  /** The store with that account's password and update time replaced. */
  function SetPassword(s: Store, role: Role, id: Id, p: string, now: int): (s': Store)
    requires StoredPassword(s, role, id).Some?
    ensures StoredPassword(s', role, id) == Some(p)
  {
    match role
    case ADMIN => s.(admins := s.admins[id := s.admins[id].(password := p, updatedAt := now)])
    case MANAGER => s.(managers := s.managers[id := s.managers[id].(password := p, updatedAt := now)])
    case CUSTOMER => s.(customers := s.customers[id := s.customers[id].(password := p, updatedAt := now)])
  }

  /** Replacing a stored password by one the schema's length rule accepts
      keeps a consistent store consistent: no unique key changes. */
  lemma SetPasswordKeepsConsistent(s: Store, role: Role, id: Id, p: string, now: int)
    requires StoredPassword(s, role, id).Some?
    ensures |p| >= 6 ==> forall env :: Consistent(s, env) ==> Consistent(SetPassword(s, role, id, p, now), env)
  {
    if |p| >= 6 {
      forall env | Consistent(s, env) ensures Consistent(SetPassword(s, role, id, p, now), env) {
        match role
        case ADMIN => AdminRewriteKeepsConsistent(s, env, id, s.admins[id].(password := p, updatedAt := now));
        case MANAGER => ManagerRewriteKeepsConsistent(s, env, id, s.managers[id].(password := p, updatedAt := now));
        case CUSTOMER => CustomerRewriteKeepsConsistent(s, env, id, s.customers[id].(password := p, updatedAt := now));
      }
    }
  }

  const PasswordChanged: string := "Password changed successfully"

  /** The model name a validation failure of the account for `role` carries. */
  function AccountModel(role: Role): string {
    match role
    case ADMIN => "Admin"
    case MANAGER => "Manager"
    case _ => "Customer"
  }

  /** `changePassword`. The save validates every loaded path, with the new
      password checked against the stored schema (six characters) before it
      is hashed. Assigning the stored value itself is not a modification:
      the save still validates, but then writes nothing. */
  function ChangePassword(s: Store, h: Hasher, userId: Id, role: Role, current: string, newPassword: string, now: int)
    : (st: Step<string>)
    ensures role.UnknownRole? ==> st == Step(s, Err(Fail("Invalid user role")))
    ensures !role.UnknownRole? && StoredPassword(s, role, userId).None? ==> st == Step(s, Err(Fail("User not found")))
    ensures StoredPassword(s, role, userId).Some? && !ComparePassword(h, current, StoredPassword(s, role, userId).value) ==>
      st == Step(s, Err(Fail("Current password is incorrect")))
    ensures st.result.Err? ==> st.store == s
    ensures st.result.Ok? ==> st.result.value == PasswordChanged
    ensures st.result.Ok? <==>
      && StoredPassword(s, role, userId).Some?
      && ComparePassword(h, current, StoredPassword(s, role, userId).value)
      && ValidWithPassword(s, role, userId, newPassword)
      && (newPassword == StoredPassword(s, role, userId).value || HashPassword(h, newPassword).Some?)
    ensures (&& StoredPassword(s, role, userId).Some?
             && ComparePassword(h, current, StoredPassword(s, role, userId).value)
             && !ValidWithPassword(s, role, userId, newPassword))
            ==> st == Step(s, Err(Invalid(AccountModel(role))))
    ensures st.result.Ok? && newPassword == StoredPassword(s, role, userId).value ==> st.store == s
    ensures st.result.Ok? && newPassword != StoredPassword(s, role, userId).value ==>
      && HashPassword(h, newPassword).Some?
      && st.store == SetPassword(s, role, userId, HashPassword(h, newPassword).value, now)
    ensures Sound(h) ==> forall env :: Consistent(s, env) ==> Consistent(st.store, env)
  {
    if role.UnknownRole? then Step(s, Err(Fail("Invalid user role")))
    else
      match StoredPassword(s, role, userId)
      case None => Step(s, Err(Fail("User not found")))
      case Some(stored) =>
        if !ComparePassword(h, current, stored) then Step(s, Err(Fail("Current password is incorrect")))
        else if !ValidWithPassword(s, role, userId, newPassword) then Step(s, Err(Invalid(AccountModel(role))))
        else if newPassword == stored then Step(s, Ok(PasswordChanged))
        else match PreSave(h, newPassword, true)
          case Err(e) => Step(s, Err(e))
          case Ok(hashed) =>
            SetPasswordKeepsConsistent(s, role, userId, hashed, now);
            Step(SetPassword(s, role, userId, hashed, now), Ok(PasswordChanged))
  }

  /** After a change, with a sound hasher, the new password and nothing
      else opens the account: in particular the old one no longer does. */
  lemma ChangePasswordRevokesOld(s: Store, h: Hasher, userId: Id, role: Role, current: string, newPassword: string, now: int)
    requires Sound(h)
    requires ChangePassword(s, h, userId, role, current, newPassword, now).result.Ok?
    requires newPassword != StoredPassword(s, role, userId).value
    ensures var s1 := ChangePassword(s, h, userId, role, current, newPassword, now).store;
      && StoredPassword(s1, role, userId).Some?
      && Unlocks(h, StoredPassword(s1, role, userId).value, newPassword)
      && (current != newPassword ==> !ComparePassword(h, current, StoredPassword(s1, role, userId).value))
  {
  }

  /** A wrong current password, an unknown role or an absent account leave
      every stored password as it was. */
  lemma FailedChangeKeepsPasswords(s: Store, h: Hasher, userId: Id, role: Role, current: string, newPassword: string, now: int)
    requires ChangePassword(s, h, userId, role, current, newPassword, now).result.Err?
    ensures forall r, id :: StoredPassword(ChangePassword(s, h, userId, role, current, newPassword, now).store, r, id)
                           == StoredPassword(s, r, id)
  {
  }
}

=== FILE: car_service.dfy ===
/** The car service: creating a car under an existing category, the
    filtered, sorted and paged catalogue listing, lookup, partial update and
    deletion.

    Services receive the request body as the client sent it (the
    validation middleware checks it but does not replace it), so every body
    field may be absent here whatever the request schema demands.
 */
module CarService {
  import opened Results
  import opened Text
  import opened Domain
  import opened Sorting
  import opened Listing
  import opened StoredSchemas
  import opened RequestSchemas

  // ---- building a car from a body -------------------------------------------

  /** The `trim` setter of a string-array path, applied to every element. */
  function TrimAll(items: seq<string>): (r: seq<string>)
    ensures |r| == |items|
    ensures forall k :: 0 <= k < |items| ==> r[k] == Trim(items[k])
  {
    seq(|items|, k requires 0 <= k < |items| => Trim(items[k]))
  }

  /** The paths the car schema marks required, besides `addedBy`. */
  predicate StoredFieldsPresent(b: CarBody) {
    && b.make.Some? && b.modelName.Some? && b.year.Some? && b.price.Some? && b.mileage.Some?
    && b.color.Some? && b.category.Some? && b.vin.Some?
  }

  /** `new Car({...body, addedBy})`: string paths are trimmed, `status`
      defaults to AVAILABLE and the arrays default to empty. A missing
      required path, or a status outside the enumeration, fails validation. */
  function BuildCar(b: CarBody, addedBy: AddedBy, now: int): (r: Result<Car>)
    ensures r.Ok? <==> StoredFieldsPresent(b) && (b.status.Some? ==> b.status.value.StatusValue?)
    ensures r.Err? ==> r == Err(Invalid("Car"))
    ensures r.Ok? ==>
      && r.value.make == Trim(b.make.value) && r.value.modelName == Trim(b.modelName.value)
      && r.value.color == Trim(b.color.value) && r.value.vin == Trim(b.vin.value)
      && r.value.year == b.year.value && r.value.price == b.price.value && r.value.mileage == b.mileage.value
      && r.value.category == b.category.value
      && r.value.status == (if b.status.Some? then b.status.value.status else AVAILABLE)
      && r.value.features == (if b.features.Some? then TrimAll(b.features.value) else [])
      && r.value.images == (if b.images.Some? then TrimAll(b.images.value) else [])
      && r.value.addedBy == addedBy
      && r.value.createdAt == now && r.value.updatedAt == now
  {
    if !StoredFieldsPresent(b) then Err(Invalid("Car"))
    else if b.status.Some? && b.status.value.UnknownStatus? then Err(Invalid("Car"))
    else
      Ok(Car(
        Trim(b.make.value), Trim(b.modelName.value), b.year.value, b.price.value, b.mileage.value,
        Trim(b.color.value), b.category.value,
        if b.status.Some? then b.status.value.status else AVAILABLE,
        if b.features.Some? then TrimAll(b.features.value) else [],
        if b.images.Some? then TrimAll(b.images.value) else [],
        Trim(b.vin.value), addedBy, now, now))
  }

  /** `createCar`: the category named by the body must exist; the car is
      recorded as added by the caller and saved under `id`. */
  function CreateCar(s: Store, env: Env, id: Id, b: CarBody, userId: Id, userRole: Role, now: int): (st: Step<Car>)
    ensures b.category.None? || b.category.value !in s.categories ==>
      st == Step(s, Err(Fail("Category not found")))
    ensures st.result.Err? ==> st.store == s
    ensures st.result.Ok? ==>
      && st.store == s.(cars := s.cars[id := st.result.value])
      && id !in s.cars
      && ValidCar(st.result.value, env)
      && st.result.value.category in s.categories
      && st.result.value.addedBy == AddedBy(userId, userRole)
      && st.result.value.createdAt == now && st.result.value.updatedAt == now
    ensures st.result.Ok? ==> BuildCar(b, AddedBy(userId, userRole), now) == st.result
    ensures st.result.Ok? <==>
      && b.category.Some? && b.category.value in s.categories
      && BuildCar(b, AddedBy(userId, userRole), now).Ok?
      && ValidCar(BuildCar(b, AddedBy(userId, userRole), now).value, env)
      && id !in s.cars
      && !VinHeldByOther(s.cars, BuildCar(b, AddedBy(userId, userRole), now).value.vin, id)
    ensures Consistent(s, env) ==> Consistent(st.store, env)
  {
    if b.category.None? || b.category.value !in s.categories then Step(s, Err(Fail("Category not found")))
    else match BuildCar(b, AddedBy(userId, userRole), now)
      case Err(e) => Step(s, Err(e))
      case Ok(car) =>
        match InsertCar(s, env, id, car)
        case Err(e) => Step(s, Err(e))
        case Ok(s') => Step(s', Ok(car))
  }

  /** The adder is written after the body is spread, so an `addedBy` sent in
      the body never reaches the created car. */
  lemma BodyAdderOverridden(s: Store, env: Env, id: Id, b: CarBody, other: Option<AddedBy>, userId: Id, userRole: Role, now: int)
    ensures CreateCar(s, env, id, b.(addedBy := other), userId, userRole, now) == CreateCar(s, env, id, b, userId, userRole, now)
    ensures CreateCar(s, env, id, b.(addedBy := other), userId, userRole, now).result.Ok? ==>
      CreateCar(s, env, id, b.(addedBy := other), userId, userRole, now).result.value.addedBy == AddedBy(userId, userRole)
  {
    assert BuildCar(b.(addedBy := other), AddedBy(userId, userRole), now) == BuildCar(b, AddedBy(userId, userRole), now);
  }

  /** The schema records only staff as the adder, so a car submitted in a
      customer's name is refused and nothing is written. */
  lemma OnlyStaffAddCars(s: Store, env: Env, id: Id, b: CarBody, userId: Id, userRole: Role, now: int)
    requires userRole != MANAGER && userRole != ADMIN
    ensures CreateCar(s, env, id, b, userId, userRole, now).result.Err?
    ensures CreateCar(s, env, id, b, userId, userRole, now).store == s
  {
  }

  // ---- lookup and deletion --------------------------------------------------

  function GetCarById(s: Store, id: Id): (r: Result<Car>)
    ensures r.Ok? <==> id in s.cars
    ensures r.Ok? ==> r.value == s.cars[id]
    ensures r.Err? ==> r.error == Fail("Car not found")
  {
    if id in s.cars then Ok(s.cars[id]) else Err(Fail("Car not found"))
  }

  /** `deleteCar` removes the document and returns it. Purchases that name
      the car are left as they are. */
  function DeleteCar(s: Store, id: Id): (st: Step<Car>)
    ensures st.result.Ok? <==> id in s.cars
    ensures st.result.Ok? ==> st.result.value == s.cars[id] && st.store == s.(cars := s.cars - {id})
    ensures st.result.Err? ==> st == Step(s, Err(Fail("Car not found")))
    ensures forall env :: Consistent(s, env) ==> Consistent(st.store, env)
  {
    if id in s.cars then Step(s.(cars := s.cars - {id}), Ok(s.cars[id]))
    else Step(s, Err(Fail("Car not found")))
  }

  /** A created car can be read back under its identifier, and deleting it
      gives back the store it was created in. */
  lemma CreateThenReadThenDelete(s: Store, env: Env, id: Id, b: CarBody, userId: Id, userRole: Role, now: int)
    requires CreateCar(s, env, id, b, userId, userRole, now).result.Ok?
    ensures var st := CreateCar(s, env, id, b, userId, userRole, now);
      && GetCarById(st.store, id) == st.result
      && DeleteCar(st.store, id) == Step(s, st.result)
  {
    var st := CreateCar(s, env, id, b, userId, userRole, now);
    InsertedCarRoundTrip(s, id, st.result.value);
  }

  /** A car stored under a fresh identifier is read back unchanged, and
      removing it restores the store. */
  lemma InsertedCarRoundTrip(s: Store, id: Id, car: Car)
    requires id !in s.cars
    ensures GetCarById(s.(cars := s.cars[id := car]), id) == Ok(car)
    ensures DeleteCar(s.(cars := s.cars[id := car]), id) == Step(s, Ok(car))
  {
    var s1 := s.(cars := s.cars[id := car]);
    assert s1.cars - {id} == s.cars;
    assert s1.(cars := s1.cars - {id}) == s;
  }

  // ---- partial update -------------------------------------------------------

  /** The update validators, which run only on the paths the patch sets.
      An `addedBy` in the patch meets the same rules as a stored adder. */
  predicate PatchValid(p: CarBody, env: Env) {
    && (p.make.Some? ==> Trim(p.make.value) != "")
    && (p.modelName.Some? ==> Trim(p.modelName.value) != "")
    && (p.year.Some? ==> 1900 <= p.year.value <= env.schemaYear + 1)
    && (p.price.Some? ==> p.price.value >= 0)
    && (p.mileage.Some? ==> p.mileage.value >= 0)
    && (p.color.Some? ==> Trim(p.color.value) != "")
    && (p.category.Some? ==> p.category.value != "")
    && (p.status.Some? ==> p.status.value.StatusValue?)
    && (p.vin.Some? ==> VinShape(Trim(p.vin.value)))
    && (p.addedBy.Some? ==> StaffAdder(p.addedBy.value))
  }

  /** `$set` of the supplied paths, through the same setters as a save, and
      the update timestamp. */
  function ApplyPatch(c: Car, p: CarBody, now: int): (r: Car)
    requires p.status.Some? ==> p.status.value.StatusValue?
  {
    c.(
      make := if p.make.Some? then Trim(p.make.value) else c.make,
      modelName := if p.modelName.Some? then Trim(p.modelName.value) else c.modelName,
      year := if p.year.Some? then p.year.value else c.year,
      price := if p.price.Some? then p.price.value else c.price,
      mileage := if p.mileage.Some? then p.mileage.value else c.mileage,
      color := if p.color.Some? then Trim(p.color.value) else c.color,
      category := if p.category.Some? then p.category.value else c.category,
      status := if p.status.Some? then p.status.value.status else c.status,
      features := if p.features.Some? then TrimAll(p.features.value) else c.features,
      images := if p.images.Some? then TrimAll(p.images.value) else c.images,
      vin := if p.vin.Some? then Trim(p.vin.value) else c.vin,
      addedBy := if p.addedBy.Some? then p.addedBy.value else c.addedBy,
      updatedAt := now)
  }

  /** Validating only the changed paths is enough: a valid car patched with
      a valid patch is valid. */
  lemma PatchKeepsCarValid(c: Car, p: CarBody, env: Env, now: int)
    requires ValidCar(c, env) && PatchValid(p, env)
    ensures ValidCar(ApplyPatch(c, p, now), env)
  {
  }

  /** The empty patch only moves the update timestamp. */
  lemma EmptyPatchTouchesOnlyTimestamp(c: Car, now: int)
    ensures ApplyPatch(c, EmptyCarBody, now) == c.(updatedAt := now)
  {
  }

  /** A patch leaves the fields it does not name and the creation time
      alone. The adder is one of those fields: a patch that names it
      replaces it. */
  lemma PatchLeavesOthers(c: Car, p: CarBody, now: int)
    requires p.status.Some? ==> p.status.value.StatusValue?
    ensures ApplyPatch(c, p, now).createdAt == c.createdAt
    ensures p.addedBy.None? ==> ApplyPatch(c, p, now).addedBy == c.addedBy
    ensures p.addedBy.Some? ==> ApplyPatch(c, p, now).addedBy == p.addedBy.value
    ensures p.make.None? ==> ApplyPatch(c, p, now).make == c.make
    ensures p.modelName.None? ==> ApplyPatch(c, p, now).modelName == c.modelName
    ensures p.year.None? ==> ApplyPatch(c, p, now).year == c.year
    ensures p.price.None? ==> ApplyPatch(c, p, now).price == c.price
    ensures p.mileage.None? ==> ApplyPatch(c, p, now).mileage == c.mileage
    ensures p.color.None? ==> ApplyPatch(c, p, now).color == c.color
    ensures p.category.None? ==> ApplyPatch(c, p, now).category == c.category
    ensures p.status.None? ==> ApplyPatch(c, p, now).status == c.status
    ensures p.features.None? ==> ApplyPatch(c, p, now).features == c.features
    ensures p.images.None? ==> ApplyPatch(c, p, now).images == c.images
    ensures p.vin.None? ==> ApplyPatch(c, p, now).vin == c.vin
    ensures ApplyPatch(c, p, now).updatedAt == now
  {
  }

  /** Sending the same patch again changes nothing but the timestamp. */
  lemma PatchIdempotent(c: Car, p: CarBody, now: int, later: int)
    requires p.status.Some? ==> p.status.value.StatusValue?
    ensures ApplyPatch(ApplyPatch(c, p, now), p, later) == ApplyPatch(c, p, later)
  {
    var once := ApplyPatch(c, p, now);
    var twice := ApplyPatch(once, p, later);
    var direct := ApplyPatch(c, p, later);
    if p.make.Some? { TrimIdempotent(p.make.value); }
    if p.modelName.Some? { TrimIdempotent(p.modelName.value); }
    if p.color.Some? { TrimIdempotent(p.color.value); }
    if p.vin.Some? { TrimIdempotent(p.vin.value); }
    if p.features.Some? {
      forall k | 0 <= k < |p.features.value| ensures Trim(Trim(p.features.value[k])) == Trim(p.features.value[k]) {
        TrimIdempotent(p.features.value[k]);
      }
      assert TrimAll(TrimAll(p.features.value)) == TrimAll(p.features.value);
    }
    if p.images.Some? {
      forall k | 0 <= k < |p.images.value| ensures Trim(Trim(p.images.value[k])) == Trim(p.images.value[k]) {
        TrimIdempotent(p.images.value[k]);
      }
      assert TrimAll(TrimAll(p.images.value)) == TrimAll(p.images.value);
    }
    assert twice.make == direct.make && twice.modelName == direct.modelName;
    assert twice.color == direct.color && twice.vin == direct.vin;
    assert twice.features == direct.features && twice.images == direct.images;
  }

  /** A patch that passes validation and keeps the VIN unique keeps the
      store consistent. */
  lemma PatchKeepsStoreConsistent(s: Store, env: Env, id: Id, p: CarBody, now: int)
    requires id in s.cars && PatchValid(p, env) && Consistent(s, env)
    requires !VinHeldByOther(s.cars, ApplyPatch(s.cars[id], p, now).vin, id)
    ensures Consistent(s.(cars := s.cars[id := ApplyPatch(s.cars[id], p, now)]), env)
  {
    var car := ApplyPatch(s.cars[id], p, now);
    PatchKeepsCarValid(s.cars[id], p, env, now);
    assert ReplaceCar(s, env, id, car).Ok?;
  }

  /** `updateCar`: the update validators run first, then the document is
      looked up, and the VIN index is met when the update is written. */
  function UpdateCar(s: Store, env: Env, id: Id, p: CarBody, now: int): (st: Step<Car>)
    ensures !PatchValid(p, env) ==> st == Step(s, Err(Invalid("Car")))
    ensures PatchValid(p, env) && id !in s.cars ==> st == Step(s, Err(Fail("Car not found")))
    ensures st.result.Ok? <==>
      && PatchValid(p, env) && id in s.cars
      && !VinHeldByOther(s.cars, ApplyPatch(s.cars[id], p, now).vin, id)
    ensures st.result.Ok? ==>
      && st.result.value == ApplyPatch(s.cars[id], p, now)
      && st.store == s.(cars := s.cars[id := st.result.value])
    ensures st.result.Err? ==> st.store == s
    ensures Consistent(s, env) ==> Consistent(st.store, env)
  {
    if !PatchValid(p, env) then Step(s, Err(Invalid("Car")))
    else if id !in s.cars then Step(s, Err(Fail("Car not found")))
    else
      var car := ApplyPatch(s.cars[id], p, now);
      if VinHeldByOther(s.cars, car.vin, id) then Step(s, Err(DuplicateKey("vin")))
      else
        assert Consistent(s, env) ==> Consistent(s.(cars := s.cars[id := car]), env) by {
          if Consistent(s, env) { PatchKeepsStoreConsistent(s, env, id, p, now); }
        }
        Step(s.(cars := s.cars[id := car]), Ok(car))
  }

  /** Reassigning a car to another staff member succeeds on any stored car
      and changes nothing else but the update time. */
  lemma PatchReassignsAdder(s: Store, env: Env, id: Id, a: AddedBy, now: int)
    requires id in s.cars && Consistent(s, env)
    requires StaffAdder(a)
    ensures UpdateCar(s, env, id, EmptyCarBody.(addedBy := Some(a)), now)
         == Step(s.(cars := s.cars[id := s.cars[id].(addedBy := a, updatedAt := now)]), Ok(s.cars[id].(addedBy := a, updatedAt := now)))
  {
    var p := EmptyCarBody.(addedBy := Some(a));
    assert ApplyPatch(s.cars[id], p, now) == s.cars[id].(addedBy := a, updatedAt := now);
    assert !VinHeldByOther(s.cars, s.cars[id].vin, id);
  }

  // ---- listings -------------------------------------------------------------

  /** `getCarsByCategory`: every car filed under the category, each once. */
  method GetCarsByCategory(s: Store, category: Id) returns (cars: seq<(Id, Car)>)
    ensures ListsExactly(cars, s.cars, (c: Car) => c.category == category)
    ensures forall k :: 0 <= k < |cars| ==> cars[k].1.category == category
  {
    cars := Find(s.cars, (c: Car) => c.category == category);
  }

  /** The catalogue query as the handler passes it on. A present string
      parameter holds its text (the empty text is falsy); a present numeric
      parameter holds the number its text denotes. */
  datatype CarQuery = CarQuery(
    page: Option<int>,
    limit: Option<int>,
    search: Option<string>,
    category: Option<string>,
    minPrice: Option<int>,
    maxPrice: Option<int>,
    status: Option<StatusInput>,
    sortBy: Option<string>,
    sortOrder: Option<string>)

  function PageOf(q: CarQuery): int { if q.page.Some? then q.page.value else 1 }
  function LimitOf(q: CarQuery): int { if q.limit.Some? then q.limit.value else 10 }
  function SortFieldOf(q: CarQuery): string { if q.sortBy.Some? then q.sortBy.value else "createdAt" }

  /** Only the exact text "desc" sorts downwards; it is also the default. */
  predicate Descending(q: CarQuery) { q.sortOrder.None? || q.sortOrder.value == "desc" }

  predicate Truthy(o: Option<string>) { o.Some? && o.value != "" }

  /** The filter document. The search clause also names a `model` path that
      car documents do not have, so it can only match on make or VIN. */
  predicate CarMatches(q: CarQuery, c: Car) {
    && (Truthy(q.search) ==> ContainsIgnoringCase(c.make, q.search.value) || ContainsIgnoringCase(c.vin, q.search.value))
    && (Truthy(q.category) ==> c.category == q.category.value)
    && (q.status.Some? && q.status.value != UnknownStatus("") ==>
          q.status.value.StatusValue? && c.status == q.status.value.status)
    && (q.minPrice.Some? ==> c.price >= q.minPrice.value)
    && (q.maxPrice.Some? ==> c.price <= q.maxPrice.value)
  }

  function CarFilter(q: CarQuery): Car -> bool {
    (c: Car) => CarMatches(q, c)
  }

  /** The model name takes no part in search. */
  lemma SearchIgnoresModelName(q: CarQuery, c: Car, other: string)
    ensures CarMatches(q, c.(modelName := other)) == CarMatches(q, c)
    ensures q == CarQuery(None, None, q.search, None, None, None, None, None, None) && Truthy(q.search) ==>
      (CarMatches(q, c) <==> ContainsIgnoringCase(c.make, q.search.value) || ContainsIgnoringCase(c.vin, q.search.value))
  {
  }

  /** A sort key as the store compares it: absent values first, then
      numbers, then strings in binary order. */
  datatype SortKey = Absent | Number(n: int) | Text(t: string) {
    function Rank(): nat {
      match this
      case Absent => 0
      case Number(_) => 1
      case Text(_) => 2
    }
  }

  predicate KeyLe(a: SortKey, b: SortKey) {
    a.Rank() < b.Rank()
    || (a.Rank() == b.Rank() && (a.Absent? || (a.Number? && a.n <= b.n) || (a.Text? && LexLe(a.t, b.t))))
  }

  /** The value a car document holds at a sort path. Paths that do not
      exist, the array paths, and the enumerated `status` and `addedBy.role`,
      whose stored strings are not part of this model, sort as absent. */
  function KeyOf(e: (Id, Car), field: string): SortKey {
    var c := e.1;
    if field == "_id" then Text(e.0)
    else if field == "make" then Text(c.make)
    else if field == "modelName" then Text(c.modelName)
    else if field == "color" then Text(c.color)
    else if field == "vin" then Text(c.vin)
    else if field == "category" then Text(c.category)
    else if field == "addedBy.user" then Text(c.addedBy.user)
    else if field == "year" then Number(c.year)
    else if field == "price" then Number(c.price)
    else if field == "mileage" then Number(c.mileage)
    else if field == "createdAt" then Number(c.createdAt)
    else if field == "updatedAt" then Number(c.updatedAt)
    else Absent
  }

  predicate EntryLe(field: string, descending: bool, a: (Id, Car), b: (Id, Car)) {
    if descending then KeyLe(KeyOf(b, field), KeyOf(a, field)) else KeyLe(KeyOf(a, field), KeyOf(b, field))
  }

  function CarOrder(field: string, descending: bool): ((Id, Car), (Id, Car)) -> bool {
    (a: (Id, Car), b: (Id, Car)) => EntryLe(field, descending, a, b)
  }

  lemma KeyLeTotalPreorder(a: SortKey, b: SortKey, c: SortKey)
    ensures KeyLe(a, b) || KeyLe(b, a)
    ensures KeyLe(a, b) && KeyLe(b, c) ==> KeyLe(a, c)
  {
    if a.Text? && b.Text? {
      LexLeTotal(a.t, b.t);
      if c.Text? && KeyLe(a, b) && KeyLe(b, c) {
        LexLeTransitive(a.t, b.t, c.t);
      }
    }
  }

  /** The sort stage orders every pair of cars, in either direction. */
  lemma CarOrderIsTotal(field: string, descending: bool)
    ensures TotalPreorder(CarOrder(field, descending))
  {
    var le := CarOrder(field, descending);
    forall a, b ensures le(a, b) || le(b, a) {
      KeyLeTotalPreorder(KeyOf(a, field), KeyOf(b, field), KeyOf(b, field));
    }
    forall a, b, c | le(a, b) && le(b, c) ensures le(a, c) {
      if descending {
        KeyLeTotalPreorder(KeyOf(c, field), KeyOf(b, field), KeyOf(a, field));
      } else {
        KeyLeTotalPreorder(KeyOf(a, field), KeyOf(b, field), KeyOf(c, field));
      }
    }
  }

  /** `all` is every matching car, each once, in the requested order. */
  ghost predicate SortedListing(all: seq<(Id, Car)>, s: Store, q: CarQuery) {
    ListsExactly(all, s.cars, CarFilter(q)) && SortedBy(all, CarOrder(SortFieldOf(q), Descending(q)))
  }

  lemma SortedListingFacts(s: Store, q: CarQuery, matching: seq<(Id, Car)>, all: seq<(Id, Car)>)
    requires ListsExactly(matching, s.cars, CarFilter(q))
    requires multiset(all) == multiset(matching)
    requires SortedBy(all, CarOrder(SortFieldOf(q), Descending(q)))
    ensures SortedListing(all, s, q)
    ensures |all| == |MatchingIds(s.cars, CarFilter(q))|
  {
    ListsExactlyPermutation(matching, all, s.cars, CarFilter(q));
    ListingSize(all, s.cars, CarFilter(q));
  }

  /** `(page - 1) * limit`, the number of results skipped. */
  function SkipOf(q: CarQuery): int {
    (PageOf(q) - 1) * LimitOf(q)
  }

  function Abs(n: int): nat { if n < 0 then -n else n }

  /** `Math.ceil(total / limit)` as the response reports it: a zero limit
      gives a non-finite quotient, which is sent as null (None); a negative
      limit gives the negated quotient rounded towards zero. */
  function PagesOf(total: nat, limit: int): (pages: Option<int>)
    ensures limit == 0 <==> pages.None?
    ensures limit > 0 ==> pages == Some(CeilDiv(total, limit))
    ensures limit < 0 ==> pages.value <= 0 && pages.value * limit <= total < (pages.value - 1) * limit
  {
    if limit > 0 then Some(CeilDiv(total, limit))
    else if limit < 0 then Some(-(total / -limit))
    else None
  }

  datatype CarPage = CarPage(cars: seq<(Id, Car)>, total: nat, page: int, limit: int, pages: Option<int>)

  /** `getCars`. The store refuses a negative skip; a limit of 0 returns
      everything after the skip, and a negative limit returns at most its
      absolute value. `total` counts every matching car. */
  method GetCars(s: Store, q: CarQuery) returns (r: Result<CarPage>)
    ensures r.Err? <==> SkipOf(q) < 0
    ensures r.Ok? ==>
      && r.value.total == |MatchingIds(s.cars, CarFilter(q))|
      && r.value.page == PageOf(q) && r.value.limit == LimitOf(q)
      && r.value.pages == PagesOf(r.value.total, LimitOf(q))
    ensures r.Ok? ==> exists all :: SortedListing(all, s, q) && r.value.cars == Window(all, SkipOf(q), Abs(LimitOf(q)))
  {
    if SkipOf(q) < 0 {
      return Err(Fail("skip value must be non-negative"));
    }
    var matching := Find(s.cars, CarFilter(q));
    var le := CarOrder(SortFieldOf(q), Descending(q));
    CarOrderIsTotal(SortFieldOf(q), Descending(q));
    var all := SortBy(matching, le);
    SortedListingFacts(s, q, matching, all);
    var total := |all|;
    r := Ok(CarPage(Window(all, SkipOf(q), Abs(LimitOf(q))), total, PageOf(q), LimitOf(q), PagesOf(total, LimitOf(q))));
    assert SortedListing(all, s, q) && r.value.cars == Window(all, SkipOf(q), Abs(LimitOf(q)));
  }

  /** With the default query every car is listed, newest first, ten to a page. */
  lemma DefaultQueryPaging(q: CarQuery)
    requires q == CarQuery(None, None, None, None, None, None, None, None, None)
    ensures SkipOf(q) == 0 && LimitOf(q) == 10 && SortFieldOf(q) == "createdAt" && Descending(q)
    ensures forall c :: CarMatches(q, c)
  {
  }
}

=== FILE: category_service.dfy ===
/** The category service: creation under a unique name, the name-ordered
    listing, lookup, partial update and deletion.
 */
module CategoryService {
  import opened Results
  import opened Text
  import opened Domain
  import opened Sorting
  import opened Listing
  import opened StoredSchemas
  import opened RequestSchemas
  import CarService

  /** `new Category(body)`: both paths are trimmed; a missing one fails validation. */
  function BuildCategory(b: CategoryBody, now: int): (r: Result<Category>)
    ensures r.Ok? <==> b.name.Some? && b.description.Some?
    ensures r.Err? ==> r == Err(Invalid("Category"))
    ensures r.Ok? ==> r.value == Category(Trim(b.name.value), Trim(b.description.value), now, now)
  {
    if b.name.None? || b.description.None? then Err(Invalid("Category"))
    else Ok(Category(Trim(b.name.value), Trim(b.description.value), now, now))
  }

  /** `createCategory`: the trimmed name must be free. */
  function CreateCategory(s: Store, id: Id, b: CategoryBody, now: int): (st: Step<Category>)
    ensures st.result.Err? ==> st.store == s
    ensures st.result.Ok? ==>
      && st.store == s.(categories := s.categories[id := st.result.value])
      && id !in s.categories
      && b.name.Some? && b.description.Some?
      && st.result.value.name == Trim(b.name.value) && st.result.value.name != ""
      && st.result.value.description == Trim(b.description.value) && st.result.value.description != ""
    ensures st.result.Ok? <==>
      && b.name.Some? && b.description.Some?
      && Trim(b.name.value) != "" && Trim(b.description.value) != ""
      && id !in s.categories
      && !NameHeldByOther(s.categories, Trim(b.name.value), id)
    ensures (&& b.name.Some? && b.description.Some? && Trim(b.name.value) != "" && Trim(b.description.value) != ""
             && id !in s.categories && NameHeldByOther(s.categories, Trim(b.name.value), id))
      ==> st.result == Err(DuplicateKey("name"))
    ensures forall env :: Consistent(s, env) ==> Consistent(st.store, env)
  {
    match BuildCategory(b, now)
    case Err(e) => Step(s, Err(e))
    case Ok(c) =>
      match InsertCategory(s, id, c)
      case Err(e) => Step(s, Err(e))
      case Ok(s') => Step(s', Ok(c))
  }

  function GetCategoryById(s: Store, id: Id): (r: Result<Category>)
    ensures r.Ok? <==> id in s.categories
    ensures r.Ok? ==> r.value == s.categories[id]
    ensures r.Err? ==> r.error == Fail("Category not found")
  {
    if id in s.categories then Ok(s.categories[id]) else Err(Fail("Category not found"))
  }

  /** Names differing only in surrounding blanks collide: after creating
      "SUV", creating " SUV " is refused by the name index. */
  lemma TrimmedNamesCollide(s: Store, id1: Id, id2: Id, name: string, description: string, pad: string, now: int)
    requires id1 != id2 && id2 !in s.categories
    requires CreateCategory(s, id1, CategoryBody(Some(name), Some(description)), now).result.Ok?
    requires Trim(pad + name + pad) == Trim(name)
    ensures var s1 := CreateCategory(s, id1, CategoryBody(Some(name), Some(description)), now).store;
      CreateCategory(s1, id2, CategoryBody(Some(pad + name + pad), Some(description)), now).result == Err(DuplicateKey("name"))
  {
    var s1 := CreateCategory(s, id1, CategoryBody(Some(name), Some(description)), now).store;
    assert s1.categories[id1].name == Trim(pad + name + pad);
    assert NameHeldByOther(s1.categories, Trim(pad + name + pad), id2);
  }

  // ---- partial update -------------------------------------------------------

  predicate CategoryPatchValid(p: CategoryBody) {
    (p.name.Some? ==> Trim(p.name.value) != "") && (p.description.Some? ==> Trim(p.description.value) != "")
  }

  function ApplyCategoryPatch(c: Category, p: CategoryBody, now: int): Category {
    c.(
      name := if p.name.Some? then Trim(p.name.value) else c.name,
      description := if p.description.Some? then Trim(p.description.value) else c.description,
      updatedAt := now)
  }

  /** A patch keeps a valid category valid, leaves the creation time alone,
      and sending it twice is sending it once. */
  lemma CategoryPatchLaws(c: Category, p: CategoryBody, now: int, later: int)
    requires ValidCategory(c) && CategoryPatchValid(p)
    ensures ValidCategory(ApplyCategoryPatch(c, p, now))
    ensures ApplyCategoryPatch(c, p, now).createdAt == c.createdAt
    ensures ApplyCategoryPatch(c, CategoryBody(None, None), now) == c.(updatedAt := now)
    ensures ApplyCategoryPatch(ApplyCategoryPatch(c, p, now), p, later) == ApplyCategoryPatch(c, p, later)
  {
    if p.name.Some? { TrimIdempotent(p.name.value); }
    if p.description.Some? { TrimIdempotent(p.description.value); }
  }

  /** `updateCategory`: update validators, then the lookup, then the name index. */
  function UpdateCategory(s: Store, id: Id, p: CategoryBody, now: int): (st: Step<Category>)
    ensures !CategoryPatchValid(p) ==> st == Step(s, Err(Invalid("Category")))
    ensures CategoryPatchValid(p) && id !in s.categories ==> st == Step(s, Err(Fail("Category not found")))
    ensures st.result.Ok? <==>
      && CategoryPatchValid(p) && id in s.categories
      && !NameHeldByOther(s.categories, ApplyCategoryPatch(s.categories[id], p, now).name, id)
    ensures st.result.Ok? ==>
      && st.result.value == ApplyCategoryPatch(s.categories[id], p, now)
      && st.store == s.(categories := s.categories[id := st.result.value])
    ensures st.result.Err? ==> st.store == s
    ensures forall env :: Consistent(s, env) ==> Consistent(st.store, env)
  {
    if !CategoryPatchValid(p) then Step(s, Err(Invalid("Category")))
    else if id !in s.categories then Step(s, Err(Fail("Category not found")))
    else
      var c := ApplyCategoryPatch(s.categories[id], p, now);
      if NameHeldByOther(s.categories, c.name, id) then Step(s, Err(DuplicateKey("name")))
      else
        var s1 := s.(categories := s.categories[id := c]);
        assert forall env :: Consistent(s, env) ==> Consistent(s1, env) by {
          forall env | Consistent(s, env) ensures Consistent(s1, env) {
            assert ValidCategory(c);
          }
        }
        Step(s1, Ok(c))
  }

  /** `deleteCategory` removes the document only: cars filed under it keep
      pointing at it. */
  function DeleteCategory(s: Store, id: Id): (st: Step<Category>)
    ensures st.result.Ok? <==> id in s.categories
    ensures st.result.Ok? ==> st.result.value == s.categories[id] && st.store == s.(categories := s.categories - {id})
    ensures st.result.Err? ==> st == Step(s, Err(Fail("Category not found")))
    ensures st.store.cars == s.cars
    ensures forall env :: Consistent(s, env) ==> Consistent(st.store, env)
  {
    if id in s.categories then Step(s.(categories := s.categories - {id}), Ok(s.categories[id]))
    else Step(s, Err(Fail("Category not found")))
  }

  /** After its category is deleted a car still names it, and no new car can
      be created under that category. */
  lemma DeleteCategoryOrphansCars(s: Store, env: Env, catId: Id, carId: Id, newId: Id, b: CarBody, user: Id, role: Role, now: int)
    requires carId in s.cars && s.cars[carId].category == catId
    requires DeleteCategory(s, catId).result.Ok?
    requires b.category == Some(catId)
    ensures var s1 := DeleteCategory(s, catId).store;
      && carId in s1.cars && s1.cars[carId].category == catId && catId !in s1.categories
      && CarService.CreateCar(s1, env, newId, b, user, role, now) == Step(s1, Err(Fail("Category not found")))
  {
  }

  // ---- listing --------------------------------------------------------------

  predicate NameLe(a: (Id, Category), b: (Id, Category)) {
    LexLe(a.1.name, b.1.name)
  }

  function ByName(): ((Id, Category), (Id, Category)) -> bool {
    (a: (Id, Category), b: (Id, Category)) => NameLe(a, b)
  }

  lemma ByNameIsTotal()
    ensures TotalPreorder(ByName())
  {
    forall a: (Id, Category), b: (Id, Category) ensures NameLe(a, b) || NameLe(b, a) {
      LexLeTotal(a.1.name, b.1.name);
    }
    forall a: (Id, Category), b: (Id, Category), c: (Id, Category) | NameLe(a, b) && NameLe(b, c) ensures NameLe(a, c) {
      LexLeTransitive(a.1.name, b.1.name, c.1.name);
    }
  }

  /** `getCategories`: every category once, in ascending name order. */
  method GetCategories(s: Store) returns (all: seq<(Id, Category)>)
    ensures ListsExactly(all, s.categories, Everything())
    ensures |all| == |s.categories|
    ensures SortedBy(all, ByName())
  {
    var found := Find(s.categories, Everything());
    ByNameIsTotal();
    all := SortBy(found, ByName());
    ListsExactlyPermutation(found, all, s.categories, Everything());
    ListingSize(all, s.categories, Everything());
    assert MatchingIds(s.categories, Everything()) == s.categories.Keys;
  }
}

=== FILE: domain.dfy ===
/** The dealership's entities, as the document store holds them, and the
    store itself: one map from identifier to record per collection.

    Records are immutable values; a service that changes a record writes a
    new value under the same identifier. Dates and timestamps are integer
    milliseconds, and prices, years and mileages are integers.
 */
module Domain {
  import opened Results

  /** A document identifier (an ObjectId in its string form). */
  type Id = string

  /** The three account roles; a token may claim any other role string. */
  datatype Role = ADMIN | MANAGER | CUSTOMER | UnknownRole(name: string) {
    predicate IsUserRole() {
      !UnknownRole?
    }
  }

  /** The car states the purchase flow reads and writes. */
  datatype CarStatus = AVAILABLE | SOLD

  datatype CalendarDate = CalendarDate(year: int, month: int, day: int)

  datatype Address = Address(street: string, city: string, state: string, zipCode: string, country: string)

  /** Who put a car into the catalogue. */
  datatype AddedBy = AddedBy(user: Id, role: Role)

  datatype Car = Car(
    make: string,
    modelName: string,
    year: int,
    price: int,
    mileage: int,
    color: string,
    category: Id,
    status: CarStatus,
    features: seq<string>,
    images: seq<string>,
    vin: string,
    addedBy: AddedBy,
    createdAt: int,
    updatedAt: int)

  datatype Category = Category(name: string, description: string, createdAt: int, updatedAt: int)

  datatype Purchase = Purchase(
    carId: Id,
    customerId: Id,
    purchaseDate: int,
    purchasePrice: int,
    paymentMethod: string,
    createdAt: int,
    updatedAt: int)

  datatype Customer = Customer(
    firstName: string,
    lastName: string,
    email: string,
    password: string,
    phone: string,
    address: Address,
    dateOfBirth: CalendarDate,
    licenseNumber: string,
    role: Role,
    lastLogin: int,
    createdAt: int,
    updatedAt: int)

  datatype Manager = Manager(
    firstName: string,
    lastName: string,
    email: string,
    password: string,
    phone: string,
    role: Role,
    isActive: bool,
    lastLogin: int,
    createdAt: int,
    updatedAt: int)

  datatype Admin = Admin(email: string, password: string, role: Role, lastLogin: int, createdAt: int, updatedAt: int)

  datatype Store = Store(
    cars: map<Id, Car>,
    categories: map<Id, Category>,
    purchases: map<Id, Purchase>,
    customers: map<Id, Customer>,
    managers: map<Id, Manager>,
    admins: map<Id, Admin>)

  /** What a service call leaves behind: the store after it, and its value or error. */
  datatype Step<+T> = Step(store: Store, result: Result<T>)

  /** Facts fixed for the life of the process: the calendar year in which
      the schemas were built (the car year bound is computed once, then), and
      the values of the payment-method enumeration. */
  datatype Env = Env(schemaYear: int, paymentMethods: set<string>)

  /** The identity a bearer token carries. */
  datatype Claims = Claims(id: Id, email: string, role: Role)
}

=== FILE: field_rules.dfy ===
/** The field-level rules request bodies are checked against before any
    handler runs: the shared password, phone and address rules, and the
    base bounds on user, car, category and purchase fields.
 */
module FieldRules {
  import opened Text
  import opened Domain

  /** The format checks the validation library and the ObjectId parser
      perform are not modelled; these functions stand for them. */
  datatype Formats = Formats(isEmail: string -> bool, isUrl: string -> bool, isObjectId: string -> bool)

  // ---- password ---------------------------------------------------------

  predicate PasswordSpecial(c: char) {
    c == '@' || c == '$' || c == '!' || c == '%' || c == '*' || c == '?' || c == '&'
  }

  predicate PasswordChar(c: char) {
    IsUpper(c) || IsLower(c) || IsDigit(c) || PasswordSpecial(c)
  }

  predicate IsLineTerminator(c: char) {
    c == '\n' || c == '\r' || c == '\U{2028}' || c == '\U{2029}'
  }

  /** A look-ahead `(?=.*[class])` anchored at the start: a character of the
      class occurs before the first line terminator. */
  predicate LookaheadFinds(p: string, charClass: char -> bool) {
    exists i :: 0 <= i < |p| && charClass(p[i]) && NoLineTerminatorBefore(p, i)
  }

  predicate NoLineTerminatorBefore(p: string, i: nat)
    requires i <= |p|
  {
    forall j :: 0 <= j < i ==> !IsLineTerminator(p[j])
  }

  /** The password pattern as written: four look-aheads, then eight or more
      characters of the allowed class up to the end. */
  predicate PasswordPattern(p: string) {
    && LookaheadFinds(p, IsLower)
    && LookaheadFinds(p, IsUpper)
    && LookaheadFinds(p, IsDigit)
    && LookaheadFinds(p, PasswordSpecial)
    && |p| >= 8
    && forall i :: 0 <= i < |p| ==> PasswordChar(p[i])
  }

  /** The password field: at least 8 characters, then the pattern. */
  predicate PasswordAccepted(p: string) {
    |p| >= 8 && PasswordPattern(p)
  }

  /** The complexity rule in plain terms: length, alphabet, and one of each class. */
  predicate PasswordComplex(p: string) {
    && |p| >= 8
    && (forall i :: 0 <= i < |p| ==> PasswordChar(p[i]))
    && (exists i :: 0 <= i < |p| && IsLower(p[i]))
    && (exists i :: 0 <= i < |p| && IsUpper(p[i]))
    && (exists i :: 0 <= i < |p| && IsDigit(p[i]))
    && (exists i :: 0 <= i < |p| && PasswordSpecial(p[i]))
  }

  lemma PasswordAcceptedIff(p: string)
    ensures PasswordAccepted(p) <==> PasswordComplex(p)
  {
    if PasswordComplex(p) {
      assert forall i :: 0 <= i <= |p| ==> NoLineTerminatorBefore(p, i);
    }
  }

  // ---- phone ------------------------------------------------------------

  /** `[789][01]\d{8}`. */
  predicate PhoneTail(t: string) {
    |t| == 10 && t[0] in "789" && t[1] in "01" && AllDigits(t[2..])
  }

  /** `^(\+234|0)[789][01]\d{8}$`. */
  predicate PhonePattern(s: string) {
    || (StartsWith(s, "+234") && PhoneTail(s[4..]))
    || (StartsWith(s, "0") && PhoneTail(s[1..]))
  }

  /** The phone field: at least 10 characters, then the pattern. */
  predicate PhoneAccepted(s: string) {
    |s| >= 10 && PhonePattern(s)
  }

  /** Accepted numbers have one of exactly two lengths, and the length
      check in front of the pattern never rejects what the pattern accepts. */
  lemma PhoneLengths(s: string)
    ensures PhoneAccepted(s) ==> |s| == 11 || |s| == 14
    ensures PhoneAccepted(s) <==> PhonePattern(s)
  {
  }

  /** The password the registration samples use passes the rule. */
  lemma SamplePasswordAccepted()
    ensures PasswordAccepted("Password1@")
  {
    var p := "Password1@";
    assert IsLower(p[1]) && IsUpper(p[0]) && IsDigit(p[8]) && PasswordSpecial(p[9]);
    assert forall i :: 0 <= i < |p| ==> PasswordChar(p[i]) by {
      forall i | 0 <= i < |p| ensures PasswordChar(p[i]) {
        assert p[i] in "Password1@";
      }
    }
    PasswordAcceptedIff(p);
  }

  /** The phone number the registration samples use passes the rule. */
  lemma SamplePhoneAccepted()
    ensures PhoneAccepted("08123456789")
  {
    var s := "08123456789";
    assert StartsWith(s, "0");
    var t := s[1..];
    assert t == "8123456789";
    assert t[2..] == "23456789";
    assert AllDigits(t[2..]);
  }

  // ---- address and base fields ------------------------------------------

  predicate AddressAccepted(a: Address) {
    a.street != "" && a.city != "" && a.state != "" && a.zipCode != "" && a.country != ""
  }

  predicate NameAccepted(s: string) { |s| >= 1 }

  predicate EmailAccepted(fmt: Formats, e: string) {
    fmt.isEmail(e) && |e| >= 1
  }

  /** The fields every account body shares. */
  predicate UserFieldsAccepted(fmt: Formats, firstName: string, lastName: string, email: string,
                               password: string, phone: string) {
    && NameAccepted(firstName) && NameAccepted(lastName)
    && EmailAccepted(fmt, email)
    && PasswordAccepted(password)
    && PhoneAccepted(phone)
  }

  predicate MakeAccepted(s: string) { |s| >= 2 }
  predicate ModelNameAccepted(s: string) { |s| >= 2 }
  predicate ColorAccepted(s: string) { |s| >= 2 }

  /** `schemaYear` is the calendar year when the schema was built. */
  predicate YearAccepted(year: int, schemaYear: int) { 1900 <= year <= schemaYear + 1 }

  predicate PriceAccepted(price: int) { price > 0 }
  predicate MileageAccepted(mileage: int) { mileage >= 0 }
  predicate VinLengthAccepted(vin: string) { |vin| == 17 }

  predicate ImagesAccepted(fmt: Formats, images: seq<string>) {
    forall i :: 0 <= i < |images| ==> fmt.isUrl(images[i])
  }

  predicate CategoryNameAccepted(s: string) { |s| >= 2 }
  predicate DescriptionAccepted(s: string) { |s| >= 10 }

  predicate PurchasePriceAccepted(price: int) { price > 0 }
  predicate PaymentMethodText(s: string) { |s| >= 1 }
}

=== FILE: format.dfy ===
/** The password-free projections of account records that every response
    carrying an account uses.
 */
module Format {
  import opened Domain

  datatype ManagerView = ManagerView(
    id: Id,
    firstName: string,
    lastName: string,
    email: string,
    phone: string,
    role: Role,
    isActive: bool,
    lastLogin: int,
    createdAt: int,
    updatedAt: int)
  {
    /** The keys of the JSON object this view is sent as. */
    function Keys(): seq<string> {
      ["_id", "firstName", "lastName", "email", "phone", "role", "isActive", "lastLogin", "createdAt", "updatedAt"]
    }
  }

  datatype CustomerView = CustomerView(
    id: Id,
    firstName: string,
    lastName: string,
    email: string,
    phone: string,
    role: Role,
    dateOfBirth: CalendarDate,
    licenseNumber: string,
    address: Address,
    lastLogin: int,
    createdAt: int,
    updatedAt: int)
  {
    function Keys(): seq<string> {
      ["_id", "firstName", "lastName", "email", "phone", "role", "dateOfBirth", "licenseNumber",
       "address", "lastLogin", "createdAt", "updatedAt"]
    }
  }

  datatype AdminView = AdminView(id: Id, email: string, role: Role, lastLogin: int, createdAt: int, updatedAt: int) {
    function Keys(): seq<string> {
      ["id", "email", "role", "lastLogin", "createdAt", "updatedAt"]
    }
  }

  function FormatManager(id: Id, m: Manager): (v: ManagerView)
    ensures v.id == id && v.email == m.email && v.role == m.role && v.isActive == m.isActive
    ensures v.firstName == m.firstName && v.lastName == m.lastName && v.phone == m.phone
    ensures v.lastLogin == m.lastLogin && v.createdAt == m.createdAt && v.updatedAt == m.updatedAt
  {
    ManagerView(id, m.firstName, m.lastName, m.email, m.phone, m.role, m.isActive, m.lastLogin, m.createdAt, m.updatedAt)
  }

  function FormatCustomer(id: Id, c: Customer): (v: CustomerView)
    ensures v.id == id && v.email == c.email && v.role == c.role
    ensures v.firstName == c.firstName && v.lastName == c.lastName && v.phone == c.phone
    ensures v.dateOfBirth == c.dateOfBirth && v.licenseNumber == c.licenseNumber && v.address == c.address
    ensures v.lastLogin == c.lastLogin && v.createdAt == c.createdAt && v.updatedAt == c.updatedAt
  {
    CustomerView(id, c.firstName, c.lastName, c.email, c.phone, c.role, c.dateOfBirth, c.licenseNumber,
                 c.address, c.lastLogin, c.createdAt, c.updatedAt)
  }

  function FormatAdmin(id: Id, a: Admin): (v: AdminView)
    ensures v.id == id && v.email == a.email && v.role == a.role
    ensures v.lastLogin == a.lastLogin && v.createdAt == a.createdAt && v.updatedAt == a.updatedAt
  {
    AdminView(id, a.email, a.role, a.lastLogin, a.createdAt, a.updatedAt)
  }

  /** No projection has a password or version key, and the admin
      projection names its identifier `id` where the others use `_id`. */
  lemma ViewsHidePassword(mv: ManagerView, cv: CustomerView, av: AdminView)
    ensures "password" !in mv.Keys() && "__v" !in mv.Keys() && "_id" in mv.Keys()
    ensures "password" !in cv.Keys() && "__v" !in cv.Keys() && "_id" in cv.Keys()
    ensures "password" !in av.Keys() && "__v" !in av.Keys() && "id" in av.Keys() && "_id" !in av.Keys()
  {
  }

  /** Nothing about the stored password reaches a projection: records that
      differ only in their password project to the same view. */
  lemma ProjectionsIgnorePassword(id: Id, m: Manager, c: Customer, a: Admin, p: string)
    ensures FormatManager(id, m.(password := p)) == FormatManager(id, m)
    ensures FormatCustomer(id, c.(password := p)) == FormatCustomer(id, c)
    ensures FormatAdmin(id, a.(password := p)) == FormatAdmin(id, a)
  {
  }

  /** Everything else does reach it: records with the same projection agree
      on every field except the password. */
  lemma ProjectionsDetermineRecord(id: Id, m1: Manager, m2: Manager, c1: Customer, c2: Customer)
    ensures FormatManager(id, m1) == FormatManager(id, m2) <==> m1.(password := m2.password) == m2
    ensures FormatCustomer(id, c1) == FormatCustomer(id, c2) <==> c1.(password := c2.password) == c2
  {
  }
}

=== FILE: listing.dfy ===
/** Reading a whole collection: the store hands documents back in an order
    of its own choosing, modelled here by enumerating the map's keys in an
    unspecified order.
 */
module Listing {
  import opened Domain

  predicate Distinct<T(==)>(s: seq<T>) {
    forall i, j :: 0 <= i < j < |s| ==> s[i] != s[j]
  }

  /** `entries` lists, once each, exactly the documents of `m` that satisfy `keep`. */
  ghost predicate ListsExactly<V>(entries: seq<(Id, V)>, m: map<Id, V>, keep: V -> bool) {
    && (forall k :: 0 <= k < |entries| ==> entries[k].0 in m && m[entries[k].0] == entries[k].1 && keep(entries[k].1))
    && (forall id :: id in m && keep(m[id]) ==> exists k :: 0 <= k < |entries| && entries[k].0 == id)
    && (forall i, j :: 0 <= i < j < |entries| ==> entries[i].0 != entries[j].0)
  }

  /** Every key of `m`, once each, in some order. */
  method KeysOf<V>(m: map<Id, V>) returns (ids: seq<Id>)
    ensures Distinct(ids)
    ensures forall id :: id in ids <==> id in m
  {
    ids := [];
    var rest := m.Keys;
    while rest != {}
      invariant rest <= m.Keys
      invariant forall id :: id in ids <==> id in m && id !in rest
      invariant Distinct(ids)
      decreases |rest|
    {
      var k :| k in rest;
      ids := ids + [k];
      rest := rest - {k};
    }
  }

  /** `find(filter)`: the documents of `m` that satisfy `keep`, each once. */
  method Find<V>(m: map<Id, V>, keep: V -> bool) returns (entries: seq<(Id, V)>)
    ensures ListsExactly(entries, m, keep)
  {
    var ids := KeysOf(m);
    var chosen := SelectIds(ids, m, keep);
    entries := seq(|chosen|, k requires 0 <= k < |chosen| => (chosen[k], m[chosen[k]]));
    forall id | id in m && keep(m[id]) ensures exists k :: 0 <= k < |entries| && entries[k].0 == id {
      var k :| 0 <= k < |chosen| && chosen[k] == id;
      assert entries[k].0 == id;
    }
  }

  /** The keys among `ids` whose document satisfies `keep`, in the order of `ids`. */
  function SelectIds<V>(ids: seq<Id>, m: map<Id, V>, keep: V -> bool): (r: seq<Id>)
    requires forall id :: id in ids ==> id in m
    ensures forall id :: id in r <==> id in ids && keep(m[id])
    ensures Distinct(ids) ==> Distinct(r)
    decreases |ids|
  {
    if |ids| == 0 then []
    else
      var rest := SelectIds(ids[1..], m, keep);
      assert forall id :: id in ids <==> id == ids[0] || id in ids[1..];
      if keep(m[ids[0]]) then
        assert Distinct(ids) ==> ids[0] !in ids[1..];
        [ids[0]] + rest
      else rest
  }

  /** A list that names each key once has as many entries as the set of keys it names. */
  lemma {:induction false} DistinctKeysCount<V>(entries: seq<(Id, V)>)
    requires forall i, j :: 0 <= i < j < |entries| ==> entries[i].0 != entries[j].0
    ensures |set k | 0 <= k < |entries| :: entries[k].0| == |entries|
  {
    if |entries| > 0 {
      var last := |entries| - 1;
      var init := entries[..last];
      DistinctKeysCount(init);
      var all := set k | 0 <= k < |entries| :: entries[k].0;
      var before := set k | 0 <= k < |init| :: init[k].0;
      assert all == before + {entries[last].0};
      assert entries[last].0 !in before;
    }
  }

  /** The filter that keeps every record. */
  function Everything<V>(): V -> bool {
    (v: V) => true
  }

  /** The identifiers of the documents that satisfy `keep`: what a count
      of matching documents counts. */
  function MatchingIds<V>(m: map<Id, V>, keep: V -> bool): set<Id> {
    set id | id in m && keep(m[id])
  }

  /** The number of listed documents is the number of matching documents. */
  lemma ListingSize<V>(entries: seq<(Id, V)>, m: map<Id, V>, keep: V -> bool)
    requires ListsExactly(entries, m, keep)
    ensures |entries| == |MatchingIds(m, keep)|
  {
    DistinctKeysCount(entries);
    var named := set k | 0 <= k < |entries| :: entries[k].0;
    var matching := MatchingIds(m, keep);
    assert named == matching by {
      forall id | id in matching ensures id in named {
        var k :| 0 <= k < |entries| && entries[k].0 == id;
      }
    }
  }

  /** A value occurs at most once in a sequence without repetitions. */
  lemma {:induction false} DistinctCountsOnce<T>(s: seq<T>)
    requires Distinct(s)
    ensures forall x :: multiset(s)[x] <= 1
  {
    if |s| > 0 {
      var rest := s[1..];
      assert Distinct(rest) by {
        forall i, j | 0 <= i < j < |rest| ensures rest[i] != rest[j] {
          assert rest[i] == s[i + 1] && rest[j] == s[j + 1];
        }
      }
      DistinctCountsOnce(rest);
      assert s == [s[0]] + rest;
      assert s[0] !in rest by {
        forall j | 0 <= j < |rest| ensures rest[j] != s[0] {
          assert rest[j] == s[j + 1];
        }
      }
    }
  }

  /** Two equal entries at different places of `s` count twice. */
  lemma RepeatCountsTwice<T>(s: seq<T>, i: nat, j: nat)
    requires i < j < |s| && s[i] == s[j]
    ensures multiset(s)[s[i]] >= 2
  {
    assert s == s[..j] + s[j..];
    assert s[i] in s[..j];
    assert s[j] in s[j..];
    assert multiset(s) == multiset(s[..j]) + multiset(s[j..]);
  }

  /** Reordering an exact listing leaves an exact listing. */
  lemma ListsExactlyPermutation<V>(a: seq<(Id, V)>, b: seq<(Id, V)>, m: map<Id, V>, keep: V -> bool)
    requires ListsExactly(a, m, keep)
    requires multiset(a) == multiset(b)
    ensures ListsExactly(b, m, keep)
  {
    forall k | 0 <= k < |b| ensures b[k].0 in m && m[b[k].0] == b[k].1 && keep(b[k].1) {
      assert b[k] in multiset(a);
      var i :| 0 <= i < |a| && a[i] == b[k];
    }
    forall id | id in m && keep(m[id]) ensures exists k :: 0 <= k < |b| && b[k].0 == id {
      var i :| 0 <= i < |a| && a[i].0 == id;
      assert a[i] in multiset(b);
      var k :| 0 <= k < |b| && b[k] == a[i];
    }
    assert Distinct(a) by {
      forall i, j | 0 <= i < j < |a| ensures a[i] != a[j] {
        assert a[i].0 != a[j].0;
      }
    }
    DistinctCountsOnce(a);
    forall i, j | 0 <= i < j < |b| ensures b[i].0 != b[j].0 {
      if b[i].0 == b[j].0 {
        assert b[i] == b[j];
        RepeatCountsTwice(b, i, j);
        assert false;
      }
    }
  }
}

=== FILE: passwords.dfy ===
/** Password storage shared by the three account collections.

    The adaptive hash and its comparison are not modelled; a `Hasher` stands
    for them. `Sound` states what the rest of the model may assume of it.
 */
module Passwords {
  import opened Results

  /** The cost factor every hash is computed with. */
  const SaltRounds: nat := 10

  /** Length of every hash the algorithm produces. */
  const HashLength: nat := 60

  /** `hash(rounds, plaintext)` yields None when hashing fails;
      `compare(candidate, stored)` answers whether the candidate matches. */
  datatype Hasher = Hasher(hash: (nat, string) -> Option<string>, compare: (string, string) -> bool)

  /** A hash at the fixed cost factor has the fixed length, and exactly the
      plaintext it was made from compares equal to it. */
  ghost predicate Sound(h: Hasher) {
    forall p :: h.hash(SaltRounds, p).Some? ==>
      && |h.hash(SaltRounds, p).value| == HashLength
      && (forall c :: h.compare(c, h.hash(SaltRounds, p).value) <==> c == p)
  }

  function HashPassword(h: Hasher, plaintext: string): Option<string> {
    h.hash(SaltRounds, plaintext)
  }

  /** The document method `comparePassword`: the candidate against the stored value. */
  function ComparePassword(h: Hasher, candidate: string, stored: string): bool {
    h.compare(candidate, stored)
  }

  /** The hook every account collection runs before a save: the password is
      replaced by its hash only when it was changed, and a hashing failure
      aborts the save. The result is the value the save writes. */
  function PreSave(h: Hasher, password: string, modified: bool): (r: Result<string>)
    ensures !modified ==> r == Ok(password)
    ensures modified ==> (r.Ok? <==> HashPassword(h, password).Some?)
    ensures Sound(h) && modified && r.Ok? ==>
      && |r.value| == HashLength
      && ComparePassword(h, password, r.value)
      && (forall c :: ComparePassword(h, c, r.value) ==> c == password)
  {
    if !modified then Ok(password)
    else match HashPassword(h, password)
      case None => Err(Fail("Password hashing failed"))
      case Some(hashed) => Ok(hashed)
  }

  /** `n` saves in a row that leave the password untouched, starting from
      the stored value `v`; a failing save ends the run. */
  function PlainSaves(h: Hasher, v: string, n: nat): Result<string> {
    if n == 0 then Ok(v)
    else match PlainSaves(h, v, n - 1)
      case Err(e) => Err(e)
      case Ok(w) => PreSave(h, w, false)
  }

  /** Saving again without touching the password writes the same value, so
      after any save, however many plain saves follow, the stored value
      stays what that save wrote. */
  lemma {:induction false} ResaveIsIdempotent(h: Hasher, password: string, modified: bool, n: nat)
    requires PreSave(h, password, modified).Ok?
    ensures PlainSaves(h, PreSave(h, password, modified).value, n) == PreSave(h, password, modified)
  {
    if n > 0 {
      ResaveIsIdempotent(h, password, modified, n - 1);
    }
  }
}

=== FILE: purchase_controller.dfy ===
/** The purchase request handlers: the customer-only gate in front of
    `createPurchase`, and the mapping of service outcomes to responses.
 */
module PurchaseController {
  import opened Results
  import opened Domain
  import opened StoredSchemas
  import opened RequestSchemas
  import PurchaseService

  /** An HTTP answer: status, message, and either data or an error text. */
  datatype Response<+T> = Response(status: int, message: string, data: Option<T>, error: Option<string>)

  /** The store after a request and the answer sent. */
  datatype Handled<+T> = Handled(store: Store, response: Response<T>)

  const OnlyCustomers: string := "Only customers can make purchases"

  /** `createPurchase`. The buyer is the authenticated identity; the body
      supplies only the car, the price and the payment method. */
  function CreatePurchase(s: Store, env: Env, id: Id, user: Option<Claims>, b: PurchaseBody, now: int)
    : (st: Handled<Purchase>)
    ensures user.None? || user.value.role != CUSTOMER ==>
      st == Handled(s, Response(403, OnlyCustomers, None, None))
    ensures user.Some? && user.value.role == CUSTOMER ==>
      var svc := PurchaseService.CreatePurchase(s, env, id, b.carId, user.value.id, b.purchasePrice, b.paymentMethod, now);
      && st.store == svc.store
      && (svc.result.Ok? ==> st.response == Response(201, "Purchase completed successfully", Some(svc.result.value), None))
      && (svc.result.Err? && svc.result.error.Code() == DuplicateKeyCode ==>
            st.response == Response(400, "Car has already been purchased", None, None))
      && (svc.result.Err? && svc.result.error.Code() != DuplicateKeyCode ==>
            st.response == Response(400, "Failed to create purchase", None, Some(svc.result.error.Message())))
    ensures st.response.status == 201 <==> st.response.data.Some?
    ensures st.response.data.Some? ==> st.response.data.value.customerId == user.value.id
    ensures Consistent(s, env) ==> Consistent(st.store, env)
  {
    if user.None? || user.value.role != CUSTOMER then Handled(s, Response(403, OnlyCustomers, None, None))
    else
      var svc := PurchaseService.CreatePurchase(s, env, id, b.carId, user.value.id, b.purchasePrice, b.paymentMethod, now);
      var answer := match svc.result
        case Ok(p) => Response(201, "Purchase completed successfully", Some(p), None)
        case Err(e) =>
          if e.Code() == DuplicateKeyCode then Response(400, "Car has already been purchased", None, None)
          else Response(400, "Failed to create purchase", None, Some(e.Message()));
      Handled(svc.store, answer)
  }

  /** Managers and administrators are turned away before the service runs,
      whatever the body, and the store is untouched. */
  lemma StaffCannotBuy(s: Store, env: Env, id: Id, u: Claims, b: PurchaseBody, now: int)
    requires u.role == MANAGER || u.role == ADMIN
    ensures CreatePurchase(s, env, id, Some(u), b, now) == Handled(s, Response(403, OnlyCustomers, None, None))
  {
  }

  /** A car that was already bought is reported with the service's own
      message, not the duplicate-key answer, while a clash on the new
      purchase's identifier is reported as "Car has already been purchased"
      although the car is still for sale. */
  lemma AlreadyPurchasedMessages(s: Store, env: Env, id: Id, u: Claims, b: PurchaseBody, now: int)
    requires u.role == CUSTOMER
    requires b.carId.Some? && b.carId.value in s.cars
    ensures s.cars[b.carId.value].status == SOLD ==>
      CreatePurchase(s, env, id, Some(u), b, now) ==
        Handled(s, Response(400, "Failed to create purchase", None, Some("Car is not available for purchase")))
    ensures (&& s.cars[b.carId.value].status == AVAILABLE && b.purchasePrice == Some(s.cars[b.carId.value].price)
             && b.paymentMethod.Some? && id in s.purchases
             && ValidPurchase(Purchase(b.carId.value, u.id, now, s.cars[b.carId.value].price, b.paymentMethod.value, now, now), env))
      ==>
      && CreatePurchase(s, env, id, Some(u), b, now) == Handled(s, Response(400, "Car has already been purchased", None, None))
      && s.cars[b.carId.value].status == AVAILABLE
  {
  }

  /** Whatever the body says, the recorded buyer is the caller. */
  lemma BuyerIsCaller(s: Store, env: Env, id: Id, u: Claims, b: PurchaseBody, now: int)
    requires u.role == CUSTOMER
    requires CreatePurchase(s, env, id, Some(u), b, now).response.status == 201
    ensures var p := CreatePurchase(s, env, id, Some(u), b, now).response.data.value;
      && p.customerId == u.id
      && p.carId == b.carId.value
      && b.carId.value in s.cars && p.purchasePrice == s.cars[b.carId.value].price
      && CreatePurchase(s, env, id, Some(u), b, now).store.cars[p.carId].status == SOLD
  {
  }

  /** `getPurchaseById`: any failure becomes a 404. */
  function GetPurchaseById(s: Store, id: Id): (r: Response<Purchase>)
    ensures r.status == 200 <==> id in s.purchases
    ensures r.status == 200 ==> r.data == Some(s.purchases[id])
    ensures r.status != 200 ==> r == Response(404, "Failed to retrieve purchase", None, Some("Purchase not found"))
  {
    match PurchaseService.GetPurchaseById(s, id)
    case Ok(p) => Response(200, "Purchase retrieved successfully", Some(p), None)
    case Err(e) => Response(404, "Failed to retrieve purchase", None, Some(e.Message()))
  }
}

=== FILE: purchase_service.dfy ===
/** The purchase service: buying an available car at its listed price,
    which records the purchase and then marks the car sold, and the
    purchase lookups and listings.
 */
module PurchaseService {
  import opened Results
  import opened Domain
  import opened Sorting
  import opened Listing
  import opened StoredSchemas
  import opened RequestSchemas
  import CarService

  /** `createPurchase`. The purchase is written first and the car second:
      when saving the car fails, the purchase stays recorded and the call
      still fails. The body fields are the raw ones, so each may be absent. */
  function CreatePurchase(s: Store, env: Env, id: Id, carId: Option<Id>, customerId: Id,
                          purchasePrice: Option<int>, paymentMethod: Option<string>, now: int): (st: Step<Purchase>)
    ensures carId.None? || carId.value !in s.cars ==> st == Step(s, Err(Fail("Car not found")))
    ensures carId.Some? && carId.value in s.cars && s.cars[carId.value].status != AVAILABLE ==>
      st == Step(s, Err(Fail("Car is not available for purchase")))
    ensures (&& carId.Some? && carId.value in s.cars && s.cars[carId.value].status == AVAILABLE
             && purchasePrice != Some(s.cars[carId.value].price))
      ==> st == Step(s, Err(Fail("Purchase price does not match car price")))
    ensures st.result.Ok? ==>
      && carId.Some? && carId.value in s.cars && s.cars[carId.value].status == AVAILABLE
      && paymentMethod.Some?
      && st.result.value == Purchase(carId.value, customerId, now, s.cars[carId.value].price, paymentMethod.value, now, now)
      && ValidPurchase(st.result.value, env)
      && id !in s.purchases
      && st.store == s.(purchases := s.purchases[id := st.result.value],
                        cars := s.cars[carId.value := s.cars[carId.value].(status := SOLD, updatedAt := now)])
    ensures st.result.Err? && st.store != s ==>
      && carId.Some? && carId.value in s.cars && paymentMethod.Some? && id !in s.purchases
      && st.store == s.(purchases := s.purchases[id := Purchase(carId.value, customerId, now, s.cars[carId.value].price,
                                                                 paymentMethod.value, now, now)])
    ensures Consistent(s, env) && st.result.Err? ==> st.store == s
    ensures Consistent(s, env) ==> Consistent(st.store, env)
    ensures Consistent(s, env) ==> (st.result.Ok? <==>
      && carId.Some? && carId.value in s.cars && s.cars[carId.value].status == AVAILABLE
      && purchasePrice == Some(s.cars[carId.value].price) && paymentMethod.Some?
      && ValidPurchase(Purchase(carId.value, customerId, now, s.cars[carId.value].price, paymentMethod.value, now, now), env)
      && id !in s.purchases)
  {
    if carId.None? || carId.value !in s.cars then Step(s, Err(Fail("Car not found")))
    else
      var car := s.cars[carId.value];
      if car.status != AVAILABLE then Step(s, Err(Fail("Car is not available for purchase")))
      else if purchasePrice != Some(car.price) then Step(s, Err(Fail("Purchase price does not match car price")))
      else if paymentMethod.None? then Step(s, Err(Invalid("Purchase")))
      else
        var p := Purchase(carId.value, customerId, now, car.price, paymentMethod.value, now, now);
        match InsertPurchase(s, env, id, p)
        case Err(e) => Step(s, Err(e))
        case Ok(s1) =>
          match ReplaceCar(s1, env, carId.value, car.(status := SOLD, updatedAt := now))
          case Err(e) => Step(s1, Err(e))
          case Ok(s2) => Step(s2, Ok(p))
  }

  /** Every purchase that names a car still in the catalogue finds it sold. */
  ghost predicate Settled(s: Store) {
    forall pid :: pid in s.purchases && s.purchases[pid].carId in s.cars ==> s.cars[s.purchases[pid].carId].status == SOLD
  }

  /** No two purchases name the same car. */
  ghost predicate OnePurchasePerCar(s: Store) {
    forall p1, p2 :: p1 in s.purchases && p2 in s.purchases && s.purchases[p1].carId == s.purchases[p2].carId ==> p1 == p2
  }

  /** Recording a sale of an available car and marking it sold keeps every
      purchased car sold; no earlier purchase named that car. */
  lemma SaleKeepsSettled(s: Store, id: Id, p: Purchase, now: int)
    requires Settled(s) && p.carId in s.cars && s.cars[p.carId].status == AVAILABLE
    ensures forall pid :: pid in s.purchases ==> s.purchases[pid].carId != p.carId
    ensures var s1 := s.(purchases := s.purchases[id := p],
                         cars := s.cars[p.carId := s.cars[p.carId].(status := SOLD, updatedAt := now)]);
      && Settled(s1)
      && (OnePurchasePerCar(s) && id !in s.purchases ==> OnePurchasePerCar(s1))
  {
    var c := p.carId;
    forall pid | pid in s.purchases ensures s.purchases[pid].carId != c { }
    var s1 := s.(purchases := s.purchases[id := p], cars := s.cars[c := s.cars[c].(status := SOLD, updatedAt := now)]);
    forall pid | pid in s1.purchases && s1.purchases[pid].carId in s1.cars
      ensures s1.cars[s1.purchases[pid].carId].status == SOLD
    {
      if pid != id && s1.purchases[pid].carId != c {
        assert s1.purchases[pid] == s.purchases[pid];
      }
    }
    if OnePurchasePerCar(s) && id !in s.purchases {
      forall p1, p2 | p1 in s1.purchases && p2 in s1.purchases && s1.purchases[p1].carId == s1.purchases[p2].carId
        ensures p1 == p2
      {
        if p1 != id && p2 != id {
          assert s1.purchases[p1] == s.purchases[p1] && s1.purchases[p2] == s.purchases[p2];
        }
      }
    }
  }

  /** Buying keeps every purchased car sold, and never records a second
      purchase for a car that is still in the catalogue. */
  lemma CreatePurchaseKeepsSettled(s: Store, env: Env, id: Id, carId: Option<Id>, customerId: Id,
                                   purchasePrice: Option<int>, paymentMethod: Option<string>, now: int)
    requires Consistent(s, env) && Settled(s)
    ensures var st := CreatePurchase(s, env, id, carId, customerId, purchasePrice, paymentMethod, now);
      Settled(st.store)
    ensures var st := CreatePurchase(s, env, id, carId, customerId, purchasePrice, paymentMethod, now);
      st.result.Ok? ==> forall pid :: pid in s.purchases ==> s.purchases[pid].carId != carId.value
    ensures var st := CreatePurchase(s, env, id, carId, customerId, purchasePrice, paymentMethod, now);
      OnePurchasePerCar(s) ==> OnePurchasePerCar(st.store)
  {
    var st := CreatePurchase(s, env, id, carId, customerId, purchasePrice, paymentMethod, now);
    if st.result.Ok? {
      SaleKeepsSettled(s, id, st.result.value, now);
    }
  }

  /** Once bought, a car cannot be bought again, whoever tries and whatever
      they offer: the second attempt fails on availability and changes nothing. */
  lemma SecondPurchaseFails(s: Store, env: Env, id1: Id, id2: Id, carId: Id, buyer1: Id, buyer2: Id,
                            price1: Option<int>, price2: Option<int>, method1: Option<string>, method2: Option<string>,
                            now1: int, now2: int)
    requires CreatePurchase(s, env, id1, Some(carId), buyer1, price1, method1, now1).result.Ok?
    ensures var s1 := CreatePurchase(s, env, id1, Some(carId), buyer1, price1, method1, now1).store;
      CreatePurchase(s1, env, id2, Some(carId), buyer2, price2, method2, now2)
        == Step(s1, Err(Fail("Car is not available for purchase")))
  {
  }

  /** A car update that sets nothing but the status AVAILABLE. */
  function Reopen(): CarBody {
    EmptyCarBody.(status := Some(StatusValue(AVAILABLE)))
  }

  /** Setting the status AVAILABLE on a stored car of a consistent store
      succeeds and changes nothing else but the update time. */
  lemma ReopenPutsBackOnSale(s: Store, env: Env, carId: Id, now: int)
    requires Consistent(s, env) && carId in s.cars
    ensures var up := CarService.UpdateCar(s, env, carId, Reopen(), now);
      && up.result.Ok?
      && up.store == s.(cars := s.cars[carId := s.cars[carId].(status := AVAILABLE, updatedAt := now)])
  {
    var c := s.cars[carId];
    assert CarService.ApplyPatch(c, Reopen(), now) == c.(status := AVAILABLE, updatedAt := now);
    assert !VinHeldByOther(s.cars, c.vin, carId);
  }

  /** The catalogue update accepts a status, so a sold car can be put back on
      sale and bought a second time: purchases alone do not make a sale final. */
  lemma StatusResetAllowsResale(s: Store, env: Env, id1: Id, id2: Id, carId: Id, buyer: Id,
                                payment: string, now1: int, now2: int, now3: int)
    requires Consistent(s, env) && id1 != id2 && id2 !in s.purchases && carId in s.cars
    requires CreatePurchase(s, env, id1, Some(carId), buyer, Some(s.cars[carId].price), Some(payment), now1).result.Ok?
    ensures var s1 := CreatePurchase(s, env, id1, Some(carId), buyer, Some(s.cars[carId].price), Some(payment), now1).store;
      (var s2 := CarService.UpdateCar(s1, env, carId, Reopen(), now2).store;
       && CarService.UpdateCar(s1, env, carId, Reopen(), now2).result.Ok?
       && CreatePurchase(s2, env, id2, Some(carId), buyer, Some(s.cars[carId].price), Some(payment), now3).result.Ok?
       && !OnePurchasePerCar(CreatePurchase(s2, env, id2, Some(carId), buyer, Some(s.cars[carId].price), Some(payment), now3).store))
  {
    var price := s.cars[carId].price;
    var s1 := CreatePurchase(s, env, id1, Some(carId), buyer, Some(price), Some(payment), now1).store;
    assert Consistent(s1, env);
    assert ValidPurchase(Purchase(carId, buyer, now1, price, payment, now1, now1), env);
    assert s1.cars[carId].price == price && s1.purchases[id1].carId == carId && id2 !in s1.purchases;
    ReopenPutsBackOnSale(s1, env, carId, now2);
    var s2 := CarService.UpdateCar(s1, env, carId, Reopen(), now2).store;
    assert Consistent(s2, env);
    assert s2.cars[carId].status == AVAILABLE && s2.cars[carId].price == price && s2.purchases == s1.purchases;
    assert ValidPurchase(Purchase(carId, buyer, now3, price, payment, now3, now3), env);
    var s3 := CreatePurchase(s2, env, id2, Some(carId), buyer, Some(price), Some(payment), now3).store;
    assert s3.purchases[id1].carId == s3.purchases[id2].carId;
  }

  // ---- lookups and listings -------------------------------------------------

  /** `getPurchaseById`; the referenced car and customer are not joined in. */
  function GetPurchaseById(s: Store, id: Id): (r: Result<Purchase>)
    ensures r.Ok? <==> id in s.purchases
    ensures r.Ok? ==> r.value == s.purchases[id]
    ensures r.Err? ==> r.error == Fail("Purchase not found")
  {
    if id in s.purchases then Ok(s.purchases[id]) else Err(Fail("Purchase not found"))
  }

  /** Newest purchase first. */
  function ByDateDescending(): ((Id, Purchase), (Id, Purchase)) -> bool {
    (a: (Id, Purchase), b: (Id, Purchase)) => a.1.purchaseDate >= b.1.purchaseDate
  }

  function OfCustomer(customerId: Id): Purchase -> bool {
    (p: Purchase) => p.customerId == customerId
  }

  /** `getCustomerPurchases`: the customer's purchases, each once, newest first. */
  method GetCustomerPurchases(s: Store, customerId: Id) returns (all: seq<(Id, Purchase)>)
    ensures ListsExactly(all, s.purchases, OfCustomer(customerId))
    ensures forall k :: 0 <= k < |all| ==> all[k].1.customerId == customerId
    ensures SortedBy(all, ByDateDescending())
  {
    var found := Find(s.purchases, OfCustomer(customerId));
    all := SortBy(found, ByDateDescending());
    ListsExactlyPermutation(found, all, s.purchases, OfCustomer(customerId));
  }

  /** `getAllPurchases`: every purchase once, newest first. */
  method GetAllPurchases(s: Store) returns (all: seq<(Id, Purchase)>)
    ensures ListsExactly(all, s.purchases, Everything())
    ensures |all| == |s.purchases|
    ensures SortedBy(all, ByDateDescending())
  {
    var found := Find(s.purchases, Everything());
    all := SortBy(found, ByDateDescending());
    ListsExactlyPermutation(found, all, s.purchases, Everything());
    ListingSize(all, s.purchases, Everything());
    assert MatchingIds(s.purchases, Everything()) == s.purchases.Keys;
  }
}

=== FILE: request_schemas.dfy ===
/** The request-body schemas: registration, login and password change;
    create and update bodies for cars, categories and purchases; and the
    query-parameter schemas.

    A body field that may be left out is an `Option`. An update schema is
    built from the create schema's field rules with every field made
    optional, and that construction is mirrored here: each body type has one
    "every supplied field passes its rule" predicate, and the create schema
    adds only "the required fields are supplied".

    The services receive the body as the client sent it, not the schema's
    parsed output, so a key the request schema does not list still reaches
    the stored schema when that schema has a path for it. Each body type
    therefore also carries the stored paths a client can set that way; the
    request schemas place no rule on them.
 */
module RequestSchemas {
  import opened Results
  import opened Text
  import opened Domain
  import opened FieldRules

  /** One complaint of the validator: the offending path and its message. */
  datatype Issue = Issue(path: string, message: string)

  // ---- accounts ---------------------------------------------------------

  datatype CustomerRegisterBody = CustomerRegisterBody(
    firstName: string,
    lastName: string,
    email: string,
    password: string,
    phone: string,
    address: Address,
    dateOfBirth: Option<CalendarDate>,  // None: the text is not a date
    licenseNumber: string,
    lastLogin: Option<int>)             // a stored path outside the request schema

  /** The age rule: the difference of calendar years is at least 18. */
  predicate OldEnough(dateOfBirth: Option<CalendarDate>, currentYear: int) {
    dateOfBirth.Some? && currentYear - dateOfBirth.value.year >= 18
  }

  predicate CustomerRegisterAccepts(fmt: Formats, b: CustomerRegisterBody, currentYear: int) {
    && UserFieldsAccepted(fmt, b.firstName, b.lastName, b.email, b.password, b.phone)
    && AddressAccepted(b.address)
    && OldEnough(b.dateOfBirth, currentYear)
    && |b.licenseNumber| >= 1
  }

  /** Month and day of birth never matter: the verdict depends on the birth
      year alone, so someone born late in a year passes on the first day of
      the year they turn 18. */
  lemma AgeCountsYearsOnly(year: int, m1: int, d1: int, m2: int, d2: int, currentYear: int)
    ensures OldEnough(Some(CalendarDate(year, m1, d1)), currentYear)
        <==> OldEnough(Some(CalendarDate(year, m2, d2)), currentYear)
    ensures OldEnough(Some(CalendarDate(year, m1, d1)), currentYear) <==> year <= currentYear - 18
    ensures !OldEnough(None, currentYear)
  {
  }

  datatype ManagerRegisterBody = ManagerRegisterBody(
    firstName: string,
    lastName: string,
    email: string,
    password: string,
    phone: string,
    role: Role,
    isActive: Option<bool>,             // stored paths outside the request schema
    lastLogin: Option<int>)

  predicate ManagerRegisterAccepts(fmt: Formats, b: ManagerRegisterBody) {
    UserFieldsAccepted(fmt, b.firstName, b.lastName, b.email, b.password, b.phone) && b.role == MANAGER
  }

  /** A manager body naming any role but MANAGER is refused. */
  lemma ManagerBodyNamesManager(fmt: Formats, b: ManagerRegisterBody)
    ensures ManagerRegisterAccepts(fmt, b) ==> b.role == MANAGER
    ensures ManagerRegisterAccepts(fmt, b) ==> PasswordComplex(b.password) && (|b.phone| == 11 || |b.phone| == 14)
  {
    if ManagerRegisterAccepts(fmt, b) {
      PasswordAcceptedIff(b.password);
      PhoneLengths(b.phone);
    }
  }

  datatype LoginBody = LoginBody(email: string, password: string)

  predicate LoginAccepts(fmt: Formats, b: LoginBody) {
    EmailAccepted(fmt, b.email) && |b.password| >= 1
  }

  /** Login checks only that a password is given: a one-letter password that
      registration would refuse passes. */
  lemma LoginIgnoresComplexity(fmt: Formats, email: string)
    requires EmailAccepted(fmt, email)
    ensures LoginAccepts(fmt, LoginBody(email, "x"))
    ensures !PasswordAccepted("x")
    ensures !LoginAccepts(fmt, LoginBody(email, ""))
  {
  }

  datatype ChangePasswordBody = ChangePasswordBody(currentPassword: string, newPassword: string, confirmPassword: string)

  /** Every complaint the change-password schema raises, in order: the three
      field rules, then the confirmation check, reported on `confirmPassword`. */
  function ChangePasswordIssues(b: ChangePasswordBody): (issues: seq<Issue>)
    ensures b.newPassword != b.confirmPassword ==> Issue("confirmPassword", "Passwords do not match") in issues
    ensures |issues| == 0 <==>
      |b.currentPassword| >= 1 && PasswordComplex(b.newPassword) && b.confirmPassword == b.newPassword
  {
    PasswordAcceptedIff(b.newPassword);
    var current := if |b.currentPassword| >= 1 then [] else [Issue("currentPassword", "Current password is required")];
    var short := if |b.newPassword| >= 8 then [] else [Issue("newPassword", "Password must be at least 8 characters long")];
    var pattern := if PasswordPattern(b.newPassword) then [] else [Issue("newPassword", PasswordPatternMessage)];
    var confirm := if |b.confirmPassword| >= 1 then [] else [Issue("confirmPassword", "Confirm password is required")];
    var mismatch := if b.newPassword == b.confirmPassword then [] else [Issue("confirmPassword", "Passwords do not match")];
    current + short + pattern + confirm + mismatch
  }

  const PasswordPatternMessage: string :=
    "Password must contain at least one uppercase letter, one lowercase letter, one number, and one special character"

  // ---- cars ---------------------------------------------------------------

  /** A status field: a member of the enumeration or some other text. */
  datatype StatusInput = StatusValue(status: CarStatus) | UnknownStatus(raw: string)

  datatype CarBody = CarBody(
    make: Option<string>,
    modelName: Option<string>,
    year: Option<int>,
    price: Option<int>,
    mileage: Option<int>,
    color: Option<string>,
    category: Option<string>,
    status: Option<StatusInput>,
    features: Option<seq<string>>,
    images: Option<seq<string>>,
    vin: Option<string>,
    addedBy: Option<AddedBy>)           // a stored path outside the request schema

  const EmptyCarBody: CarBody := CarBody(None, None, None, None, None, None, None, None, None, None, None, None)

  /** Every supplied field passes the base car rule for it. */
  predicate CarFieldsPass(fmt: Formats, b: CarBody, schemaYear: int) {
    && (b.make.Some? ==> MakeAccepted(b.make.value))
    && (b.modelName.Some? ==> ModelNameAccepted(b.modelName.value))
    && (b.year.Some? ==> YearAccepted(b.year.value, schemaYear))
    && (b.price.Some? ==> PriceAccepted(b.price.value))
    && (b.mileage.Some? ==> MileageAccepted(b.mileage.value))
    && (b.color.Some? ==> ColorAccepted(b.color.value))
    && (b.category.Some? ==> fmt.isObjectId(b.category.value))
    && (b.status.Some? ==> b.status.value.StatusValue?)
    && (b.images.Some? ==> ImagesAccepted(fmt, b.images.value))
    && (b.vin.Some? ==> VinLengthAccepted(b.vin.value))
  }

  /** Every base field but `features` and `images` is supplied. */
  predicate CarRequiredPresent(b: CarBody) {
    && b.make.Some? && b.modelName.Some? && b.year.Some? && b.price.Some? && b.mileage.Some?
    && b.color.Some? && b.category.Some? && b.status.Some? && b.vin.Some?
  }

  predicate CreateCarAccepts(fmt: Formats, b: CarBody, schemaYear: int) {
    CarRequiredPresent(b) && CarFieldsPass(fmt, b, schemaYear)
  }

  predicate UpdateCarAccepts(fmt: Formats, b: CarBody, schemaYear: int) {
    CarFieldsPass(fmt, b, schemaYear)
  }

  /** The supplied fields of `patch` laid over `base`. */
  function OverlayCar(base: CarBody, patch: CarBody): CarBody {
    CarBody(
      if patch.make.Some? then patch.make else base.make,
      if patch.modelName.Some? then patch.modelName else base.modelName,
      if patch.year.Some? then patch.year else base.year,
      if patch.price.Some? then patch.price else base.price,
      if patch.mileage.Some? then patch.mileage else base.mileage,
      if patch.color.Some? then patch.color else base.color,
      if patch.category.Some? then patch.category else base.category,
      if patch.status.Some? then patch.status else base.status,
      if patch.features.Some? then patch.features else base.features,
      if patch.images.Some? then patch.images else base.images,
      if patch.vin.Some? then patch.vin else base.vin,
      if patch.addedBy.Some? then patch.addedBy else base.addedBy)
  }

  /** The update schema is the create schema with every field optional: a
      patch passes it exactly when laying it over any acceptable create body
      gives an acceptable create body. In particular every create body and
      the empty body pass it. */
  lemma UpdateCarIsOptionalCreate(fmt: Formats, base: CarBody, patch: CarBody, schemaYear: int)
    requires CreateCarAccepts(fmt, base, schemaYear)
    ensures UpdateCarAccepts(fmt, patch, schemaYear) <==> CreateCarAccepts(fmt, OverlayCar(base, patch), schemaYear)
    ensures UpdateCarAccepts(fmt, base, schemaYear)
    ensures UpdateCarAccepts(fmt, EmptyCarBody, schemaYear)
  {
    var o := OverlayCar(base, patch);
    assert CarRequiredPresent(o);
    if UpdateCarAccepts(fmt, patch, schemaYear) {
      assert CarFieldsPass(fmt, o, schemaYear);
    }
    if CreateCarAccepts(fmt, o, schemaYear) {
      assert CarFieldsPass(fmt, patch, schemaYear);
    }
  }

  // ---- categories ---------------------------------------------------------

  datatype CategoryBody = CategoryBody(name: Option<string>, description: Option<string>)

  predicate CategoryFieldsPass(b: CategoryBody) {
    && (b.name.Some? ==> CategoryNameAccepted(b.name.value))
    && (b.description.Some? ==> DescriptionAccepted(b.description.value))
  }

  predicate CreateCategoryAccepts(b: CategoryBody) {
    b.name.Some? && b.description.Some? && CategoryFieldsPass(b)
  }

  predicate UpdateCategoryAccepts(b: CategoryBody) {
    CategoryFieldsPass(b)
  }

  function OverlayCategory(base: CategoryBody, patch: CategoryBody): CategoryBody {
    CategoryBody(
      if patch.name.Some? then patch.name else base.name,
      if patch.description.Some? then patch.description else base.description)
  }

  lemma UpdateCategoryIsOptionalCreate(base: CategoryBody, patch: CategoryBody)
    requires CreateCategoryAccepts(base)
    ensures UpdateCategoryAccepts(patch) <==> CreateCategoryAccepts(OverlayCategory(base, patch))
    ensures UpdateCategoryAccepts(base)
    ensures UpdateCategoryAccepts(CategoryBody(None, None))
  {
  }

  // ---- purchases ----------------------------------------------------------

  datatype PurchaseBody = PurchaseBody(carId: Option<string>, purchasePrice: Option<int>, paymentMethod: Option<string>)

  /** The base purchase rules, where the payment method is any non-empty text. */
  predicate PurchaseFieldsPass(fmt: Formats, b: PurchaseBody) {
    && (b.carId.Some? ==> fmt.isObjectId(b.carId.value))
    && (b.purchasePrice.Some? ==> PurchasePriceAccepted(b.purchasePrice.value))
    && (b.paymentMethod.Some? ==> PaymentMethodText(b.paymentMethod.value))
  }

  /** The create schema replaces the payment-method rule by enumeration membership. */
  predicate CreatePurchaseAccepts(fmt: Formats, b: PurchaseBody, methods: set<string>) {
    && b.carId.Some? && b.purchasePrice.Some? && b.paymentMethod.Some?
    && fmt.isObjectId(b.carId.value)
    && PurchasePriceAccepted(b.purchasePrice.value)
    && b.paymentMethod.value in methods
  }

  predicate UpdatePurchaseAccepts(fmt: Formats, b: PurchaseBody) {
    PurchaseFieldsPass(fmt, b)
  }

  /** Every create body passes the update schema (the enumeration's values
      are non-empty), and the update schema takes payment methods outside
      the enumeration that the create schema refuses. */
  lemma UpdatePurchaseIsLooser(fmt: Formats, b: PurchaseBody, methods: set<string>, other: string)
    requires "" !in methods
    requires other != "" && other !in methods
    ensures CreatePurchaseAccepts(fmt, b, methods) ==> UpdatePurchaseAccepts(fmt, b)
    ensures UpdatePurchaseAccepts(fmt, PurchaseBody(None, None, None))
    ensures UpdatePurchaseAccepts(fmt, b.(paymentMethod := Some(other))) <==> UpdatePurchaseAccepts(fmt, b.(paymentMethod := None))
    ensures !CreatePurchaseAccepts(fmt, b.(paymentMethod := Some(other)), methods)
  {
  }

  /** A price of 0 may be stored, but no request can ask for it. */
  lemma ZeroPriceRefused(fmt: Formats, b: PurchaseBody, methods: set<string>)
    requires b.purchasePrice == Some(0)
    ensures !CreatePurchaseAccepts(fmt, b, methods) && !UpdatePurchaseAccepts(fmt, b)
  {
  }

  // ---- query parameters ---------------------------------------------------

  /** The constrained query parameters; the other ones are free text. */
  datatype QueryParams = QueryParams(sortBy: Option<string>, sortOrder: Option<string>, page: Option<int>, limit: Option<int>)

  predicate PagingAccepted(q: QueryParams) {
    && (q.sortOrder.Some? ==> q.sortOrder.value in {"asc", "desc"})
    && (q.page.Some? ==> q.page.value > 0)
    && (q.limit.Some? ==> q.limit.value > 0)
  }

  predicate CarQueryAccepts(q: QueryParams) {
    PagingAccepted(q) && (q.sortBy.Some? ==> q.sortBy.value in {"price", "year", "mileage"})
  }

  predicate CategoryQueryAccepts(q: QueryParams) {
    PagingAccepted(q) && (q.sortBy.Some? ==> q.sortBy.value == "name")
  }

  predicate PurchaseQueryAccepts(q: QueryParams, paymentMethod: Option<string>, methods: set<string>) {
    && PagingAccepted(q)
    && (q.sortBy.Some? ==> q.sortBy.value in {"purchaseDate", "purchasePrice"})
    && (paymentMethod.Some? ==> paymentMethod.value in methods)
  }

  /** None of the query schemas admits the car listing's own default sort
      field, and all of them demand positive page and limit. */
  lemma QuerySchemasRestrictPaging(q: QueryParams, pm: Option<string>, methods: set<string>)
    ensures q.sortBy == Some("createdAt") ==>
      !CarQueryAccepts(q) && !CategoryQueryAccepts(q) && !PurchaseQueryAccepts(q, pm, methods)
    ensures (CarQueryAccepts(q) || CategoryQueryAccepts(q) || PurchaseQueryAccepts(q, pm, methods)) ==>
      (q.page.Some? ==> q.page.value >= 1) && (q.limit.Some? ==> q.limit.value >= 1)
  {
  }
}

=== FILE: results.dfy ===
/** Failure-compatible outcomes shared by every part of the model.

    A service either produces a value or throws; the thrown error is one of
    the three kinds below, which is all the request handlers distinguish.
 */
module Results {

  /** The code the document store attaches to a unique-index violation. */
  const DuplicateKeyCode: int := 11000

  datatype Option<+T> = None | Some(value: T)

  datatype Error =
    | Fail(message: string)        // an Error thrown by a service, carrying its message
    | DuplicateKey(field: string)  // a unique index rejected the write on `field` (or on `_id`)
    | Invalid(model: string)       // a document schema validator rejected the write
  {
    /** The `code` property a handler inspects. */
    function Code(): int {
      if DuplicateKey? then DuplicateKeyCode else 0
    }

    /** The `message` property a handler copies into its response. */
    function Message(): string {
      match this
      case Fail(m) => m
      case DuplicateKey(f) => "E11000 duplicate key error on " + f
      case Invalid(m) => m + " validation failed"
    }
  }

  datatype Result<+T> = Ok(value: T) | Err(error: Error) {
    predicate IsFailure() {
      Err?
    }

    function PropagateFailure<U>(): Result<U>
      requires Err?
    {
      Err(error)
    }

    function Extract(): T
      requires Ok?
    {
      value
    }
  }
}

=== FILE: sorting.dfy ===
/** Ordering and paging of query results: the `sort`, `skip` and `limit`
    stages of a store query, and the page arithmetic reported beside them.
 */
module Sorting {

  /** `le` orders every pair of values and is transitive; ties are allowed. */
  ghost predicate TotalPreorder<T(!new)>(le: (T, T) -> bool) {
    && (forall a, b :: le(a, b) || le(b, a))
    && (forall a, b, c :: le(a, b) && le(b, c) ==> le(a, c))
  }

  ghost predicate SortedBy<T>(s: seq<T>, le: (T, T) -> bool) {
    forall i, j :: 0 <= i < j < |s| ==> le(s[i], s[j])
  }

  function Insert<T(!new)>(x: T, s: seq<T>, le: (T, T) -> bool): (r: seq<T>)
    requires TotalPreorder(le) && SortedBy(s, le)
    ensures multiset(r) == multiset(s) + multiset{x}
    ensures SortedBy(r, le)
    decreases |s|
  {
    if |s| == 0 then [x]
    else if le(x, s[0]) then
      InsertFront(x, s, le);
      [x] + s
    else
      var rest := Insert(x, s[1..], le);
      assert s == [s[0]] + s[1..];
      InsertBehind(x, s, rest, le);
      [s[0]] + rest
  }

  lemma InsertFront<T(!new)>(x: T, s: seq<T>, le: (T, T) -> bool)
    requires TotalPreorder(le) && SortedBy(s, le)
    requires |s| > 0 && le(x, s[0])
    ensures SortedBy([x] + s, le)
  {
    var r := [x] + s;
    forall i, j | 0 <= i < j < |r| ensures le(r[i], r[j]) {
      if i == 0 && j > 1 {
        assert le(s[0], s[j - 1]);
      }
    }
  }

  lemma InsertBehind<T(!new)>(x: T, s: seq<T>, rest: seq<T>, le: (T, T) -> bool)
    requires TotalPreorder(le) && SortedBy(s, le) && SortedBy(rest, le)
    requires |s| > 0 && !le(x, s[0])
    requires multiset(rest) == multiset(s[1..]) + multiset{x}
    ensures SortedBy([s[0]] + rest, le)
  {
    forall j | 0 <= j < |rest| ensures le(s[0], rest[j]) {
      assert rest[j] in multiset(rest);
      if rest[j] != x {
        assert rest[j] in multiset(s[1..]);
        var k :| 0 <= k < |s[1..]| && s[1..][k] == rest[j];
        assert s[k + 1] == rest[j];
      }
    }
    var r := [s[0]] + rest;
    forall i, j | 0 <= i < j < |r| ensures le(r[i], r[j]) {
      if i > 0 {
        assert r[i] == rest[i - 1] && r[j] == rest[j - 1];
      } else {
        assert r[j] == rest[j - 1];
      }
    }
  }

  /** Insertion sort: a permutation of `s` that is ordered by `le`. */
  function SortBy<T(!new)>(s: seq<T>, le: (T, T) -> bool): (r: seq<T>)
    requires TotalPreorder(le)
    ensures multiset(r) == multiset(s)
    ensures SortedBy(r, le)
    decreases |s|
  {
    if |s| == 0 then []
    else
      assert s == [s[0]] + s[1..];
      Insert(s[0], SortBy(s[1..], le), le)
  }

  /** The `skip(skip).limit(limit)` stage; a limit of 0 means "no limit". */
  function Window<T>(s: seq<T>, skip: nat, limit: nat): (w: seq<T>)
    ensures limit > 0 ==> |w| <= limit
    ensures skip >= |s| ==> |w| == 0
    ensures skip < |s| && (limit == 0 || skip + limit >= |s|) ==> |w| == |s| - skip
    ensures skip < |s| && limit > 0 && skip + limit < |s| ==> |w| == limit
    ensures forall k :: 0 <= k < |w| ==> skip + k < |s| && w[k] == s[skip + k]
  {
    if skip >= |s| then []
    else if limit == 0 || skip + limit >= |s| then s[skip..]
    else s[skip..skip + limit]
  }

  /** `Math.ceil(total / limit)` for a positive limit. */
  function CeilDiv(total: nat, limit: nat): (pages: nat)
    requires limit > 0
    ensures pages * limit >= total
    ensures pages == 0 || (pages - 1) * limit < total
  {
    var q := (total + limit - 1) / limit;
    assert q * limit <= total + limit - 1 < (q + 1) * limit;
    q
  }

  /** The concatenation of pages 1..n of `s` with `limit` items each. */
  function FirstPages<T>(s: seq<T>, limit: nat, n: nat): seq<T>
    requires limit > 0
  {
    if n == 0 then [] else FirstPages(s, limit, n - 1) + Window(s, (n - 1) * limit, limit)
  }

  /** Page n + 1 starts where page n ends. */
  lemma NextPageStart(n: nat, limit: nat)
    requires n > 0
    ensures n * limit == (n - 1) * limit + limit
  {
  }

  function Clamp(a: nat, bound: nat): nat {
    if a <= bound then a else bound
  }

  /** The window after a prefix extends the prefix by at most `limit` items. */
  lemma WindowAfterPrefix<T>(s: seq<T>, skip: nat, limit: nat)
    requires limit > 0
    ensures s[..Clamp(skip, |s|)] + Window(s, skip, limit) == s[..Clamp(skip + limit, |s|)]
  {
    if skip < |s| {
      var end := Clamp(skip + limit, |s|);
      assert Window(s, skip, limit) == s[skip..end];
      assert s[..skip] + s[skip..end] == s[..end];
    }
  }

  lemma {:induction false} FirstPagesPrefix<T>(s: seq<T>, limit: nat, n: nat)
    requires limit > 0
    ensures FirstPages(s, limit, n) == s[..Clamp(n * limit, |s|)]
  {
    if n > 0 {
      var skip := (n - 1) * limit;
      NextPageStart(n, limit);
      FirstPagesPrefix(s, limit, n - 1);
      WindowAfterPrefix(s, skip, limit);
    }
  }

  /** Walking through pages 1..pages returns every result exactly once and in order. */
  lemma PagesCoverResults<T>(s: seq<T>, limit: nat)
    requires limit > 0
    ensures FirstPages(s, limit, CeilDiv(|s|, limit)) == s
  {
    var n := CeilDiv(|s|, limit);
    FirstPagesPrefix(s, limit, n);
  }
}

=== FILE: stored_schemas.dfy ===
/** The document schemas: what a record must satisfy to be written, how
    input strings are normalised when a record is built, the unique indexes,
    and the write operations that enforce them.

    A write first runs the schema validators (rejecting with `Invalid`),
    then the password hook where there is one, and finally meets the unique
    indexes (rejecting with `DuplicateKey`).
 */
module StoredSchemas {
  import opened Results
  import opened Text
  import opened Domain

  // ---- field rules ------------------------------------------------------

  /** One character of a VIN: A-H, J-N, P, R-Z or a digit. */
  predicate VinChar(c: char) {
    ('A' <= c <= 'H') || ('J' <= c <= 'N') || c == 'P' || ('R' <= c <= 'Z') || IsDigit(c)
  }

  predicate VinShape(v: string) {
    |v| == 17 && forall i :: 0 <= i < |v| ==> VinChar(v[i])
  }

  /** The VIN alphabet is the upper-case letters without I, O and Q, plus digits. */
  lemma VinAlphabet(v: string)
    ensures VinShape(v) <==>
      && |v| == 17
      && forall i :: 0 <= i < |v| ==>
           IsDigit(v[i]) || (IsUpper(v[i]) && v[i] != 'I' && v[i] != 'O' && v[i] != 'Q')
  {
  }

  /** `\S+@\S+\.\S+` over the whole string. */
  predicate EmailShape(e: string) {
    && NoWhitespace(e)
    && exists b, a :: 0 < b < |e| - 1 && 0 < a < b - 1 && e[a] == '@' && e[b] == '.'
  }

  /** The `trim` and `lowercase` setters of an e-mail path. */
  function NormaliseEmail(e: string): string {
    ToLower(Trim(e))
  }

  predicate AddressComplete(a: Address) {
    a.street != "" && a.city != "" && a.state != "" && a.zipCode != "" && a.country != ""
  }

  // ---- record rules -----------------------------------------------------

  predicate ValidCar(c: Car, env: Env) {
    && c.make != "" && c.modelName != "" && c.color != ""
    && 1900 <= c.year <= env.schemaYear + 1
    && c.price >= 0
    && c.mileage >= 0
    && c.category != ""
    && VinShape(c.vin)
    && StaffAdder(c.addedBy)
  }

  /** The adder paths: a user reference and a staff role. */
  predicate StaffAdder(a: AddedBy) {
    a.user != "" && (a.role == MANAGER || a.role == ADMIN)
  }

  predicate ValidCategory(c: Category) {
    c.name != "" && c.description != ""
  }

  predicate ValidPurchase(p: Purchase, env: Env) {
    && p.carId != "" && p.customerId != ""
    && p.purchasePrice >= 0
    && p.paymentMethod in env.paymentMethods
  }

  predicate ValidCustomer(c: Customer) {
    && c.firstName != "" && c.lastName != ""
    && EmailShape(c.email)
    && |c.password| >= 6
    && c.phone != ""
    && AddressComplete(c.address)
    && c.licenseNumber != ""
    && c.role.IsUserRole()
  }

  predicate ValidManager(m: Manager) {
    && m.firstName != "" && m.lastName != ""
    && EmailShape(m.email)
    && |m.password| >= 6
    && m.phone != ""
    && m.role.IsUserRole()
  }

  predicate ValidAdmin(a: Admin) {
    EmailShape(a.email) && |a.password| >= 6 && a.role.IsUserRole()
  }

  // ---- unique indexes ---------------------------------------------------

  predicate VinHeldByOther(cars: map<Id, Car>, vin: string, self: Id) {
    exists i :: i in cars && i != self && cars[i].vin == vin
  }

  predicate NameHeldByOther(categories: map<Id, Category>, name: string, self: Id) {
    exists i :: i in categories && i != self && categories[i].name == name
  }

  predicate CustomerEmailHeldByOther(customers: map<Id, Customer>, email: string, self: Id) {
    exists i :: i in customers && i != self && customers[i].email == email
  }

  predicate LicenseHeldByOther(customers: map<Id, Customer>, license: string, self: Id) {
    exists i :: i in customers && i != self && customers[i].licenseNumber == license
  }

  predicate ManagerEmailHeldByOther(managers: map<Id, Manager>, email: string, self: Id) {
    exists i :: i in managers && i != self && managers[i].email == email
  }

  predicate AdminEmailHeldByOther(admins: map<Id, Admin>, email: string, self: Id) {
    exists i :: i in admins && i != self && admins[i].email == email
  }

  ghost predicate UniqueVins(cars: map<Id, Car>) {
    forall i, j :: i in cars && j in cars && cars[i].vin == cars[j].vin ==> i == j
  }

  ghost predicate UniqueCategoryNames(categories: map<Id, Category>) {
    forall i, j :: i in categories && j in categories && categories[i].name == categories[j].name ==> i == j
  }

  ghost predicate UniqueCustomerKeys(customers: map<Id, Customer>) {
    && (forall i, j :: i in customers && j in customers && customers[i].email == customers[j].email ==> i == j)
    && (forall i, j :: i in customers && j in customers && customers[i].licenseNumber == customers[j].licenseNumber ==> i == j)
  }

  ghost predicate UniqueManagerEmails(managers: map<Id, Manager>) {
    forall i, j :: i in managers && j in managers && managers[i].email == managers[j].email ==> i == j
  }

  ghost predicate UniqueAdminEmails(admins: map<Id, Admin>) {
    forall i, j :: i in admins && j in admins && admins[i].email == admins[j].email ==> i == j
  }

  /** Writing a customer whose keys no other customer holds keeps both indexes unique. */
  lemma CustomerWriteKeepsUnique(customers: map<Id, Customer>, id: Id, c: Customer)
    requires UniqueCustomerKeys(customers)
    requires !CustomerEmailHeldByOther(customers, c.email, id) && !LicenseHeldByOther(customers, c.licenseNumber, id)
    ensures UniqueCustomerKeys(customers[id := c])
  {
    var m := customers[id := c];
    forall i, j | i in m && j in m && m[i].email == m[j].email ensures i == j {
      if i != id && j != id { assert customers[i].email == customers[j].email; }
    }
    forall i, j | i in m && j in m && m[i].licenseNumber == m[j].licenseNumber ensures i == j {
      if i != id && j != id { assert customers[i].licenseNumber == customers[j].licenseNumber; }
    }
  }

  lemma ManagerWriteKeepsUnique(managers: map<Id, Manager>, id: Id, mgr: Manager)
    requires UniqueManagerEmails(managers) && !ManagerEmailHeldByOther(managers, mgr.email, id)
    ensures UniqueManagerEmails(managers[id := mgr])
  {
    var m := managers[id := mgr];
    forall i, j | i in m && j in m && m[i].email == m[j].email ensures i == j {
      if i != id && j != id { assert managers[i].email == managers[j].email; }
    }
  }

  lemma AdminWriteKeepsUnique(admins: map<Id, Admin>, id: Id, a: Admin)
    requires UniqueAdminEmails(admins) && !AdminEmailHeldByOther(admins, a.email, id)
    ensures UniqueAdminEmails(admins[id := a])
  {
    var m := admins[id := a];
    forall i, j | i in m && j in m && m[i].email == m[j].email ensures i == j {
      if i != id && j != id { assert admins[i].email == admins[j].email; }
    }
  }

  /** Rewriting a stored customer with a valid record that keeps both of
      its unique keys keeps a consistent store consistent. */
  lemma CustomerRewriteKeepsConsistent(s: Store, env: Env, id: Id, c: Customer)
    requires id in s.customers && Consistent(s, env) && ValidCustomer(c)
    requires c.email == s.customers[id].email && c.licenseNumber == s.customers[id].licenseNumber
    ensures Consistent(s.(customers := s.customers[id := c]), env)
  {
    assert !CustomerEmailHeldByOther(s.customers, c.email, id);
    assert !LicenseHeldByOther(s.customers, c.licenseNumber, id);
    CustomerWriteKeepsUnique(s.customers, id, c);
  }

  /** The same for a manager, whose one unique key is the e-mail address. */
  lemma ManagerRewriteKeepsConsistent(s: Store, env: Env, id: Id, m: Manager)
    requires id in s.managers && Consistent(s, env) && ValidManager(m)
    requires m.email == s.managers[id].email
    ensures Consistent(s.(managers := s.managers[id := m]), env)
  {
    assert !ManagerEmailHeldByOther(s.managers, m.email, id);
    ManagerWriteKeepsUnique(s.managers, id, m);
  }

  /** The same for an administrator. */
  lemma AdminRewriteKeepsConsistent(s: Store, env: Env, id: Id, a: Admin)
    requires id in s.admins && Consistent(s, env) && ValidAdmin(a)
    requires a.email == s.admins[id].email
    ensures Consistent(s.(admins := s.admins[id := a]), env)
  {
    assert !AdminEmailHeldByOther(s.admins, a.email, id);
    AdminWriteKeepsUnique(s.admins, id, a);
  }

  /** Every stored record passes its schema and every unique index holds. */
  ghost predicate Consistent(s: Store, env: Env) {
    && (forall id :: id in s.cars ==> ValidCar(s.cars[id], env))
    && UniqueVins(s.cars)
    && (forall id :: id in s.categories ==> ValidCategory(s.categories[id]))
    && UniqueCategoryNames(s.categories)
    && (forall id :: id in s.purchases ==> ValidPurchase(s.purchases[id], env))
    && (forall id :: id in s.customers ==> ValidCustomer(s.customers[id]))
    && UniqueCustomerKeys(s.customers)
    && (forall id :: id in s.managers ==> ValidManager(s.managers[id]))
    && UniqueManagerEmails(s.managers)
    && (forall id :: id in s.admins ==> ValidAdmin(s.admins[id]))
    && UniqueAdminEmails(s.admins)
  }

  // ---- writes -----------------------------------------------------------

  /** Insert a new car document under a fresh identifier. */
  function InsertCar(s: Store, env: Env, id: Id, c: Car): (r: Result<Store>)
    ensures r.Ok? <==> ValidCar(c, env) && id !in s.cars && !VinHeldByOther(s.cars, c.vin, id)
    ensures !ValidCar(c, env) ==> r == Err(Invalid("Car"))
    ensures r.Ok? ==> r.value == s.(cars := s.cars[id := c])
    ensures r.Ok? && Consistent(s, env) ==> Consistent(r.value, env)
  {
    if !ValidCar(c, env) then Err(Invalid("Car"))
    else if id in s.cars then Err(DuplicateKey("_id"))
    else if VinHeldByOther(s.cars, c.vin, id) then Err(DuplicateKey("vin"))
    else Ok(s.(cars := s.cars[id := c]))
  }

  /** Replace a stored car by a changed copy: its validators run again and
      the VIN must stay unique. */
  function ReplaceCar(s: Store, env: Env, id: Id, c: Car): (r: Result<Store>)
    requires id in s.cars
    ensures r.Ok? <==> ValidCar(c, env) && !VinHeldByOther(s.cars, c.vin, id)
    ensures !ValidCar(c, env) ==> r == Err(Invalid("Car"))
    ensures r.Ok? ==> r.value == s.(cars := s.cars[id := c])
    ensures r.Ok? && Consistent(s, env) ==> Consistent(r.value, env)
  {
    if !ValidCar(c, env) then Err(Invalid("Car"))
    else if VinHeldByOther(s.cars, c.vin, id) then Err(DuplicateKey("vin"))
    else Ok(s.(cars := s.cars[id := c]))
  }

  function InsertCategory(s: Store, id: Id, c: Category): (r: Result<Store>)
    ensures r.Ok? <==> ValidCategory(c) && id !in s.categories && !NameHeldByOther(s.categories, c.name, id)
    ensures ValidCategory(c) && id !in s.categories && NameHeldByOther(s.categories, c.name, id) ==>
      r == Err(DuplicateKey("name"))
    ensures r.Ok? ==> r.value == s.(categories := s.categories[id := c])
    ensures r.Ok? ==> forall env :: Consistent(s, env) ==> Consistent(r.value, env)
  {
    if !ValidCategory(c) then Err(Invalid("Category"))
    else if id in s.categories then Err(DuplicateKey("_id"))
    else if NameHeldByOther(s.categories, c.name, id) then Err(DuplicateKey("name"))
    else Ok(s.(categories := s.categories[id := c]))
  }

  function ReplaceCategory(s: Store, id: Id, c: Category): (r: Result<Store>)
    requires id in s.categories
    ensures r.Ok? <==> ValidCategory(c) && !NameHeldByOther(s.categories, c.name, id)
    ensures r.Ok? ==> r.value == s.(categories := s.categories[id := c])
    ensures r.Ok? ==> forall env :: Consistent(s, env) ==> Consistent(r.value, env)
  {
    if !ValidCategory(c) then Err(Invalid("Category"))
    else if NameHeldByOther(s.categories, c.name, id) then Err(DuplicateKey("name"))
    else Ok(s.(categories := s.categories[id := c]))
  }

  /** No unique index covers `carId`: only `_id` can collide. */
  function InsertPurchase(s: Store, env: Env, id: Id, p: Purchase): (r: Result<Store>)
    ensures r.Ok? <==> ValidPurchase(p, env) && id !in s.purchases
    ensures r.Ok? ==> r.value == s.(purchases := s.purchases[id := p])
    ensures r.Ok? && Consistent(s, env) ==> Consistent(r.value, env)
  {
    if !ValidPurchase(p, env) then Err(Invalid("Purchase"))
    else if id in s.purchases then Err(DuplicateKey("_id"))
    else Ok(s.(purchases := s.purchases[id := p]))
  }

  /** Write a customer whose validators already passed and whose password
      hook already ran; `id` may be new or stored. */
  function PutCustomer(s: Store, id: Id, c: Customer): (r: Result<Store>)
    ensures r.Ok? <==>
      && !CustomerEmailHeldByOther(s.customers, c.email, id)
      && !LicenseHeldByOther(s.customers, c.licenseNumber, id)
    ensures r.Ok? ==> r.value == s.(customers := s.customers[id := c])
    ensures r.Ok? && ValidCustomer(c) ==> forall env :: Consistent(s, env) ==> Consistent(r.value, env)
  {
    if CustomerEmailHeldByOther(s.customers, c.email, id) then Err(DuplicateKey("email"))
    else if LicenseHeldByOther(s.customers, c.licenseNumber, id) then Err(DuplicateKey("licenseNumber"))
    else
      var s1 := s.(customers := s.customers[id := c]);
      assert ValidCustomer(c) ==> forall env :: Consistent(s, env) ==> Consistent(s1, env) by {
        forall env | ValidCustomer(c) && Consistent(s, env) ensures Consistent(s1, env) {
          CustomerWriteKeepsUnique(s.customers, id, c);
        }
      }
      Ok(s1)
  }

  function PutManager(s: Store, id: Id, m: Manager): (r: Result<Store>)
    ensures r.Ok? <==> !ManagerEmailHeldByOther(s.managers, m.email, id)
    ensures r.Ok? ==> r.value == s.(managers := s.managers[id := m])
    ensures r.Ok? && ValidManager(m) ==> forall env :: Consistent(s, env) ==> Consistent(r.value, env)
  {
    if ManagerEmailHeldByOther(s.managers, m.email, id) then Err(DuplicateKey("email"))
    else
      var s1 := s.(managers := s.managers[id := m]);
      assert ValidManager(m) ==> forall env :: Consistent(s, env) ==> Consistent(s1, env) by {
        forall env | ValidManager(m) && Consistent(s, env) ensures Consistent(s1, env) {
          ManagerWriteKeepsUnique(s.managers, id, m);
        }
      }
      Ok(s1)
  }

  function PutAdmin(s: Store, id: Id, a: Admin): (r: Result<Store>)
    ensures r.Ok? <==> !AdminEmailHeldByOther(s.admins, a.email, id)
    ensures r.Ok? ==> r.value == s.(admins := s.admins[id := a])
    ensures r.Ok? && ValidAdmin(a) ==> forall env :: Consistent(s, env) ==> Consistent(r.value, env)
  {
    if AdminEmailHeldByOther(s.admins, a.email, id) then Err(DuplicateKey("email"))
    else
      var s1 := s.(admins := s.admins[id := a]);
      assert ValidAdmin(a) ==> forall env :: Consistent(s, env) ==> Consistent(s1, env) by {
        forall env | ValidAdmin(a) && Consistent(s, env) ensures Consistent(s1, env) {
          AdminWriteKeepsUnique(s.admins, id, a);
        }
      }
      Ok(s1)
  }
}

=== FILE: text.dfy ===
/** Character classes and string operations the validators and the
    services rely on: the regular-expression classes `\d`, `\s`, `[a-z]`,
    `[A-Z]`, JavaScript's `trim`, `toLowerCase`, `startsWith` and `split`,
    and the binary ordering the store uses to sort strings.
    Only the ASCII part of each class is modelled.
 */
module Text {

  predicate IsWhitespace(c: char) {
    c == ' ' || c == '\t' || c == '\n' || c == '\r' || c == '\U{000B}' || c == '\U{000C}'
  }

  predicate IsUpper(c: char) { 'A' <= c <= 'Z' }

  predicate IsLower(c: char) { 'a' <= c <= 'z' }

  predicate IsDigit(c: char) { '0' <= c <= '9' }

  predicate AllDigits(s: string) {
    forall i :: 0 <= i < |s| ==> IsDigit(s[i])
  }

  predicate NoWhitespace(s: string) {
    forall i :: 0 <= i < |s| ==> !IsWhitespace(s[i])
  }

  function LowerChar(c: char): char {
    if IsUpper(c) then (c as int + 32) as char else c
  }

  /** ASCII case folding, as `toLowerCase` does on ASCII text. */
  function ToLower(s: string): (r: string)
    ensures |r| == |s|
    ensures forall i :: 0 <= i < |s| ==> r[i] == LowerChar(s[i])
  {
    seq(|s|, i requires 0 <= i < |s| => LowerChar(s[i]))
  }

  function TrimStart(s: string): (r: string)
    ensures |r| <= |s| && r == s[|s| - |r|..]
    ensures |r| == 0 || !IsWhitespace(r[0])
    decreases |s|
  {
    if |s| > 0 && IsWhitespace(s[0]) then TrimStart(s[1..]) else s
  }

  function TrimEnd(s: string): (r: string)
    ensures |r| <= |s| && r == s[..|r|]
    ensures |r| == 0 || !IsWhitespace(r[|r| - 1])
    decreases |s|
  {
    if |s| > 0 && IsWhitespace(s[|s| - 1]) then TrimEnd(s[..|s| - 1]) else s
  }

  /** `String.prototype.trim`. */
  function Trim(s: string): (r: string)
    ensures |r| <= |s|
    ensures |r| == 0 || (!IsWhitespace(r[0]) && !IsWhitespace(r[|r| - 1]))
  {
    TrimEnd(TrimStart(s))
  }

  /** Trimming twice is trimming once. */
  lemma TrimIdempotent(s: string)
    ensures Trim(Trim(s)) == Trim(s)
  {
    var r := Trim(s);
    if |r| > 0 {
      assert TrimStart(r) == r;
      assert TrimEnd(r) == r;
    }
  }

  predicate StartsWith(s: string, prefix: string) {
    |prefix| <= |s| && s[..|prefix|] == prefix
  }

  /** Substring search: how a `$regex` filter on a plain word behaves. */
  predicate Contains(s: string, part: string) {
    |part| <= |s| && exists i :: 0 <= i <= |s| - |part| && OccursAt(s, part, i)
  }

  predicate OccursAt(s: string, part: string, i: nat)
    requires i + |part| <= |s|
  {
    s[i..i + |part|] == part
  }

  /** Case-insensitive substring search (`$options: "i"`). */
  predicate ContainsIgnoringCase(s: string, part: string) {
    Contains(ToLower(s), ToLower(part))
  }

  function IndexOf(s: string, c: char): (i: nat)
    ensures i <= |s|
    ensures i < |s| ==> s[i] == c
    ensures forall k :: 0 <= k < i ==> s[k] != c
  {
    if |s| == 0 then 0 else if s[0] == c then 0 else 1 + IndexOf(s[1..], c)
  }

  /** `String.prototype.split` with a one-character separator. */
  function Split(s: string, sep: char): (parts: seq<string>)
    ensures |parts| >= 1
    ensures forall k :: 0 <= k < |parts| ==> sep !in parts[k]
    decreases |s|
  {
    var i := IndexOf(s, sep);
    if i == |s| then [s] else [s[..i]] + Split(s[i + 1..], sep)
  }

  /** `Array.prototype.join`, the inverse of `Split`. */
  function Join(parts: seq<string>, sep: char): string
    decreases |parts|
  {
    if |parts| == 0 then ""
    else if |parts| == 1 then parts[0]
    else parts[0] + [sep] + Join(parts[1..], sep)
  }

  /** Joining a non-empty tail behind one more part adds one separator. */
  lemma JoinCons(a: string, rest: seq<string>, sep: char)
    requires |rest| >= 1
    ensures Join([a] + rest, sep) == a + [sep] + Join(rest, sep)
  {
    assert ([a] + rest)[1..] == rest;
  }

  /** The first separator cuts off the first part. */
  lemma SplitAtSeparator(s: string, sep: char)
    requires IndexOf(s, sep) < |s|
    ensures Split(s, sep) == [s[..IndexOf(s, sep)]] + Split(s[IndexOf(s, sep) + 1..], sep)
  {
  }

  /** Splitting loses nothing: joining the pieces back gives the input. */
  lemma {:induction false} JoinSplit(s: string, sep: char)
    ensures Join(Split(s, sep), sep) == s
    decreases |s|
  {
    var i := IndexOf(s, sep);
    if i < |s| {
      var tail := s[i + 1..];
      JoinSplit(tail, sep);
      SplitAtSeparator(s, sep);
      JoinCons(s[..i], Split(tail, sep), sep);
      assert s == s[..i] + [sep] + tail;
    }
  }

  /** Two separator-free words joined by one separator split back into exactly those words. */
  lemma SplitPair(a: string, b: string, sep: char)
    requires sep !in a && sep !in b
    ensures Split(a + [sep] + b, sep) == [a, b]
  {
    var s := a + [sep] + b;
    assert forall k :: 0 <= k < |a| ==> s[k] == a[k];
    assert IndexOf(s, sep) == |a| by {
      assert s == a + ([sep] + b);
      IndexOfPrefix(a, [sep] + b, sep);
    }
    assert s[..|a|] == a;
    assert s[|a| + 1..] == b;
    IndexOfAbsent(b, sep);
  }

  lemma {:induction false} IndexOfAbsent(s: string, c: char)
    requires c !in s
    ensures IndexOf(s, c) == |s|
    decreases |s|
  {
    if |s| > 0 {
      assert s[0] in s;
      assert forall x :: x in s[1..] ==> x in s;
      IndexOfAbsent(s[1..], c);
    }
  }

  lemma {:induction false} IndexOfPrefix(a: string, b: string, c: char)
    requires c !in a && |b| > 0 && b[0] == c
    ensures IndexOf(a + b, c) == |a|
    decreases |a|
  {
    if |a| > 0 {
      assert a[0] in a;
      assert forall x :: x in a[1..] ==> x in a;
      assert (a + b)[1..] == a[1..] + b;
      IndexOfPrefix(a[1..], b, c);
    } else {
      assert a + b == b;
    }
  }

  /** Binary (code-point) ordering of strings, which the store uses for a
      string sort key under its default collation. */
  predicate LexLe(a: string, b: string)
    decreases |a|
  {
    |a| == 0 || (|b| > 0 && (a[0] < b[0] || (a[0] == b[0] && LexLe(a[1..], b[1..]))))
  }

  lemma {:induction false} LexLeTotal(a: string, b: string)
    ensures LexLe(a, b) || LexLe(b, a)
    decreases |a|
  {
    if |a| > 0 && |b| > 0 && a[0] == b[0] {
      LexLeTotal(a[1..], b[1..]);
    }
  }

  lemma {:induction false} LexLeTransitive(a: string, b: string, c: string)
    requires LexLe(a, b) && LexLe(b, c)
    ensures LexLe(a, c)
    decreases |a|
  {
    if |a| > 0 && a[0] == b[0] && b[0] == c[0] {
      LexLeTransitive(a[1..], b[1..], c[1..]);
    }
  }
}

=== FILE: user_service.dfy ===
/** The user service: the account listings and lookups the administrative
    routes serve, each returning password-free projections.
 */
module UserService {
  import opened Results
  import opened Domain
  import opened Listing
  import opened Format
  import AuthService

  /** `getAllCustomers`: one projection per stored customer, each once. */
  method GetAllCustomers(s: Store) returns (views: seq<CustomerView>)
    ensures |views| == |s.customers|
    ensures forall id :: id in s.customers ==> FormatCustomer(id, s.customers[id]) in views
    ensures forall k :: 0 <= k < |views| ==> views[k].id in s.customers && views[k] == FormatCustomer(views[k].id, s.customers[views[k].id])
    ensures forall i, j :: 0 <= i < j < |views| ==> views[i].id != views[j].id
  {
    var found := Find(s.customers, Everything());
    ListingSize(found, s.customers, Everything());
    assert MatchingIds(s.customers, Everything()) == s.customers.Keys;
    views := ProjectCustomers(found);
    forall k | 0 <= k < |views|
      ensures views[k].id == found[k].0 && views[k] == FormatCustomer(views[k].id, s.customers[views[k].id])
    {
      assert views[k] == FormatCustomer(found[k].0, found[k].1);
    }
    forall id | id in s.customers ensures FormatCustomer(id, s.customers[id]) in views {
      var k :| 0 <= k < |found| && found[k].0 == id;
      assert views[k] == FormatCustomer(id, s.customers[id]);
    }
  }

  /** `getAllManagers`: one projection per stored manager, each once. */
  method GetAllManagers(s: Store) returns (views: seq<ManagerView>)
    ensures |views| == |s.managers|
    ensures forall id :: id in s.managers ==> FormatManager(id, s.managers[id]) in views
    ensures forall k :: 0 <= k < |views| ==> views[k].id in s.managers && views[k] == FormatManager(views[k].id, s.managers[views[k].id])
    ensures forall i, j :: 0 <= i < j < |views| ==> views[i].id != views[j].id
  {
    var found := Find(s.managers, Everything());
    ListingSize(found, s.managers, Everything());
    assert MatchingIds(s.managers, Everything()) == s.managers.Keys;
    views := ProjectManagers(found);
    forall k | 0 <= k < |views|
      ensures views[k].id == found[k].0 && views[k] == FormatManager(views[k].id, s.managers[views[k].id])
    {
      assert views[k] == FormatManager(found[k].0, found[k].1);
    }
    forall id | id in s.managers ensures FormatManager(id, s.managers[id]) in views {
      var k :| 0 <= k < |found| && found[k].0 == id;
      assert views[k] == FormatManager(id, s.managers[id]);
    }
  }

  /** The projection of each listed customer, in listing order. */
  function ProjectCustomers(entries: seq<(Id, Customer)>): (views: seq<CustomerView>)
    ensures |views| == |entries|
    ensures forall k :: 0 <= k < |entries| ==> views[k] == FormatCustomer(entries[k].0, entries[k].1)
  {
    if |entries| == 0 then [] else [FormatCustomer(entries[0].0, entries[0].1)] + ProjectCustomers(entries[1..])
  }

  /** The projection of each listed manager, in listing order. */
  function ProjectManagers(entries: seq<(Id, Manager)>): (views: seq<ManagerView>)
    ensures |views| == |entries|
    ensures forall k :: 0 <= k < |entries| ==> views[k] == FormatManager(entries[k].0, entries[k].1)
  {
    if |entries| == 0 then [] else [FormatManager(entries[0].0, entries[0].1)] + ProjectManagers(entries[1..])
  }

  /** `getCustomerById`. */
  function GetCustomerById(s: Store, id: Id): (r: Result<CustomerView>)
    ensures r.Ok? <==> id in s.customers
    ensures r.Ok? ==> r.value == FormatCustomer(id, s.customers[id])
    ensures r.Err? ==> r.error == Fail("Customer not found")
  {
    if id in s.customers then Ok(FormatCustomer(id, s.customers[id])) else Err(Fail("Customer not found"))
  }

  /** `getManagerById`. */
  function GetManagerById(s: Store, id: Id): (r: Result<ManagerView>)
    ensures r.Ok? <==> id in s.managers
    ensures r.Ok? ==> r.value == FormatManager(id, s.managers[id])
    ensures r.Err? ==> r.error == Fail("Manager not found")
  {
    if id in s.managers then Ok(FormatManager(id, s.managers[id])) else Err(Fail("Manager not found"))
  }

  /** The administrative lookups and the profile route show an account the
      same way and fail with the same message; a password change is
      invisible to both. */
  lemma LookupsAgreeWithProfile(s: Store, id: Id, p: string)
    ensures GetCustomerById(s, id).Ok? ==> AuthService.GetProfile(s, id, CUSTOMER) == Ok(AuthService.CustomerProfile(GetCustomerById(s, id).value))
    ensures GetManagerById(s, id).Ok? ==> AuthService.GetProfile(s, id, MANAGER) == Ok(AuthService.ManagerProfile(GetManagerById(s, id).value))
    ensures GetCustomerById(s, id).Err? <==> AuthService.GetProfile(s, id, CUSTOMER) == Err(Fail("Customer not found"))
    ensures GetManagerById(s, id).Err? <==> AuthService.GetProfile(s, id, MANAGER) == Err(Fail("Manager not found"))
    ensures id in s.customers ==>
      GetCustomerById(s.(customers := s.customers[id := s.customers[id].(password := p)]), id) == GetCustomerById(s, id)
    ensures id in s.managers ==>
      GetManagerById(s.(managers := s.managers[id := s.managers[id].(password := p)]), id) == GetManagerById(s, id)
  {
  }
}
